=== FILE: README.md ===
# M-Pesa Daraja gateway: transaction lifecycle model

A Dafny model of the transaction lifecycle in a Django integration with Safaricom's M-Pesa Daraja API.

The `daraja` app's gateway classes cover four flows:
- STK Push (Lipa na M-Pesa Online) through `C2B`;
- business-to-customer payments and pay-bill top-ups through `B2C`;
- business-to-business payments through `B2B`.

Each flow has two halves:
- An **initiator** builds a request payload, authenticates with a cached OAuth access token, posts it, and records one Pending transaction when the gateway accepts it.
- A **callback handler** later normalises the result code, finds or creates the transaction by its correlation id, copies the result parameters onto it when the payment succeeded, and saves the status.

The input serializers normalise what the API views pass to the initiators. The `mpesa` app carries a second copy of the STK flow (`Express`), of the token cache and of the STK serializer.

Modules:

- `Wrappers`: `Option` and `Result`.
- `PyValue`: decoded JSON values and the Python exceptions the code can raise:
  - subscripting (KeyError, TypeError), `dict.get` and truthiness;
  - iterating a value in a `for` loop.
- `PyStr`: `str.strip`, `str.split`, `str(int)` and `int(str)`.
- `DateTime`: date-times and the `%Y%m%d%H%M%S` and `%d.%m.%Y %H:%M:%S` renderings `strftime` writes.
- `Strptime`: `datetime.strptime` for those two formats, as CPython's `_strptime` runs it. The format becomes a regular expression whose directives accept more than the padded form (`%d` is `3[0-1]|[1-2]\d|0[1-9]|[1-9]| [1-9]`; a space is `\s+`). Alternatives are tried in order with backtracking. Text left after the match, a field `int()` rejects, and an impossible date raise ValueError.
- `StrptimeLenient`: two stamps no `strftime` writes that the formats still accept.
- `Base64`: base 64 (section 4 of RFC 4648) and ASCII encoding, with both round trips.
- `Store`: a table of records keyed by a correlation id.
  - It provides `create`, `get_or_create` and `save`.
  - `unique` says whether the key column has a unique constraint.
  - `Store.Table` is the class the handlers mutate.
- `MpesaBase`:
  - HTTP replies;
  - the shared token cache (`MpesaBase.TokenCache`, one slot `"mpesa_access_token"`);
  - `check_status`;
  - the bookkeeping every initiator does with a reply.
- `ResultParams`: reading a B2C/B2B `Result` callback body.
- `C2B`, `B2C`, `B2CTopup`, `B2B`, `Express`: the flows.
- `Serializers`: the `validate` hooks.

The handlers work on a record value: they copy it out of the table, update it, and `Put` it back. The success loops are methods with `while` loops, proved against left folds over the parameter list. Idempotence of a repeated callback is proved through "patches": each parameter becomes a field write, and writes are collected and applied.

Status codes follow the migration: 0 Complete, 1 Pending (the default), 2 Failed. Nothing makes a status monotonic: every callback overwrites it.

## Model

| member | source | states |
|---|---|---|
| MpesaBase.ResponseJson | daraja/gateway/c2b.py:107 | `response.json()`: the decoded body, ConnectionError when there is no answer, JSONDecodeError when the body is not JSON |
| MpesaBase.RecordReply | daraja/gateway/c2b.py:107-120 | an initiator's bookkeeping: exactly one row, keyed by the reply's id field (None when absent, where the NOT NULL key column would make Django raise; see "## Left out"), is appended iff the body decodes and the reply is accepted; the body is returned unchanged; a non-dictionary accepted body raises AttributeError; a clashing key on a unique column raises IntegrityError |
| MpesaBase.Lookup | daraja/gateway/base.py:34 | `cache.get`: the stored value until its expiry instant, then None |
| MpesaBase.ExpiryFor | daraja/gateway/base.py:41 | Django's timeout rule: a positive timeout expires that many seconds later; zero or less expires at once |
| MpesaBase.TokenExchange | daraja/gateway/base.py:36-41 | the `try` body: the entry `cache.set` writes holds exactly the token the exchange returns |
| MpesaBase.TokenOutcome | daraja/gateway/base.py:34-45 | the token returned: the cached value when truthy; otherwise the exchanged token, or "Invalid credentials" |
| MpesaBase.CacheAfter | daraja/gateway/base.py:34-44 | the slot is written only on a miss whose exchange succeeds |
| MpesaBase.GetAccessToken | daraja/gateway/base.py:28-45 | the method returns `TokenOutcome` and leaves the slot as `CacheAfter` says; mpesa/gateway/base.py:35-52 is the same code on the same slot |
| MpesaBase.ExchangeSucceeds | daraja/gateway/base.py:37-41 | a dictionary reply with an integer `expires_in` caches `access_token` with that timeout and returns it |
| MpesaBase.ExchangeFails | daraja/gateway/base.py:36-44 | any failed exchange on a miss raises "Invalid credentials" and writes nothing |
| MpesaBase.TokenReused | daraja/gateway/base.py:34-35 | a truthy exchanged token is returned by every later call before its expiry, with no exchange and no write |
| MpesaBase.FalsyTokenRefetched | daraja/gateway/base.py:35-41 | a missing or empty `access_token` is cached and returned, and the next call exchanges again (the same in mpesa/gateway/base.py:41-48) |
| MpesaBase.InitiatorName | daraja/gateway/b2c.py:53 | `username[0]`: the first character, IndexError for an empty name |
| MpesaBase.CheckStatus | daraja/gateway/base.py:47-67 | 0 exactly when `Result.ResultCode` exists and `int()` of it is 0; 2 otherwise; always 0 or 2 |
| MpesaBase.ResultCodeFound | daraja/gateway/base.py:60-63 | a present code decides the status through `int()` |
| MpesaBase.CheckStatusOfCode | daraja/gateway/base.py:61-63 | an integer code, sent as a number or as its decimal text, gives 0 iff it is 0 |
| MpesaBase.CheckStatusUnreadable | daraja/gateway/base.py:64-66 | a missing `Result` or `ResultCode`, or a code `int()` rejects, gives 2 |
| PyStr.Split | daraja/gateway/b2c.py:125 | `str.split(sep)`: the parts contain no separator, and joining them with it restores the text |
| PyStr.SplitJoin | daraja/gateway/b2c.py:125 | splitting a join of separator-free parts returns those parts |
| PyStr.StripUnchanged | daraja/gateway/b2c.py:126 | a text without outer whitespace is its own `strip()` |
| PyStr.NatToStr | daraja/serializers.py:25 | `str(n)`: at least one digit, all digits, no leading zero |
| PyStr.IntToStrParses | daraja/gateway/base.py:61 | `int(str(n)) == n` for every integer |
| PyStr.ParseIntPositive | daraja/gateway/base.py:61 | `int()` of a digit string is its decimal value |
| Strptime.Match | daraja/gateway/b2b.py:119 | the regular-expression match from the start of the text: it ends inside the text and captures one field per directive |
| Strptime.Ints | daraja/gateway/b2b.py:119 | `int()` of every captured field: one value per field, each the `int()` of its field |
| Strptime.IntsEach | daraja/gateway/b2b.py:119 | the converse: when `int()` accepts every field, the conversion succeeds with those values |
| Strptime.Pick | daraja/gateway/b2c.py:129 | a directive takes its first alternative that fits and lets the rest of the expression match |
| Strptime.ParseCompact | daraja/gateway/b2b.py:119 | `strptime(_, '%Y%m%d%H%M%S')`: a result is a valid date-time |
| Strptime.ParseDotted | daraja/gateway/b2c.py:129 | `strptime(_, '%d.%m.%Y %H:%M:%S')`: a result is a valid date-time |
| Strptime.CompactOfMatch | daraja/gateway/b2b.py:119 | a match that covers the whole text, with fields `int()` accepts that make a valid date, is what the compact parse returns |
| Strptime.DottedOfMatch | daraja/gateway/b2c.py:129 | the same for the dotted format, fields read as day, month, year |
| Strptime.CompactRoundTrip | daraja/gateway/c2b.py:65 | formatting a valid date-time compactly and parsing it back gives the same date-time |
| Strptime.DottedRoundTrip | daraja/gateway/b2c.py:129 | the same for the dotted format |
| StrptimeLenient.MinuteSecondSplit | daraja/gateway/b2b.py:119 | on `33` the minute's two-digit alternative leaves the second nothing, so the match backtracks to one digit each |
| StrptimeLenient.CompactBacktracks | daraja/gateway/b2b.py:119 | the twelve-digit `202411112233` is read as 2024-11-11 22:03:03 |
| StrptimeLenient.DottedShort | daraja/gateway/b2c.py:129 | the unpadded `1.2.2024 3:04:05` is read as 2024-02-01 03:04:05 |
| DateTime.CompactIsFourteenDigits | daraja/gateway/c2b.py:65 | the compact timestamp is 14 digits |
| Base64.Encode | daraja/gateway/c2b.py:68 | `b64encode`: output length is four per started group of three bytes |
| Base64.DecodeEncode | daraja/gateway/c2b.py:68 | decoding an encoding returns the bytes |
| Base64.EncodeDecode | daraja/gateway/c2b.py:68 | a text that decodes is the encoding of what it decodes to |
| Base64.AsciiEncode | daraja/gateway/c2b.py:67 | `encode("ascii")`: one byte per character, UnicodeEncodeError iff some character is not ASCII |
| Base64.AsciiRoundTrip | daraja/gateway/c2b.py:67-68 | `decode` of an ASCII encoding restores the text |
| Store.Find | daraja/gateway/c2b.py:145-149 | the first row carrying the key |
| Store.Insert | daraja/gateway/c2b.py:112-119 | `create`: appends one row, IntegrityError when a unique column already holds the non-NULL key |
| Store.FindOrCreate | daraja/gateway/c2b.py:145-149 | `get_or_create`: the one row with the key (rows unchanged), or a new default row appended; MultipleObjectsReturned when several rows carry the key |
| Store.Save | daraja/gateway/c2b.py:193 | `save()` on a table whose only unique column is the key (the STK table, daraja/migrations/0001_initial.py:107): replaces one record, keeps every key and every other row, so no unique clash can arise; tables with a second unique column save through `SaveUnique` |
| Store.Slot | daraja/gateway/b2c.py:102-104 | where `get_or_create` puts the key: the row that holds it, or one past the end |
| Store.Fetched | daraja/gateway/b2c.py:102-104 | the record `get_or_create` hands back: the stored one, or the defaults when no row holds the key |
| Store.SaveUnique | daraja/migrations/0001_initial.py:80 | `save()` under a unique column besides the key: IntegrityError, and nothing written, exactly when another row holds the record's non-NULL value; otherwise `Save`, and the constraint still holds |
| Store.Commit | daraja/gateway/b2c.py:162-163 | the save at the end of a callback: the row's position, or IntegrityError with the rows unchanged, exactly as `SaveUnique` decides |
| Store.TakenAfterSave | daraja/migrations/0001_initial.py:80 | whether a value clashes does not depend on the row being saved |
| Store.CommitAgain | daraja/gateway/b2c.py:162-163 | saving the same record again succeeds and changes nothing |
| Store.FindOrCreateTwice | daraja/gateway/c2b.py:145-149 | a second lookup finds the same row and changes nothing |
| Store.FindOrCreateAfterSave | daraja/gateway/b2c.py:162-163 | saving a row does not change what a later lookup returns |
| Store.InsertKeepsDistinct | daraja/gateway/b2c.py:79-87 | `create` keeps the unique constraint |
| Store.FindOrCreateKeepsDistinct | daraja/gateway/b2c.py:102-104 | `get_or_create` keeps the unique constraint |
| Store.DistinctCount | daraja/gateway/b2c.py:102-104 | under the constraint a non-NULL key is held by at most one row |
| Store.CountAppend | daraja/gateway/b2c.py:218-227 | appending a row adds one to the count of its key only |
| Store.Table.Create | daraja/gateway/c2b.py:112-119 | the table's `create` does what `Insert` says |
| Store.Table.GetOrCreate | daraja/gateway/c2b.py:146-148 | the table's `get_or_create` does what `FindOrCreate` says |
| Store.Table.Put | daraja/gateway/c2b.py:193 | the table's `save` does what `Save` says |
| Store.Table.PutUnique | daraja/gateway/b2c.py:163 | the table's `save` under a unique column does what `SaveUnique` says |
| C2B.GeneratePassword | daraja/gateway/c2b.py:59-68 | the timestamp is the 14-digit compact clock reading; the password base-64-decodes to short code, API key and timestamp; UnicodeEncodeError iff that text is not ASCII; mpesa/gateway/express.py:32-41 is the same code |
| C2B.StkPush | daraja/gateway/c2b.py:70-120 | password error raises before anything happens; a token error posts nothing and records nothing; otherwise the posted payload is the password pair and arguments, and `RecordReply` on a unique table when `response.ok`, with the request address |
| C2B.PayloadTimestampMatchesPassword | daraja/gateway/c2b.py:84-97 | payload `Timestamp` is the password's; `BusinessShortCode` = `PartyB` = short code; `PartyA` = `PhoneNumber` = phone; `Amount` = amount |
| C2B.StkCheckStatus | daraja/gateway/c2b.py:122-135 | the raw `Body.stkCallback.ResultCode`; when missing, NameError instead of the documented 1 |
| C2B.HandleSuccessfulPay | daraja/gateway/c2b.py:151-177 | the loop computes `StkSuccess` |
| C2B.FoldKeepsLastNamed | daraja/gateway/c2b.py:162-175 | amount, phone number and transaction date end as the value of the last item of that name, or None |
| C2B.FoldRejectsReceipt | daraja/gateway/c2b.py:165-166 | any item named `MpesaReceiptNumber` makes the loop raise, so a completed loop never sets the receipt |
| C2B.SuccessFields | daraja/gateway/c2b.py:160-177 | a completed success handler sets the four fields to the last values of their names, the receipt to None, and leaves an empty list's record unchanged |
| C2B.StkCallback | daraja/gateway/c2b.py:179-195 | the saved row is the one keyed by `Body.stkCallBack.CheckoutRequestID` (existing iff one row had it), with the raw status; success fields only when the status `== 0`; it completes whenever the key and the success fields read; a failure after the lookup keeps the created row; no other row changes |
| C2B.StkCallbackHandler | daraja/gateway/c2b.py:179-195 | the handler on the table does what `StkCallback` says |
| C2B.GatewayCallbackRejected | daraja/gateway/c2b.py:131-145 | a body that spells the key `stkCallback` throughout raises and changes no row |
| C2B.SuccessReapplied | daraja/gateway/c2b.py:160-175 | the success handler applied to its own result, whatever status was set in between, changes nothing |
| C2B.StkCallbackReplay | daraja/gateway/c2b.py:179-195 | a callback delivered twice leaves the table as after the first |
| ResultParams.PublicName | daraja/gateway/b2c.py:124-126 | the stripped segment after the first `-`; IndexError without `-`; AttributeError for a non-text value |
| ResultParams.PublicNameOfSegments | daraja/gateway/b2c.py:125-126 | the name is the second `-`-separated segment stripped, whatever follows it |
| ResultParams.DottedTime | daraja/gateway/b2c.py:128-129 | a result is a valid date-time read from a text value; TypeError for a non-text value |
| ResultParams.DottedTimeReadsRendering | daraja/gateway/b2c.py:128-129 | the dotted rendering of a valid date-time is read back as that date-time |
| ResultParams.CompactTime | daraja/gateway/b2b.py:118-119 | the same as `DottedTime` for the compact format |
| ResultParams.CompactTimeReadsRendering | daraja/gateway/b2b.py:118-119 | the compact rendering of a valid date-time is read back as that date-time |
| ResultParams.NoneIfFalsy | daraja/gateway/b2b.py:129-130 | `value if value else None` |
| B2C.B2cSend | daraja/gateway/b2c.py:32-88 | the initiator name is read first (IndexError); token errors post nothing; the payload carries the fresh originator id; a 200 reply records one Pending row under `ConversationID` whose originator id is the payload's; the body is returned unchanged |
| B2C.SendPayloadRouting | daraja/gateway/b2c.py:51-63 | `PartyA` is the short code, `PartyB` the phone, `QueueTimeOutURL` equals `ResultURL`, `CommandID` is `BusinessPayment` |
| B2C.B2cItemWrite | daraja/gateway/b2c.py:123-138 | per key: the split public name, the dotted completion time, the flag true iff the value is `"Y"`, each of the three balances raw to its own field; ignored exactly when the key is none of the six; for each of the six, success exactly when `Value` is there and converts; a failing `Key` read raises its error |
| B2C.CollectAppend | daraja/gateway/b2c.py:123-138 | one more parameter at the end of the list puts its write on top of what the earlier ones collected |
| B2C.LastCompletedAtWins | daraja/gateway/b2c.py:127-129 | the last `TransactionCompletedDateTime` in the list decides the completion time |
| B2C.HandleSuccessfulPay | daraja/gateway/b2c.py:107-141 | the loop computes `B2cSuccess`: transaction id from `Result.TransactionID`, then every parameter's write in order |
| B2C.PatchedAgain | daraja/gateway/b2c.py:120-138 | applying the same parameters twice is applying them once, and they never touch the status or the transaction id |
| B2C.B2cCallback | daraja/gateway/b2c.py:143-165 | status is 0 or 2; on 2 only the status changes; on 0 the success fields; a missing `ConversationID` raises and changes nothing; two rows with the id raise MultipleObjectsReturned; otherwise, once the success fields read, it completes unless another row holds the transaction id being saved (IntegrityError, unique per daraja/migrations/0001_initial.py:80); a failure after the lookup keeps the created row; the unique transaction id is kept; no other row changes |
| B2C.B2cCallbackHandler | daraja/gateway/b2c.py:143-165 | the handler on the table does what `B2cCallback` says |
| B2C.SuccessReapplied | daraja/gateway/b2c.py:120-138 | the success handler applied to its own result, whatever status was set in between, changes nothing |
| B2C.B2cCallbackReplay | daraja/gateway/b2c.py:157-163 | a callback delivered twice leaves the table as after the first, whatever uuid the second would draw |
| B2CTopup.RequesterIp | daraja/gateway/b2c.py:217 | `""` without a request, else its `REMOTE_ADDR` |
| B2CTopup.TopUp | daraja/gateway/b2c.py:167-228 | the payload uses identifier types `"4"` and the top-up callback URL; a 200 reply records one Pending row on a non-unique table; the body is returned unchanged |
| B2CTopup.AcceptedTopupRecorded | daraja/gateway/b2c.py:215-227 | an accepted dictionary reply is always recorded, even under a conversation id already on file |
| B2CTopup.TopupItemWrite | daraja/gateway/b2c.py:259-275 | per key: balances through `get_value`, the compact time, the currency raw, the public name unsplit, falsy charges as None; ignored exactly when the key is none of those read; for each, success exactly when `Value` is there and converts; a failing `Key` read raises its error |
| B2CTopup.CollectAppend | daraja/gateway/b2c.py:259-275 | one more parameter at the end of the list puts its write on top of what the earlier ones collected |
| B2CTopup.LastCompletedAtWins | daraja/gateway/b2c.py:263-265 | the last `TransCompletedTime` in the list decides the completion time |
| B2CTopup.HandleSuccessfulTopup | daraja/gateway/b2c.py:246-279 | the loop computes `TopupSuccess` |
| B2CTopup.PatchedAgain | daraja/gateway/b2c.py:256-275 | applying the same parameters twice is applying them once |
| B2CTopup.TopupCallback | daraja/gateway/b2c.py:281-298 | as for B2C: MultipleObjectsReturned when two top-ups share the conversation id, IntegrityError on a transaction id another top-up holds (daraja/migrations/0001_initial.py:52), completion otherwise once the success fields read |
| B2CTopup.TopupCallbackHandler | daraja/gateway/b2c.py:281-298 | the handler on the table does what `TopupCallback` says |
| B2CTopup.SuccessReapplied | daraja/gateway/b2c.py:256-275 | the success handler applied to its own result, whatever status was set in between, changes nothing |
| B2CTopup.TopupCallbackReplay | daraja/gateway/b2c.py:291-296 | a callback delivered twice leaves the table as after the first |
| B2B.CommandId | daraja/gateway/b2b.py:53 | `BusinessBuyGoods` iff the recipient type is `buygoods`, else `BusinessPayBill` |
| B2B.B2bSend | daraja/gateway/b2b.py:26-91 | a 200 reply records one Pending row with the payload's originator id, the recipient number and the recipient type; the body is returned unchanged |
| B2B.SendPayloadRouting | daraja/gateway/b2b.py:49-64 | `PartyA` is the short code, `PartyB` the recipient, both identifier types 4, `AccountReference` and `Requester` as given, `QueueTimeOutURL` equals `ResultURL` |
| B2B.B2bItemWrite | daraja/gateway/b2b.py:113-130 | per key: balances through `get_value`, the compact time, the split public name, the currency raw, falsy charges as None; ignored exactly when the key is none of those read; for each, success exactly when `Value` is there and converts; a failing `Key` read raises its error |
| B2B.CollectAppend | daraja/gateway/b2b.py:113-130 | one more parameter at the end of the list puts its write on top of what the earlier ones collected |
| B2B.LastCompletedAtWins | daraja/gateway/b2b.py:117-119 | the last `TransCompletedTime` in the list decides the completion time |
| B2B.HandleSuccessfulPay | daraja/gateway/b2b.py:100-134 | the loop computes `B2bSuccess` |
| B2B.PatchedAgain | daraja/gateway/b2b.py:110-130 | applying the same parameters twice is applying them once; the failure description is kept |
| B2B.B2bCallback | daraja/gateway/b2b.py:136-156 | status 2 stores `Result.ResultDesc` (raising when missing) and the status; status 0 applies the success fields and leaves the failure description; completion unless the transaction id is taken (IntegrityError, daraja/migrations/0001_initial.py:23); the unique column is kept; no other row changes |
| B2B.B2bCallbackHandler | daraja/gateway/b2b.py:136-156 | the handler on the table does what `B2bCallback` says |
| B2B.SuccessReapplied | daraja/gateway/b2b.py:110-130 | the success handler applied to its own result, whatever status was set in between, changes nothing |
| B2B.B2bCallbackReplay | daraja/gateway/b2b.py:147-155 | a callback delivered twice leaves the table as after the first |
| Express.StkPush | mpesa/gateway/express.py:43-93 | the `daraja` payload and password; an `ok` reply records one Pending row with the request's `ip` on a non-unique table; the body is returned unchanged |
| Express.AcceptedPushRecorded | mpesa/gateway/express.py:82-92 | an accepted dictionary reply is always recorded, as one more row with its checkout id |
| Express.StkCheckStatus | mpesa/gateway/express.py:95-108 | the raw `ResultCode`, or 1 when it cannot be read; it never raises |
| Express.HandleSuccessfulPay | mpesa/gateway/express.py:124-150 | the loop computes `StkSuccess` |
| Express.SuccessFields | mpesa/gateway/express.py:133-150 | amount and phone number end as the last values of their names, the receipt as None; the transaction date has no column |
| Express.StkCallback | mpesa/gateway/express.py:152-168 | as for `daraja`, with MultipleObjectsReturned for a shared checkout id and, on a created row, the fresh transaction number and the empty text Django gives `phone_number` and `amount`; it completes whenever the key reads, the lookup is unambiguous and the success fields read |
| Express.StkCallbackHandler | mpesa/gateway/express.py:152-168 | the handler on the table does what `StkCallback` says |
| Express.UnknownCheckoutCreated | mpesa/gateway/express.py:160-166 | a failure callback for an unknown checkout id appends one row with the fresh transaction number, empty `phone_number` and `amount`, and the callback's status |
| Express.UnreadableStatusIsPending | mpesa/gateway/express.py:103-108 | an unreadable result code files the record as Pending and changes nothing else |
| Express.SuccessReapplied | mpesa/gateway/express.py:133-148 | the success handler applied to its own result, whatever status was set in between, changes nothing |
| Express.StkCallbackReplay | mpesa/gateway/express.py:160-166 | a callback delivered twice leaves the table as after the first |
| Serializers.ValidateStkCheckout | daraja/serializers.py:12-28 | amount < 1 rejected; the phone loses its first character; an empty reference or description becomes `"<phone>-<amount>"` from the unstripped phone; every other key is kept; mpesa/serializers.py:11-28 is the same code |
| Serializers.ValidateB2cCheckout | daraja/serializers.py:31-47 | the same with remarks and occasion |
| Serializers.ValidateB2bCheckout | daraja/serializers.py:55-70 | amount < 1 rejected; an absent phone raises KeyError; a truthy phone is put back stripped, a falsy one dropped; an empty remarks gets the default |
| Serializers.DefaultTextReadsBack | daraja/serializers.py:25 | the default text is the phone, a `-`, and digits that parse back to the amount |
| Serializers.TrxCode | daraja/serializers.py:74-81 | the code table's `get`: a code exactly for the five table keys |
| Serializers.SentToBusinessHasNoCode | daraja/serializers.py:79-94 | among the accepted types only `SentToBusiness` maps to None |
| Serializers.ValidateDynamicQr | daraja/serializers.py:86-107 | a type outside the choices is rejected; the type becomes its code; the phone is removed; phone-paying types need a truthy phone, which becomes the stripped party identifier; other types need a truthy party identifier, which is kept; every other key is kept unchanged and no key is added beyond the code and the party identifier |
| Serializers.ValidateTopupInput | daraja/serializers.py:117-121 | only `phone_number` is touched (stripped when truthy, dropped otherwise); the requester's phone passes unchanged |

## Left out

- HTTP: outbound calls are inputs.
  - A reply is a status code and an optional decoded body (`MpesaBase.HttpOutcome`).
  - URLs, headers, Basic authentication and the posted JSON encoding are not modelled.
  - The payload and the bearer token are returned as `Outbound`.
- The clock, the time zone and `uuid.uuid4()` are inputs:
  - a `DateTime` reading for the STK timestamp;
  - integer seconds for the cache;
  - a string for each fresh uuid.
- Uuid collisions on the unique `transaction_no` of the `mpesa` table, and on the unique `originator_conversation_id` of the B2B and B2C tables (daraja/migrations/0001_initial.py:27,93), are not modelled: each fresh uuid is an input, and the initiators store it without a uniqueness check.
- PyStr.ParseInt: only the ASCII digits `0`-`9` are digits. Python's `int()` also accepts other Unicode decimal digits (Arabic-Indic, full-width, ...); those texts are rejected here. Surrounding whitespace is the full Unicode `str.isspace` set, as in Python.
- Strptime.ParseCompact: `\d` is ASCII-only here; CPython's `re` also matches other Unicode decimal digits in a `str` pattern. `\s` is the full Unicode whitespace set, as in `re`. Strptime.ParseDotted has the same restriction. Case folding (`re.IGNORECASE`) does not matter for these formats.
- ResultParams.DottedTime: the text is not promised to be the `strftime` rendering of the date-time it yields, because `strptime` also accepts unpadded fields and runs of whitespace (`StrptimeLenient.DottedShort`); `DottedTimeReadsRendering` states the direction that does hold.
- ResultParams.CompactTime: likewise, `%Y%m%d%H%M%S` reads text no `strftime` writes (`StrptimeLenient.CompactBacktracks`); `CompactTimeReadsRendering` states the direction that does hold.
- `float(expiry)`: only integer `expires_in` values, sent as numbers or as decimal text, are modelled. Fractional timeouts and floats in JSON are left out; so are `Decimal` precision and `max_length`.
- Django ORM: tables are in-memory sequences of rows.
  - NOT NULL violations are not modelled: a created row holds the model defaults. Two cases reach them:
    - an integer `amount` without default (daraja/migrations/0001_initial.py:28,57,109) on a `get_or_create` miss, where Django would insert NULL;
    - a `create` from an accepted reply that lacks its id field. The key columns `conversation_id`, `checkout_request_id` (daraja/migrations/0001_initial.py:22,79,107) and the `mpesa` `checkout_request_id` (mpesa/models.py:22) are NOT NULL, so Django raises IntegrityError where `RecordReply` appends a row keyed None.
  - NOT NULL text columns without a default hold the empty string on a created row, as Django's `Field.get_default` gives them: the `mpesa` `phone_number` and `amount`, the `daraja` STK `phone_number` and the B2B `recipient_type`.
  - B2CTopup.TopupCallback: `paybill_number` (daraja/migrations/0001_initial.py:65) is kept as the integer `b2c_top_up` passes, so a created row holds None there, not the empty string. The difference is unobservable: that create already fails on the NULL `amount`.
  - The field-name mismatches between the gateways and the models are not modelled: `create` stores the values listed, as the migration's columns name them. Examples: `ip` against `ip_address`; `occasion` against `occassion`.
  - The transaction date `daraja` writes on an STK record is kept. The `mpesa` model has no such column, so `Express` drops it.
- Aliasing: a handler copies the record out of the table, updates the copy, and saves it back. The intermediate `save()` inside the B2C, top-up and B2B success handlers writes the same values the final one does, so it is folded into that save.
- `logging` calls, and the debug `print` in `b2b_send` (daraja/gateway/b2b.py:47-48), have no effect on the model.
- `phonenumber_field`: phone numbers are opaque texts.
  - Formatting and parsing are not modelled.
  - `PhoneNumber(raw_input=...)` in the STK success handlers stores the value it wraps.
- `ResultParams.ValueReader` (`self.get_value`) is defined in no gateway class, so it is an uninterpreted function parameter.
- Serializers: `validate` is modelled on the attributes it receives.
  - DRF field validation other than `IntegerField(min_value=1)` and `ChoiceField` is not modelled: required fields, blank strings and phone parsing.
  - `B2BCheckoutSerializer.account_num` is a tuple, not a field (daraja/serializers.py:58), so DRF never validates or passes it; the model treats it as any other key.
- Serializers.ValidateDynamicQr: a missing `transaction_type` raises KeyError in `validate`. DRF would report the required field first.
- Views, urls and admin are not part of this model. So are:
  - `register_c2b_urls`, `validation_handler` and `confirmation_handler`;
  - the bill manager and `mpesa` dynamic-QR/C2B wrappers;
  - `b2b_express_*`, which is not defined in any file.
- `mpesa/gateway/b2c.py`, `mpesa/gateway/b2b.py` and `mpesa/gateway.py` are not part of this model: they import models the `mpesa` app does not define.
- Behaviour of the code worth noting:
  - The STK default reference is built from the unstripped phone, so it reads `"+254712345678-100"`, not `"254712345678-100"`.
  - A parameter that fails to parse aborts the whole success handler; nothing after the lookup is saved.
  - Statuses are not monotonic: a later callback overwrites a terminal status.

=== FILE: b2b.dfy ===
/** The B2B (business to business) flow of the `daraja` app's `B2B` gateway:
    `b2b_send` and the callback that completes a `B2BTransaction`. */
module B2B {
  import opened Wrappers
  import opened PyValue
  import opened DateTime
  import opened Store
  import opened MpesaBase
  import opened ResultParams

  /* ---------- the B2BTransaction record ---------- */

  /** A `B2BTransaction` row apart from its key `conversation_id`. */
  datatype B2bRecord = B2bRecord(
    transactionId: Json,
    status: int,
    ipAddress: Option<string>,
    remarks: Option<string>,
    originatorConversationId: string,
    amount: Option<int>,
    debitAccountBalance: Json,
    debitPartyCharges: Json,
    transactionTime: Option<DateTime>,
    recipientPublicName: Option<string>,
    currency: Json,
    recipientNumber: Option<int>,
    accountReference: Option<string>,
    initiatorAccountCurrentBalance: Json,
    recipientType: Option<string>,
    requester: Option<string>,
    failureDescription: Json)

  /** Status 1, Pending: the column default. */
  const Pending: int := 1

  /** The column defaults `get_or_create` stores: the empty string for the NOT NULL
      `recipient_type` text column, NULL for the integer `amount`, which has no default
      (Django's insert raises there), and a fresh uuid4, given here as `originator`, for
      `originator_conversation_id`. */
  function BlankB2b(originator: string): B2bRecord {
    B2bRecord(JNull, Pending, None, None, originator, None, JNull, JNull, None, None, JNull, None, None, JNull, Some(""),
              None, JNull)
  }

  /* ---------- b2b_send ---------- */

  /** `"BusinessBuyGoods" if recipient_type == 'buygoods' else "BusinessPayBill"`. */
  function CommandId(recipientType: string): (command: string)
    ensures command == "BusinessBuyGoods" <==> recipientType == "buygoods"
    ensures command == "BusinessBuyGoods" || command == "BusinessPayBill"
  {
    if recipientType == "buygoods" then "BusinessBuyGoods" else "BusinessPayBill"
  }

  datatype B2bPayload = B2bPayload(
    originatorConversationId: string,
    initiator: string,
    securityCredential: string,
    commandId: string,
    senderIdentifierType: int,
    recieverIdentifierType: int,
    amount: int,
    partyA: string,
    partyB: int,
    accountReference: string,
    requester: Option<string>,
    remarks: string,
    queueTimeOutUrl: string,
    resultUrl: string)

  /** The payload `b2b_send` builds: both identifier types the number 4 (a short
      code) and the B2B callback URL twice. */
  function SendPayload(cfg: Settings, originator: string, initiator: string, amount: int, partyB: int,
                       remarks: string, recipientType: string, phone: Option<string>, accountReference: string)
    : B2bPayload
  {
    var callback := cfg.baseUrl + cfg.b2bCallbackPath;
    B2bPayload(originator, initiator, cfg.securityCredentials, CommandId(recipientType), 4, 4, amount, cfg.shortCode,
               partyB, accountReference, phone, remarks, callback, callback)
  }

  /** The record `b2b_send` creates for an accepted request. */
  function SentRecord(originator: string, ip: Option<string>, remarks: string, amount: int, partyB: int,
                      accountReference: string, recipientType: string, phone: Option<string>): B2bRecord
  {
    BlankB2b(originator).(ipAddress := ip, remarks := Some(remarks), amount := Some(amount),
                          recipientNumber := Some(partyB), accountReference := Some(accountReference),
                          recipientType := Some(recipientType), requester := phone)
  }

  /** `b2b_send` with `originator` the `str(uuid.uuid4())` it draws; `phone` defaults
      to None and `accountReference` to `""` in the source. A 200 reply records one
      Pending transaction under the reply's `ConversationID`. */
  method B2bSend(cfg: Settings, cache: TokenCache, table: Table<B2bRecord>, clock: int, exchange: HttpOutcome,
                 reply: HttpOutcome, request: Request, originator: string, amount: int, partyB: int,
                 remarks: string, recipientType: string, phone: Option<string>, accountReference: string)
    returns (r: Result<Json, PyError>, posted: Option<Outbound<B2bPayload>>)
    requires table.Valid() && table.unique
    modifies cache, table
    ensures table.Valid()
    ensures InitiatorName(cfg).Err? ==>
      r == Err(IndexError) && posted.None? && table.rows == old(table.rows) && cache.entry == old(cache.entry)
    ensures InitiatorName(cfg).Ok? ==> cache.entry == CacheAfter(old(cache.entry), clock, exchange)
    ensures InitiatorName(cfg).Ok? && TokenOutcome(old(cache.entry), clock, exchange).Err? ==>
      r == Err(InvalidCredentials) && posted.None? && table.rows == old(table.rows)
    ensures InitiatorName(cfg).Ok? && TokenOutcome(old(cache.entry), clock, exchange).Ok? ==>
      && posted == Some(Outbound(TokenOutcome(old(cache.entry), clock, exchange).value,
                                 SendPayload(cfg, originator, InitiatorName(cfg).value, amount, partyB, remarks,
                                             recipientType, phone, accountReference)))
      && (r, table.rows) == RecordReply(old(table.rows), true, reply, When200, "ConversationID",
                                        SentRecord(originator, request.remoteAddr, remarks, amount, partyB,
                                                   accountReference, recipientType, phone))
    ensures |table.rows| == |old(table.rows)| + 1 ==>
      && posted.Some?
      && table.rows[|old(table.rows)|].rec.originatorConversationId == posted.value.payload.originatorConversationId
      && table.rows[|old(table.rows)|].rec.recipientNumber == Some(posted.value.payload.partyB)
      && table.rows[|old(table.rows)|].rec.recipientType == Some(recipientType)
  {
    var initiator := InitiatorName(cfg);
    if initiator.Err? {
      return Err(initiator.error), None;
    }
    var payload := SendPayload(cfg, originator, initiator.value, amount, partyB, remarks, recipientType, phone,
                               accountReference);
    var token := GetAccessToken(cache, clock, exchange);
    if token.Err? {
      return Err(token.error), None;
    }
    posted := Some(Outbound(token.value, payload));
    var body := ResponseJson(reply);
    if body.Err? {
      return Err(body.error), posted;
    }
    if Accepts(When200, reply.statusCode) {
      var conversationId := DictGet(body.value, "ConversationID");
      if conversationId.Err? {
        return Err(conversationId.error), posted;
      }
      var created := table.Create(conversationId.value,
                                  SentRecord(originator, request.remoteAddr, remarks, amount, partyB,
                                             accountReference, recipientType, phone));
      if created.Err? {
        return Err(created.error), posted;
      }
    }
    r := Ok(body.value);
  }

  /** The payload pays `partyB` from the short code, names both parties as short
      codes, and has the gateway report to the same URL on timeout and on result. */
  lemma SendPayloadRouting(cfg: Settings, originator: string, initiator: string, amount: int, partyB: int,
                           remarks: string, recipientType: string, phone: Option<string>, accountReference: string)
    ensures var p := SendPayload(cfg, originator, initiator, amount, partyB, remarks, recipientType, phone,
                                 accountReference);
      && p.partyA == cfg.shortCode && p.partyB == partyB
      && p.accountReference == accountReference && p.requester == phone
      && p.senderIdentifierType == p.recieverIdentifierType == 4
      && p.queueTimeOutUrl == p.resultUrl == cfg.baseUrl + cfg.b2bCallbackPath
      && (p.commandId == "BusinessBuyGoods" <==> recipientType == "buygoods")
  {
  }

  /* ---------- the success parameters ---------- */

  /** The one field a result parameter sets, with its converted value. */
  datatype B2bWrite =
    | SetDebitBalance(debit: Json)
    | SetCompletedAt(time: DateTime)
    | SetPublicName(name: string)
    | SetCurrency(currency: Json)
    | SetInitiatorBalance(initiatorBalance: Json)
    | SetCharges(charges: Json)
    | Ignore

  /** One pass of the loop body of `b2b_handle_successful_pay`, with `getValue` for
      `self.get_value`. */
  function B2bItemWrite(getValue: ValueReader, item: Json): (r: Result<B2bWrite, PyError>)
    ensures r.Ok? ==> Index(item, "Key").Ok?
    ensures r.Ok? && r.value.SetDebitBalance? ==>
      && KeyIs(item, "DebitAccountBalance") && Index(item, "Value").Ok?
      && getValue(Index(item, "Value").value, "BasicAmount") == Ok(r.value.debit)
    ensures r.Ok? && r.value.SetInitiatorBalance? ==>
      && KeyIs(item, "InitiatorAccountCurrentBalance") && Index(item, "Value").Ok?
      && getValue(Index(item, "Value").value, "BasicAmount") == Ok(r.value.initiatorBalance)
    ensures r.Ok? && r.value.SetCompletedAt? ==>
      && KeyIs(item, "TransCompletedTime") && Valid(r.value.time)
      && Index(item, "Value").Ok? && CompactTime(Index(item, "Value").value) == Ok(r.value.time)
    ensures r.Ok? && r.value.SetPublicName? ==>
      && KeyIs(item, "ReceiverPartyPublicName") && Index(item, "Value").Ok?
      && PublicName(Index(item, "Value").value) == Ok(r.value.name)
    ensures r.Ok? && r.value.SetCurrency? ==> KeyIs(item, "Currency") && Index(item, "Value") == Ok(r.value.currency)
    ensures r.Ok? && r.value.SetCharges? ==>
      && KeyIs(item, "DebitPartyCharges") && Index(item, "Value").Ok?
      && (Truthy(Index(item, "Value").value) ==> r.value.charges == Index(item, "Value").value)
      && (!Truthy(Index(item, "Value").value) ==> r.value.charges == JNull)
    ensures r.Ok? && r.value.Ignore? <==>
      && Index(item, "Key").Ok?
      && !KeyIs(item, "DebitAccountBalance") && !KeyIs(item, "TransCompletedTime")
      && !KeyIs(item, "ReceiverPartyPublicName") && !KeyIs(item, "Currency")
      && !KeyIs(item, "InitiatorAccountCurrentBalance") && !KeyIs(item, "DebitPartyCharges")
    // when each recognised key goes through: the value is present and converts
    ensures KeyIs(item, "DebitAccountBalance") || KeyIs(item, "InitiatorAccountCurrentBalance") ==>
      (r.Ok? <==> Index(item, "Value").Ok? && getValue(Index(item, "Value").value, "BasicAmount").Ok?)
    ensures KeyIs(item, "TransCompletedTime") ==>
      (r.Ok? <==> Index(item, "Value").Ok? && CompactTime(Index(item, "Value").value).Ok?)
    ensures KeyIs(item, "ReceiverPartyPublicName") ==>
      (r.Ok? <==> Index(item, "Value").Ok? && PublicName(Index(item, "Value").value).Ok?)
    ensures KeyIs(item, "Currency") || KeyIs(item, "DebitPartyCharges") ==> (r.Ok? <==> Index(item, "Value").Ok?)
    ensures Index(item, "Key").Err? ==> r == Err(Index(item, "Key").error)
  {
    var key :- Index(item, "Key");
    if key == JStr("DebitAccountBalance") then
      var value :- Index(item, "Value");
      var debit :- getValue(value, "BasicAmount");
      Ok(SetDebitBalance(debit))
    else if key == JStr("TransCompletedTime") then
      var value :- Index(item, "Value");
      var time :- CompactTime(value);
      Ok(SetCompletedAt(time))
    else if key == JStr("ReceiverPartyPublicName") then
      var value :- Index(item, "Value");
      var name :- PublicName(value);
      Ok(SetPublicName(name))
    else if key == JStr("Currency") then
      var value :- Index(item, "Value");
      Ok(SetCurrency(value))
    else if key == JStr("InitiatorAccountCurrentBalance") then
      var value :- Index(item, "Value");
      var balance :- getValue(value, "BasicAmount");
      Ok(SetInitiatorBalance(balance))
    else if key == JStr("DebitPartyCharges") then
      var value :- Index(item, "Value");
      Ok(SetCharges(NoneIfFalsy(value)))
    else Ok(Ignore)
  }

  /** The fields the loop has written so far, each with the value of its latest
      write. */
  datatype B2bPatch = B2bPatch(
    debitBalance: Option<Json>,
    completedAt: Option<DateTime>,
    publicName: Option<string>,
    currency: Option<Json>,
    initiatorBalance: Option<Json>,
    charges: Option<Json>)

  const NoPatch: B2bPatch := B2bPatch(None, None, None, None, None, None)

  function Absorb(p: B2bPatch, w: B2bWrite): B2bPatch {
    match w
    case SetDebitBalance(v) => p.(debitBalance := Some(v))
    case SetCompletedAt(time) => p.(completedAt := Some(time))
    case SetPublicName(name) => p.(publicName := Some(name))
    case SetCurrency(v) => p.(currency := Some(v))
    case SetInitiatorBalance(v) => p.(initiatorBalance := Some(v))
    case SetCharges(v) => p.(charges := Some(v))
    case Ignore => p
  }

  /** The loop over the parameters, first to last; the first failing item raises. */
  function Collect(getValue: ValueReader, items: seq<Json>, p: B2bPatch): Result<B2bPatch, PyError> {
    if items == [] then Ok(p)
    else
      var w :- B2bItemWrite(getValue, items[0]);
      Collect(getValue, items[1..], Absorb(p, w))
  }

  /** The loop's step: the item at `i` either raises or adds its write. */
  lemma CollectStep(getValue: ValueReader, items: seq<Json>, i: nat, p: B2bPatch)
    requires i < |items|
    ensures B2bItemWrite(getValue, items[i]).Err? ==>
      Collect(getValue, items[i..], p) == Err(B2bItemWrite(getValue, items[i]).error)
    ensures B2bItemWrite(getValue, items[i]).Ok? ==>
      Collect(getValue, items[i..], p) == Collect(getValue, items[i + 1..], Absorb(p, B2bItemWrite(getValue, items[i]).value))
  {
    assert items[i..][0] == items[i] && items[i..][1..] == items[i + 1..];
  }

  /** One more parameter at the end puts its write on top of what the others
      collected. */
  lemma {:induction false} CollectAppend(getValue: ValueReader, items: seq<Json>, item: Json, p: B2bPatch)
    requires Collect(getValue, items, p).Ok? && B2bItemWrite(getValue, item).Ok?
    ensures Collect(getValue, items + [item], p)
         == Ok(Absorb(Collect(getValue, items, p).value, B2bItemWrite(getValue, item).value))
    decreases |items|
  {
    if items == [] {
      assert [] + [item] == [item];
    } else {
      var xs := items + [item];
      assert xs[0] == items[0] && xs[1..] == items[1..] + [item];
      var q := Absorb(p, B2bItemWrite(getValue, items[0]).value);
      assert Collect(getValue, xs, p) == Collect(getValue, xs[1..], q);
      assert Collect(getValue, items, p) == Collect(getValue, items[1..], q);
      CollectAppend(getValue, items[1..], item, q);
    }
  }

  /** The last completion time in the list is the one the record keeps. */
  lemma LastCompletedAtWins(getValue: ValueReader, items: seq<Json>, item: Json, p: B2bPatch)
    requires Collect(getValue, items, p).Ok? && B2bItemWrite(getValue, item).Ok?
    requires KeyIs(item, "TransCompletedTime")
    ensures Collect(getValue, items + [item], p).Ok?
    ensures Collect(getValue, items + [item], p).value.completedAt == Some(CompactTime(Index(item, "Value").value).value)
  {
    CollectAppend(getValue, items, item, p);
  }

  /** `rec` with every written field replaced. */
  function Patched(rec: B2bRecord, p: B2bPatch): B2bRecord {
    rec.(
      debitAccountBalance := if p.debitBalance.Some? then p.debitBalance.value else rec.debitAccountBalance,
      transactionTime := if p.completedAt.Some? then p.completedAt else rec.transactionTime,
      recipientPublicName := if p.publicName.Some? then p.publicName else rec.recipientPublicName,
      currency := if p.currency.Some? then p.currency.value else rec.currency,
      initiatorAccountCurrentBalance :=
        if p.initiatorBalance.Some? then p.initiatorBalance.value else rec.initiatorAccountCurrentBalance,
      debitPartyCharges := if p.charges.Some? then p.charges.value else rec.debitPartyCharges)
  }

  /** What `b2b_handle_successful_pay` makes of `rec`. */
  function B2bSuccess(getValue: ValueReader, data: Json, rec: B2bRecord): Result<B2bRecord, PyError> {
    var list :- ParameterList(data);
    var transactionId :- TransactionId(data);
    var items :- LoopItems(list);
    var p :- Collect(getValue, items, NoPatch);
    Ok(Patched(rec.(transactionId := transactionId), p))
  }

  /** `b2b_handle_successful_pay`, loop for loop, writing the record's fields. */
  method HandleSuccessfulPay(getValue: ValueReader, data: Json, rec: B2bRecord) returns (r: Result<B2bRecord, PyError>)
    ensures r == B2bSuccess(getValue, data, rec)
  {
    var list := ParameterList(data);
    if list.Err? {
      return Err(list.error);
    }
    var transactionId := TransactionId(data);
    if transactionId.Err? {
      return Err(transactionId.error);
    }
    var transaction := rec.(transactionId := transactionId.value);
    var items := LoopItems(list.value);
    if items.Err? {
      return Err(items.error);
    }
    ghost var start := transaction;
    ghost var p := NoPatch;
    var i := 0;
    while i < |items.value|
      invariant 0 <= i <= |items.value|
      invariant Collect(getValue, items.value, NoPatch) == Collect(getValue, items.value[i..], p)
      invariant transaction == Patched(start, p)
    {
      CollectStep(getValue, items.value, i, p);
      var w := B2bItemWrite(getValue, items.value[i]);
      if w.Err? {
        return Err(w.error);
      }
      match w.value {
        case SetDebitBalance(v) =>
          transaction := transaction.(debitAccountBalance := v);
        case SetCompletedAt(time) =>
          transaction := transaction.(transactionTime := Some(time));
        case SetPublicName(name) =>
          transaction := transaction.(recipientPublicName := Some(name));
        case SetCurrency(v) =>
          transaction := transaction.(currency := v);
        case SetInitiatorBalance(v) =>
          transaction := transaction.(initiatorAccountCurrentBalance := v);
        case SetCharges(v) =>
          transaction := transaction.(debitPartyCharges := v);
        case Ignore =>
      }
      p := Absorb(p, w.value);
      i := i + 1;
    }
    return Ok(transaction);
  }

  /** Writing the same parameters again changes nothing, and they never touch the
      status, the transaction id or the failure description. */
  lemma PatchedAgain(rec: B2bRecord, p: B2bPatch, status: int, transactionId: Json)
    ensures Patched(Patched(rec, p).(status := status, transactionId := transactionId), p)
         == Patched(rec, p).(status := status, transactionId := transactionId)
    ensures Patched(rec, p).failureDescription == rec.failureDescription
  {
  }

  /* ---------- the callback ---------- */

  /** The `transaction_id` column, unique and nullable. */
  function TransactionColumn(rec: B2bRecord): Json {
    rec.transactionId
  }

  /** `b2b_callback_handler` on the table `rows`. `newId` is the uuid4 a created row
      receives as `originator_conversation_id`. A failure (status 2) records
      `Result.ResultDesc`, raising when it is missing; a success (status 0) applies
      the parameters; then the status is saved, which raises IntegrityError when
      another row already holds the transaction id. */
  function B2bCallback(getValue: ValueReader, rows: seq<Row<B2bRecord>>, data: Json, newId: string)
    : (res: (Result<nat, PyError>, seq<Row<B2bRecord>>))
    ensures res.0.Ok? ==>
      var i := res.0.value;
      var before := if i < |rows| then rows[i].rec else BlankB2b(newId);
      && ConversationKey(data).Ok?
      && i < |res.1| && res.1[i].key == ConversationKey(data).value
      && (i < |rows| <==> Count(rows, ConversationKey(data).value) == 1)
      && res.1[i].rec.status == CheckStatus(data)
      && (CheckStatus(data) == 2 ==>
            ResultDesc(data).Ok? && res.1[i].rec == before.(failureDescription := ResultDesc(data).value, status := 2))
      && (CheckStatus(data) == 0 ==>
            && B2bSuccess(getValue, data, before).Ok?
            && res.1[i].rec == B2bSuccess(getValue, data, before).value.(status := 0)
            && res.1[i].rec.failureDescription == before.failureDescription)
    ensures (ConversationKey(data).Ok? && Count(rows, ConversationKey(data).value) <= 1 && CheckStatus(data) == 2
             && ResultDesc(data).Err?) ==> res.0 == Err(ResultDesc(data).error)
    ensures ConversationKey(data).Err? ==> res == (Err(ConversationKey(data).error), rows)
    ensures ConversationKey(data).Ok? && Count(rows, ConversationKey(data).value) >= 2 ==>
      res == (Err(MultipleObjectsReturned), rows)
    // once nothing it reads raises, the handler completes unless the transaction id is taken
    ensures
      && ConversationKey(data).Ok? && Count(rows, ConversationKey(data).value) <= 1
      && (CheckStatus(data) == 2 ==> ResultDesc(data).Ok?)
      && (CheckStatus(data) != 2 ==>
            B2bSuccess(getValue, data, Fetched(rows, ConversationKey(data).value, BlankB2b(newId))).Ok?)
      ==>
      var key := ConversationKey(data).value;
      var before := Fetched(rows, key, BlankB2b(newId));
      var saved := if CheckStatus(data) != 2 then B2bSuccess(getValue, data, before).value.transactionId else before.transactionId;
      res.0 == if Taken(rows, Slot(rows, key), saved, TransactionColumn) then Err(IntegrityError) else Ok(Slot(rows, key))
    ensures UniqueColumn(rows, TransactionColumn) ==> UniqueColumn(res.1, TransactionColumn)
    // a failure after the lookup keeps the row get_or_create created
    ensures res.0.Err? && ConversationKey(data).Ok? ==>
      res.1 == FindOrCreate(rows, ConversationKey(data).value, BlankB2b(newId)).1
    ensures |rows| <= |res.1| <= |rows| + 1
    ensures forall j :: 0 <= j < |rows| && !(res.0.Ok? && j == res.0.value) ==> res.1[j] == rows[j]
  {
    var status := CheckStatus(data);
    match ConversationKey(data)
    case Err(e) => (Err(e), rows)
    case Ok(key) =>
      var (found, rows1) := FindOrCreate(rows, key, BlankB2b(newId));
      if found.Err? then (Err(found.error), rows1)
      else
        var i := found.value;
        var rec := rows1[i].rec;
        if status == 2 then
          match ResultDesc(data)
          case Err(e) => (Err(e), rows1)
          case Ok(description) => Commit(rows1, i, rec.(failureDescription := description, status := status), TransactionColumn)
        else
          match B2bSuccess(getValue, data, rec)
          case Err(e) => (Err(e), rows1)
          case Ok(paid) => Commit(rows1, i, paid.(status := status), TransactionColumn)
  }

  /** `b2b_callback_handler` against the table. */
  method B2bCallbackHandler(getValue: ValueReader, table: Table<B2bRecord>, data: Json, newId: string)
    returns (r: Result<nat, PyError>)
    requires table.Valid()
    modifies table
    ensures table.Valid()
    ensures (r, table.rows) == B2bCallback(getValue, old(table.rows), data, newId)
  {
    var status := CheckStatus(data);
    var key := ConversationKey(data);
    if key.Err? {
      return Err(key.error);
    }
    var found := table.GetOrCreate(key.value, BlankB2b(newId));
    if found.Err? {
      return Err(found.error);
    }
    var i := found.value;
    var transaction := table.rows[i].rec;
    if status == 2 {
      var description := ResultDesc(data);
      if description.Err? {
        return Err(description.error);
      }
      transaction := transaction.(failureDescription := description.value);
    }
    if status == 0 {
      var paid := HandleSuccessfulPay(getValue, data, transaction);
      if paid.Err? {
        return Err(paid.error);
      }
      transaction := paid.value;
    }
    transaction := transaction.(status := status);
    r := table.PutUnique(i, transaction, TransactionColumn);
  }

  /** Applying the success parameters to a record they were already applied to
      changes nothing but what the status write changed. */
  lemma SuccessReapplied(getValue: ValueReader, data: Json, rec: B2bRecord, status: int)
    requires B2bSuccess(getValue, data, rec).Ok?
    ensures var paid := B2bSuccess(getValue, data, rec).value;
      B2bSuccess(getValue, data, paid.(status := status)) == Ok(paid.(status := status))
  {
    var items := LoopItems(ParameterList(data).value).value;
    var p := Collect(getValue, items, NoPatch).value;
    PatchedAgain(rec, p, status, TransactionId(data).value);
  }

  /** A callback delivered twice leaves the table as the first delivery left it. */
  lemma B2bCallbackReplay(getValue: ValueReader, rows: seq<Row<B2bRecord>>, data: Json, newId: string, newId2: string)
    requires B2bCallback(getValue, rows, data, newId).0.Ok?
    ensures B2bCallback(getValue, B2bCallback(getValue, rows, data, newId).1, data, newId2)
         == B2bCallback(getValue, rows, data, newId)
  {
    var key := ConversationKey(data).value;
    var status := CheckStatus(data);
    var (found, rows1) := FindOrCreate(rows, key, BlankB2b(newId));
    var i := found.value;
    FindOrCreateTwice(rows, key, BlankB2b(newId));
    var rows2 := B2bCallback(getValue, rows, data, newId).1;
    var rec := rows1[i].rec;
    assert FindOrCreate(rows1, key, BlankB2b(newId2)) == FindOrCreate(rows1, key, BlankB2b(newId));
    FindOrCreateAfterSave(rows1, i, rows2[i].rec, key, BlankB2b(newId2));
    CountSameKeys(rows1, rows2, key);
    if status == 0 {
      SuccessReapplied(getValue, data, rec, 0);
    }
    CommitAgain(rows1, i, rows2[i].rec, TransactionColumn);
  }
}

=== FILE: b2c.dfy ===
/** The B2C (business to customer) payment flow of the `daraja` app's `B2C` gateway:
    `b2c_send` and the callback that completes a `B2CTransaction`. */
module B2C {
  import opened Wrappers
  import opened PyValue
  import opened DateTime
  import opened Store
  import opened MpesaBase
  import opened ResultParams

  /* ---------- the B2CTransaction record ---------- */

  /** A `B2CTransaction` row apart from its key `conversation_id`. Balances are kept
      as the gateway sends them. */
  datatype B2cRecord = B2cRecord(
    transactionId: Json,
    transactionAmount: Option<int>,
    workingAccountBalance: Json,
    utilityAccountBalance: Json,
    transactionTime: Option<DateTime>,
    recipientPhoneNumber: Option<string>,
    recipientPublicName: Option<string>,
    status: int,
    ipAddress: Option<string>,
    occasion: Option<string>,
    remarks: Option<string>,
    isRecipientRegisteredCustomer: Option<bool>,
    chargesPaidAvailableBalance: Json,
    originatorConversationId: string)

  /** Status 1, Pending: the column default. */
  const Pending: int := 1

  /** The model defaults; `originator_conversation_id` defaults to a fresh uuid4,
      given here as `originator`. */
  function BlankB2c(originator: string): B2cRecord {
    B2cRecord(JNull, None, JNull, JNull, None, None, None, Pending, None, None, None, None, JNull, originator)
  }

  /* ---------- b2c_send ---------- */

  datatype B2cPayload = B2cPayload(
    originatorConversationId: string,
    initiatorName: string,
    securityCredential: string,
    commandId: string,
    amount: int,
    partyA: string,
    partyB: string,
    remarks: string,
    queueTimeOutUrl: string,
    resultUrl: string,
    occasion: string)

  /** The payload `b2c_send` builds: the fresh id `originator`, the first character of
      the user name as initiator, and the callback URL twice. */
  function SendPayload(cfg: Settings, originator: string, initiator: string, amount: int, phone: string,
                       occasion: string, remarks: string): B2cPayload
  {
    var callback := cfg.baseUrl + cfg.b2cCallbackPath;
    B2cPayload(originator, initiator, cfg.securityCredentials, "BusinessPayment", amount, cfg.shortCode, phone,
               remarks, callback, callback, occasion)
  }

  /** The record `b2c_send` creates for an accepted request. */
  function SentRecord(originator: string, ip: Option<string>, occasion: string, remarks: string, phone: string,
                      amount: int): B2cRecord
  {
    BlankB2c(originator).(ipAddress := ip, occasion := Some(occasion), remarks := Some(remarks),
                          recipientPhoneNumber := Some(phone), transactionAmount := Some(amount))
  }

  /** `b2c_send` with `originator` the `str(uuid.uuid4())` it draws. The initiator
      name is read while the payload is built, before the token; a 200 reply records
      one Pending transaction under the reply's `ConversationID`. */
  method B2cSend(cfg: Settings, cache: TokenCache, table: Table<B2cRecord>, clock: int, exchange: HttpOutcome,
                 reply: HttpOutcome, request: Request, originator: string,
                 amount: int, phone: string, occasion: string, remarks: string)
    returns (r: Result<Json, PyError>, posted: Option<Outbound<B2cPayload>>)
    requires table.Valid() && table.unique
    modifies cache, table
    ensures table.Valid()
    ensures InitiatorName(cfg).Err? ==>
      r == Err(IndexError) && posted.None? && table.rows == old(table.rows) && cache.entry == old(cache.entry)
    ensures InitiatorName(cfg).Ok? ==> cache.entry == CacheAfter(old(cache.entry), clock, exchange)
    ensures InitiatorName(cfg).Ok? && TokenOutcome(old(cache.entry), clock, exchange).Err? ==>
      r == Err(InvalidCredentials) && posted.None? && table.rows == old(table.rows)
    ensures InitiatorName(cfg).Ok? && TokenOutcome(old(cache.entry), clock, exchange).Ok? ==>
      && posted == Some(Outbound(TokenOutcome(old(cache.entry), clock, exchange).value,
                                 SendPayload(cfg, originator, InitiatorName(cfg).value, amount, phone, occasion, remarks)))
      && (r, table.rows) == RecordReply(old(table.rows), true, reply, When200, "ConversationID",
                                        SentRecord(originator, request.remoteAddr, occasion, remarks, phone, amount))
    ensures |table.rows| == |old(table.rows)| + 1 ==>
      posted.Some? && table.rows[|old(table.rows)|].rec.originatorConversationId == posted.value.payload.originatorConversationId
  {
    var initiator := InitiatorName(cfg);
    if initiator.Err? {
      return Err(initiator.error), None;
    }
    var payload := SendPayload(cfg, originator, initiator.value, amount, phone, occasion, remarks);
    var token := GetAccessToken(cache, clock, exchange);
    if token.Err? {
      return Err(token.error), None;
    }
    posted := Some(Outbound(token.value, payload));
    var body := ResponseJson(reply);
    if body.Err? {
      return Err(body.error), posted;
    }
    if Accepts(When200, reply.statusCode) {
      var conversationId := DictGet(body.value, "ConversationID");
      if conversationId.Err? {
        return Err(conversationId.error), posted;
      }
      var created := table.Create(conversationId.value,
                                  SentRecord(originator, request.remoteAddr, occasion, remarks, phone, amount));
      if created.Err? {
        return Err(created.error), posted;
      }
    }
    r := Ok(body.value);
  }

  /** The payload pays `phone` from the short code and has the gateway report to the
      same URL on timeout and on result. */
  lemma SendPayloadRouting(cfg: Settings, originator: string, initiator: string, amount: int, phone: string,
                           occasion: string, remarks: string)
    ensures var p := SendPayload(cfg, originator, initiator, amount, phone, occasion, remarks);
      && p.partyA == cfg.shortCode && p.partyB == phone
      && p.queueTimeOutUrl == p.resultUrl == cfg.baseUrl + cfg.b2cCallbackPath
      && p.originatorConversationId == originator && p.amount == amount
  {
  }

  /* ---------- the success parameters ---------- */

  /** The one field a result parameter sets, with its converted value. */
  datatype B2cWrite =
    | SetPublicName(name: string)
    | SetCompletedAt(time: DateTime)
    | SetRegistered(flag: bool)
    | SetChargesBalance(charges: Json)
    | SetUtilityBalance(utility: Json)
    | SetWorkingBalance(working: Json)
    | Ignore

  /** One pass of the loop body of `b2c_handle_successful_pay`: which field the item
      sets and to what, or the exception it raises. */
  function B2cItemWrite(item: Json): (r: Result<B2cWrite, PyError>)
    ensures r.Ok? ==> Index(item, "Key").Ok?
    ensures r.Ok? && r.value.SetPublicName? ==>
      && KeyIs(item, "ReceiverPartyPublicName") && Index(item, "Value").Ok?
      && PublicName(Index(item, "Value").value) == Ok(r.value.name)
    ensures r.Ok? && r.value.SetCompletedAt? ==>
      && KeyIs(item, "TransactionCompletedDateTime") && Valid(r.value.time)
      && Index(item, "Value").Ok? && DottedTime(Index(item, "Value").value) == Ok(r.value.time)
    ensures r.Ok? && r.value.SetRegistered? ==>
      && KeyIs(item, "B2CRecipientIsRegisteredCustomer") && Index(item, "Value").Ok?
      && (r.value.flag <==> Index(item, "Value") == Ok(JStr("Y")))
    ensures r.Ok? && r.value.SetChargesBalance? ==>
      KeyIs(item, "B2CChargesPaidAccountAvailableFunds") && Index(item, "Value") == Ok(r.value.charges)
    ensures r.Ok? && r.value.SetUtilityBalance? ==>
      KeyIs(item, "B2CUtilityAccountAvailableFunds") && Index(item, "Value") == Ok(r.value.utility)
    ensures r.Ok? && r.value.SetWorkingBalance? ==>
      KeyIs(item, "B2CWorkingAccountAvailableFunds") && Index(item, "Value") == Ok(r.value.working)
    ensures r.Ok? && r.value.Ignore? <==>
      && Index(item, "Key").Ok?
      && !KeyIs(item, "ReceiverPartyPublicName") && !KeyIs(item, "TransactionCompletedDateTime")
      && !KeyIs(item, "B2CRecipientIsRegisteredCustomer") && !KeyIs(item, "B2CChargesPaidAccountAvailableFunds")
      && !KeyIs(item, "B2CUtilityAccountAvailableFunds") && !KeyIs(item, "B2CWorkingAccountAvailableFunds")
    // when each recognised key goes through: the value is present and converts
    ensures KeyIs(item, "ReceiverPartyPublicName") ==>
      (r.Ok? <==> Index(item, "Value").Ok? && PublicName(Index(item, "Value").value).Ok?)
    ensures KeyIs(item, "TransactionCompletedDateTime") ==>
      (r.Ok? <==> Index(item, "Value").Ok? && DottedTime(Index(item, "Value").value).Ok?)
    ensures
      || KeyIs(item, "B2CRecipientIsRegisteredCustomer") || KeyIs(item, "B2CChargesPaidAccountAvailableFunds")
      || KeyIs(item, "B2CUtilityAccountAvailableFunds") || KeyIs(item, "B2CWorkingAccountAvailableFunds")
      ==> (r.Ok? <==> Index(item, "Value").Ok?)
    ensures Index(item, "Key").Err? ==> r == Err(Index(item, "Key").error)
  {
    var key :- Index(item, "Key");
    if key == JStr("ReceiverPartyPublicName") then
      var value :- Index(item, "Value");
      var name :- PublicName(value);
      Ok(SetPublicName(name))
    else if key == JStr("TransactionCompletedDateTime") then
      var value :- Index(item, "Value");
      var time :- DottedTime(value);
      Ok(SetCompletedAt(time))
    else if key == JStr("B2CRecipientIsRegisteredCustomer") then
      var value :- Index(item, "Value");
      Ok(SetRegistered(value == JStr("Y")))
    else if key == JStr("B2CChargesPaidAccountAvailableFunds") then
      var value :- Index(item, "Value");
      Ok(SetChargesBalance(value))
    else if key == JStr("B2CUtilityAccountAvailableFunds") then
      var value :- Index(item, "Value");
      Ok(SetUtilityBalance(value))
    else if key == JStr("B2CWorkingAccountAvailableFunds") then
      var value :- Index(item, "Value");
      Ok(SetWorkingBalance(value))
    else Ok(Ignore)
  }

  /** The fields the loop has written so far, each with the value of its latest
      write. */
  datatype B2cPatch = B2cPatch(
    publicName: Option<string>,
    completedAt: Option<DateTime>,
    registered: Option<bool>,
    chargesBalance: Option<Json>,
    utilityBalance: Option<Json>,
    workingBalance: Option<Json>)

  const NoPatch: B2cPatch := B2cPatch(None, None, None, None, None, None)

  function Absorb(p: B2cPatch, w: B2cWrite): B2cPatch {
    match w
    case SetPublicName(name) => p.(publicName := Some(name))
    case SetCompletedAt(time) => p.(completedAt := Some(time))
    case SetRegistered(flag) => p.(registered := Some(flag))
    case SetChargesBalance(v) => p.(chargesBalance := Some(v))
    case SetUtilityBalance(v) => p.(utilityBalance := Some(v))
    case SetWorkingBalance(v) => p.(workingBalance := Some(v))
    case Ignore => p
  }

  /** The loop over the parameters, first to last; the first failing item raises. */
  function Collect(items: seq<Json>, p: B2cPatch): Result<B2cPatch, PyError> {
    if items == [] then Ok(p)
    else
      var w :- B2cItemWrite(items[0]);
      Collect(items[1..], Absorb(p, w))
  }

  /** The loop's step: the item at `i` either raises or adds its write. */
  lemma CollectStep(items: seq<Json>, i: nat, p: B2cPatch)
    requires i < |items|
    ensures B2cItemWrite(items[i]).Err? ==> Collect(items[i..], p) == Err(B2cItemWrite(items[i]).error)
    ensures B2cItemWrite(items[i]).Ok? ==>
      Collect(items[i..], p) == Collect(items[i + 1..], Absorb(p, B2cItemWrite(items[i]).value))
  {
    assert items[i..][0] == items[i] && items[i..][1..] == items[i + 1..];
  }

  /** One more parameter at the end puts its write on top of what the others
      collected. */
  lemma {:induction false} CollectAppend(items: seq<Json>, item: Json, p: B2cPatch)
    requires Collect(items, p).Ok? && B2cItemWrite(item).Ok?
    ensures Collect(items + [item], p) == Ok(Absorb(Collect(items, p).value, B2cItemWrite(item).value))
    decreases |items|
  {
    if items == [] {
      assert [] + [item] == [item];
    } else {
      var xs := items + [item];
      assert xs[0] == items[0] && xs[1..] == items[1..] + [item];
      var q := Absorb(p, B2cItemWrite(items[0]).value);
      assert Collect(xs, p) == Collect(xs[1..], q);
      assert Collect(items, p) == Collect(items[1..], q);
      CollectAppend(items[1..], item, q);
    }
  }

  /** The last completion time in the list is the one the record keeps. */
  lemma LastCompletedAtWins(items: seq<Json>, item: Json, p: B2cPatch)
    requires Collect(items, p).Ok? && B2cItemWrite(item).Ok?
    requires KeyIs(item, "TransactionCompletedDateTime")
    ensures Collect(items + [item], p).Ok?
    ensures Collect(items + [item], p).value.completedAt == Some(DottedTime(Index(item, "Value").value).value)
  {
    CollectAppend(items, item, p);
  }

  /** `rec` with every written field replaced. */
  function Patched(rec: B2cRecord, p: B2cPatch): B2cRecord {
    rec.(
      recipientPublicName := if p.publicName.Some? then p.publicName else rec.recipientPublicName,
      transactionTime := if p.completedAt.Some? then p.completedAt else rec.transactionTime,
      isRecipientRegisteredCustomer := if p.registered.Some? then p.registered else rec.isRecipientRegisteredCustomer,
      chargesPaidAvailableBalance := if p.chargesBalance.Some? then p.chargesBalance.value else rec.chargesPaidAvailableBalance,
      utilityAccountBalance := if p.utilityBalance.Some? then p.utilityBalance.value else rec.utilityAccountBalance,
      workingAccountBalance := if p.workingBalance.Some? then p.workingBalance.value else rec.workingAccountBalance)
  }

  /** What `b2c_handle_successful_pay` makes of `rec`: the transaction id from
      `Result.TransactionID`, then every recognised parameter written. */
  function B2cSuccess(data: Json, rec: B2cRecord): Result<B2cRecord, PyError> {
    var list :- ParameterList(data);
    var transactionId :- TransactionId(data);
    var items :- LoopItems(list);
    var p :- Collect(items, NoPatch);
    Ok(Patched(rec.(transactionId := transactionId), p))
  }

  /** `b2c_handle_successful_pay`, loop for loop, writing the record's fields. */
  method HandleSuccessfulPay(data: Json, rec: B2cRecord) returns (r: Result<B2cRecord, PyError>)
    ensures r == B2cSuccess(data, rec)
  {
    var list := ParameterList(data);
    if list.Err? {
      return Err(list.error);
    }
    var transactionId := TransactionId(data);
    if transactionId.Err? {
      return Err(transactionId.error);
    }
    var transaction := rec.(transactionId := transactionId.value);
    var items := LoopItems(list.value);
    if items.Err? {
      return Err(items.error);
    }
    ghost var start := transaction;
    ghost var p := NoPatch;
    var i := 0;
    while i < |items.value|
      invariant 0 <= i <= |items.value|
      invariant Collect(items.value, NoPatch) == Collect(items.value[i..], p)
      invariant transaction == Patched(start, p)
    {
      CollectStep(items.value, i, p);
      var w := B2cItemWrite(items.value[i]);
      if w.Err? {
        return Err(w.error);
      }
      match w.value {
        case SetPublicName(name) =>
          transaction := transaction.(recipientPublicName := Some(name));
        case SetCompletedAt(time) =>
          transaction := transaction.(transactionTime := Some(time));
        case SetRegistered(flag) =>
          transaction := transaction.(isRecipientRegisteredCustomer := Some(flag));
        case SetChargesBalance(v) =>
          transaction := transaction.(chargesPaidAvailableBalance := v);
        case SetUtilityBalance(v) =>
          transaction := transaction.(utilityAccountBalance := v);
        case SetWorkingBalance(v) =>
          transaction := transaction.(workingAccountBalance := v);
        case Ignore =>
      }
      p := Absorb(p, w.value);
      i := i + 1;
    }
    return Ok(transaction);
  }

  /** Writing the same parameters again changes nothing, and they never touch the
      status or the transaction id. */
  lemma PatchedAgain(rec: B2cRecord, p: B2cPatch, status: int, transactionId: Json)
    ensures Patched(Patched(rec, p).(status := status, transactionId := transactionId), p)
         == Patched(rec, p).(status := status, transactionId := transactionId)
  {
  }

  /* ---------- the callback ---------- */

  /** The `transaction_id` column, unique and nullable. */
  function TransactionColumn(rec: B2cRecord): Json {
    rec.transactionId
  }

  /** `b2c_callback_handler` on the table `rows`. `newId` is the uuid4 a created row
      receives as `originator_conversation_id`. The status is normalised first (it
      never raises), the record found or created by `Result.ConversationID` (which
      raises when missing), the success parameters applied when the status is 0, and
      the status saved; the save raises IntegrityError when another row already
      holds the transaction id. The result is the saved row's position. */
  function B2cCallback(rows: seq<Row<B2cRecord>>, data: Json, newId: string)
    : (res: (Result<nat, PyError>, seq<Row<B2cRecord>>))
    ensures res.0.Ok? ==>
      var i := res.0.value;
      var before := if i < |rows| then rows[i].rec else BlankB2c(newId);
      && ConversationKey(data).Ok?
      && i < |res.1| && res.1[i].key == ConversationKey(data).value
      && (i < |rows| <==> Count(rows, ConversationKey(data).value) == 1)
      && res.1[i].rec.status == CheckStatus(data)
      && (res.1[i].rec.status == 0 || res.1[i].rec.status == 2)
      && (CheckStatus(data) == 2 ==> res.1[i].rec == before.(status := 2))
      && (CheckStatus(data) == 0 ==> B2cSuccess(data, before).Ok? && res.1[i].rec == B2cSuccess(data, before).value.(status := 0))
    ensures ConversationKey(data).Err? ==> res == (Err(ConversationKey(data).error), rows)
    // once nothing it reads raises, the handler completes unless the transaction id is taken
    ensures
      && ConversationKey(data).Ok? && Count(rows, ConversationKey(data).value) <= 1
      && (CheckStatus(data) == 0 ==> B2cSuccess(data, Fetched(rows, ConversationKey(data).value, BlankB2c(newId))).Ok?)
      ==>
      var key := ConversationKey(data).value;
      var before := Fetched(rows, key, BlankB2c(newId));
      var saved := if CheckStatus(data) == 0 then B2cSuccess(data, before).value.transactionId else before.transactionId;
      res.0 == if Taken(rows, Slot(rows, key), saved, TransactionColumn) then Err(IntegrityError) else Ok(Slot(rows, key))
    ensures UniqueColumn(rows, TransactionColumn) ==> UniqueColumn(res.1, TransactionColumn)
    ensures ConversationKey(data).Ok? && Count(rows, ConversationKey(data).value) >= 2 ==>
      res == (Err(MultipleObjectsReturned), rows)
    // a failure after the lookup keeps the row get_or_create created
    ensures res.0.Err? && ConversationKey(data).Ok? ==>
      res.1 == FindOrCreate(rows, ConversationKey(data).value, BlankB2c(newId)).1
    ensures |rows| <= |res.1| <= |rows| + 1
    ensures forall j :: 0 <= j < |rows| && !(res.0.Ok? && j == res.0.value) ==> res.1[j] == rows[j]
  {
    var status := CheckStatus(data);
    match ConversationKey(data)
    case Err(e) => (Err(e), rows)
    case Ok(key) =>
      var (found, rows1) := FindOrCreate(rows, key, BlankB2c(newId));
      if found.Err? then (Err(found.error), rows1)
      else
        var i := found.value;
        var rec := rows1[i].rec;
        if status == 0 then
          match B2cSuccess(data, rec)
          case Err(e) => (Err(e), rows1)
          case Ok(paid) => Commit(rows1, i, paid.(status := status), TransactionColumn)
        else Commit(rows1, i, rec.(status := status), TransactionColumn)
  }

  /** `b2c_callback_handler` against the table. */
  method B2cCallbackHandler(table: Table<B2cRecord>, data: Json, newId: string) returns (r: Result<nat, PyError>)
    requires table.Valid()
    modifies table
    ensures table.Valid()
    ensures (r, table.rows) == B2cCallback(old(table.rows), data, newId)
  {
    var status := CheckStatus(data);
    var key := ConversationKey(data);
    if key.Err? {
      return Err(key.error);
    }
    var found := table.GetOrCreate(key.value, BlankB2c(newId));
    if found.Err? {
      return Err(found.error);
    }
    var i := found.value;
    var transaction := table.rows[i].rec;
    if status == 0 {
      var paid := HandleSuccessfulPay(data, transaction);
      if paid.Err? {
        return Err(paid.error);
      }
      transaction := paid.value;
    }
    transaction := transaction.(status := status);
    r := table.PutUnique(i, transaction, TransactionColumn);
  }

  /** Applying the success parameters to a record they were already applied to
      changes nothing but what the status write changed. */
  lemma SuccessReapplied(data: Json, rec: B2cRecord, status: int)
    requires B2cSuccess(data, rec).Ok?
    ensures var paid := B2cSuccess(data, rec).value;
      B2cSuccess(data, paid.(status := status)) == Ok(paid.(status := status))
  {
    var items := LoopItems(ParameterList(data).value).value;
    var p := Collect(items, NoPatch).value;
    PatchedAgain(rec, p, status, TransactionId(data).value);
  }

  /** A callback delivered twice leaves the table as the first delivery left it:
      every value written depends on the callback alone. */
  lemma B2cCallbackReplay(rows: seq<Row<B2cRecord>>, data: Json, newId: string, newId2: string)
    requires B2cCallback(rows, data, newId).0.Ok?
    ensures B2cCallback(B2cCallback(rows, data, newId).1, data, newId2) == B2cCallback(rows, data, newId)
  {
    var key := ConversationKey(data).value;
    var status := CheckStatus(data);
    var (found, rows1) := FindOrCreate(rows, key, BlankB2c(newId));
    var i := found.value;
    FindOrCreateTwice(rows, key, BlankB2c(newId));
    var rows2 := B2cCallback(rows, data, newId).1;
    var rec := rows1[i].rec;
    assert FindOrCreate(rows1, key, BlankB2c(newId2)) == FindOrCreate(rows1, key, BlankB2c(newId));
    FindOrCreateAfterSave(rows1, i, rows2[i].rec, key, BlankB2c(newId2));
    CountSameKeys(rows1, rows2, key);
    if status == 0 {
      SuccessReapplied(data, rec, 0);
    }
    CommitAgain(rows1, i, rows2[i].rec, TransactionColumn);
  }
}

=== FILE: b2c_topup.dfy ===
/** The top-up flow of the `daraja` app's `B2C` gateway (`BusinessPayToBulk` to a
    pay bill): `b2c_top_up` and the callback that completes a `B2CTopup`. Its key
    column `conversation_id` carries no unique constraint. */
module B2CTopup {
  import opened Wrappers
  import opened PyValue
  import opened DateTime
  import opened Store
  import opened MpesaBase
  import opened ResultParams

  /* ---------- the B2CTopup record ---------- */

  /** A `B2CTopup` row apart from its key `conversation_id`. */
  datatype TopupRecord = TopupRecord(
    transactionId: Json,
    status: int,
    debitAccountBalance: Json,
    transactionTime: Option<DateTime>,
    amount: Option<int>,
    debitPartyCharges: Json,
    receiverPublicName: Json,
    currency: Json,
    requester: Option<string>,
    ipAddress: Option<string>,
    remarks: Option<string>,
    initiatorAccountCurrentBalance: Json,
    paybillNumber: Option<int>,
    accountReference: Option<string>)

  /** Status 1, Pending: the column default. */
  const Pending: int := 1

  /** The column defaults `get_or_create` stores, with NULL for the two NOT NULL
      columns without a default: the integer `amount` (Django's insert raises there)
      and `paybill_number`, whose text the model keeps as the integer the initiator
      stores. */
  const BlankTopup: TopupRecord :=
    TopupRecord(JNull, Pending, JNull, None, None, JNull, JNull, JNull, None, None, None, JNull, None, None)

  /* ---------- b2c_top_up ---------- */

  datatype TopupPayload = TopupPayload(
    initiator: string,
    securityCredential: string,
    commandId: string,
    senderIdentifierType: string,
    recieverIdentifierType: string,
    amount: int,
    partyA: string,
    partyB: int,
    accountReference: string,
    requester: string,
    remarks: string,
    queueTimeOutUrl: string,
    resultUrl: string)

  /** The payload `b2c_top_up` builds: both identifier types `"4"` (a short code) and
      the top-up callback URL twice. */
  function TopupPayloadFor(cfg: Settings, initiator: string, amount: int, paybill: int, remarks: string,
                           requester: string, accountReference: string): TopupPayload
  {
    var callback := cfg.baseUrl + cfg.b2cTopupCallbackPath;
    TopupPayload(initiator, cfg.securityCredentials, "BusinessPayToBulk", "4", "4", amount, cfg.shortCode, paybill,
                 accountReference, requester, remarks, callback, callback)
  }

  /** `request.META.get("REMOTE_ADDR") if request else ""`. */
  function RequesterIp(request: Option<Request>): (ip: Option<string>)
    ensures request.None? ==> ip == Some("")
    ensures request.Some? ==> ip == request.value.remoteAddr
  {
    match request
    case None => Some("")
    case Some(req) => req.remoteAddr
  }

  /** The record `b2c_top_up` creates for an accepted request. */
  function ToppedUpRecord(accountReference: string, remarks: string, ip: Option<string>, requester: string,
                          amount: int, paybill: int): TopupRecord
  {
    BlankTopup.(accountReference := Some(accountReference), remarks := Some(remarks), ipAddress := ip,
                requester := Some(requester), amount := Some(amount), paybillNumber := Some(paybill))
  }

  /** `b2c_top_up`; `requester` and `accountReference` default to `""` and `request`
      to None in the source. A 200 reply records one Pending top-up under the reply's
      `ConversationID`; the table has no unique constraint, so this never clashes. */
  method TopUp(cfg: Settings, cache: TokenCache, table: Table<TopupRecord>, clock: int, exchange: HttpOutcome,
               reply: HttpOutcome, amount: int, paybill: int, remarks: string, requester: string,
               accountReference: string, request: Option<Request>)
    returns (r: Result<Json, PyError>, posted: Option<Outbound<TopupPayload>>)
    requires table.Valid() && !table.unique
    modifies cache, table
    ensures table.Valid()
    ensures InitiatorName(cfg).Err? ==>
      r == Err(IndexError) && posted.None? && table.rows == old(table.rows) && cache.entry == old(cache.entry)
    ensures InitiatorName(cfg).Ok? ==> cache.entry == CacheAfter(old(cache.entry), clock, exchange)
    ensures InitiatorName(cfg).Ok? && TokenOutcome(old(cache.entry), clock, exchange).Err? ==>
      r == Err(InvalidCredentials) && posted.None? && table.rows == old(table.rows)
    ensures InitiatorName(cfg).Ok? && TokenOutcome(old(cache.entry), clock, exchange).Ok? ==>
      && posted == Some(Outbound(TokenOutcome(old(cache.entry), clock, exchange).value,
                                 TopupPayloadFor(cfg, InitiatorName(cfg).value, amount, paybill, remarks, requester,
                                                 accountReference)))
      && (r, table.rows) == RecordReply(old(table.rows), false, reply, When200, "ConversationID",
                                        ToppedUpRecord(accountReference, remarks, RequesterIp(request), requester,
                                                       amount, paybill))
  {
    var initiator := InitiatorName(cfg);
    if initiator.Err? {
      return Err(initiator.error), None;
    }
    var payload := TopupPayloadFor(cfg, initiator.value, amount, paybill, remarks, requester, accountReference);
    var token := GetAccessToken(cache, clock, exchange);
    if token.Err? {
      return Err(token.error), None;
    }
    posted := Some(Outbound(token.value, payload));
    var body := ResponseJson(reply);
    if body.Err? {
      return Err(body.error), posted;
    }
    if Accepts(When200, reply.statusCode) {
      var conversationId := DictGet(body.value, "ConversationID");
      if conversationId.Err? {
        return Err(conversationId.error), posted;
      }
      var ip := RequesterIp(request);
      var _ := table.Create(conversationId.value, ToppedUpRecord(accountReference, remarks, ip, requester, amount, paybill));
    }
    r := Ok(body.value);
  }

  /** Without a unique constraint an accepted top-up whose reply decodes to a
      dictionary is always recorded. */
  lemma AcceptedTopupRecorded(rows: seq<Row<TopupRecord>>, code: int, fields: map<string, Json>, rec: TopupRecord)
    requires code == 200
    ensures var res := RecordReply(rows, false, Reply(code, Some(JObj(fields))), When200, "ConversationID", rec);
      res.0 == Ok(JObj(fields)) && |res.1| == |rows| + 1 && res.1[|rows|].rec == rec
  {
  }

  /* ---------- the success parameters ---------- */

  /** The one field a result parameter sets, with its converted value. */
  datatype TopupWrite =
    | SetDebitBalance(debit: Json)
    | SetCompletedAt(time: DateTime)
    | SetInitiatorBalance(initiatorBalance: Json)
    | SetCurrency(currency: Json)
    | SetReceiverName(name: Json)
    | SetCharges(charges: Json)
    | Ignore

  /** One pass of the loop body of `b2c_handle_successful_topup`, with `getValue` for
      `self.get_value`. The public name is stored whole, not split. */
  function TopupItemWrite(getValue: ValueReader, item: Json): (r: Result<TopupWrite, PyError>)
    ensures r.Ok? ==> Index(item, "Key").Ok?
    ensures r.Ok? && r.value.SetDebitBalance? ==>
      && KeyIs(item, "DebitAccountBalance") && Index(item, "Value").Ok?
      && getValue(Index(item, "Value").value, "BasicAmount") == Ok(r.value.debit)
    ensures r.Ok? && r.value.SetInitiatorBalance? ==>
      && KeyIs(item, "InitiatorAccountCurrentBalance") && Index(item, "Value").Ok?
      && getValue(Index(item, "Value").value, "BasicAmount") == Ok(r.value.initiatorBalance)
    ensures r.Ok? && r.value.SetCompletedAt? ==>
      && KeyIs(item, "TransCompletedTime") && Valid(r.value.time)
      && Index(item, "Value").Ok? && CompactTime(Index(item, "Value").value) == Ok(r.value.time)
    ensures r.Ok? && r.value.SetReceiverName? ==>
      KeyIs(item, "ReceiverPartyPublicName") && Index(item, "Value") == Ok(r.value.name)
    ensures r.Ok? && r.value.SetCurrency? ==> KeyIs(item, "Currency") && Index(item, "Value") == Ok(r.value.currency)
    ensures r.Ok? && r.value.SetCharges? ==>
      && KeyIs(item, "DebitPartyCharges") && Index(item, "Value").Ok?
      && (Truthy(Index(item, "Value").value) ==> r.value.charges == Index(item, "Value").value)
      && (!Truthy(Index(item, "Value").value) ==> r.value.charges == JNull)
    ensures r.Ok? && r.value.Ignore? <==>
      && Index(item, "Key").Ok?
      && !KeyIs(item, "DebitAccountBalance") && !KeyIs(item, "TransCompletedTime")
      && !KeyIs(item, "InitiatorAccountCurrentBalance") && !KeyIs(item, "Currency")
      && !KeyIs(item, "ReceiverPartyPublicName") && !KeyIs(item, "DebitPartyCharges")
    // when each recognised key goes through: the value is present and converts
    ensures KeyIs(item, "DebitAccountBalance") || KeyIs(item, "InitiatorAccountCurrentBalance") ==>
      (r.Ok? <==> Index(item, "Value").Ok? && getValue(Index(item, "Value").value, "BasicAmount").Ok?)
    ensures KeyIs(item, "TransCompletedTime") ==>
      (r.Ok? <==> Index(item, "Value").Ok? && CompactTime(Index(item, "Value").value).Ok?)
    ensures KeyIs(item, "Currency") || KeyIs(item, "ReceiverPartyPublicName") || KeyIs(item, "DebitPartyCharges") ==>
      (r.Ok? <==> Index(item, "Value").Ok?)
    ensures Index(item, "Key").Err? ==> r == Err(Index(item, "Key").error)
  {
    var key :- Index(item, "Key");
    if key == JStr("DebitAccountBalance") then
      var value :- Index(item, "Value");
      var debit :- getValue(value, "BasicAmount");
      Ok(SetDebitBalance(debit))
    else if key == JStr("TransCompletedTime") then
      var value :- Index(item, "Value");
      var time :- CompactTime(value);
      Ok(SetCompletedAt(time))
    else if key == JStr("InitiatorAccountCurrentBalance") then
      var value :- Index(item, "Value");
      var balance :- getValue(value, "BasicAmount");
      Ok(SetInitiatorBalance(balance))
    else if key == JStr("Currency") then
      var value :- Index(item, "Value");
      Ok(SetCurrency(value))
    else if key == JStr("ReceiverPartyPublicName") then
      var value :- Index(item, "Value");
      Ok(SetReceiverName(value))
    else if key == JStr("DebitPartyCharges") then
      var value :- Index(item, "Value");
      Ok(SetCharges(NoneIfFalsy(value)))
    else Ok(Ignore)
  }

  /** The fields the loop has written so far, each with the value of its latest
      write. */
  datatype TopupPatch = TopupPatch(
    debitBalance: Option<Json>,
    completedAt: Option<DateTime>,
    initiatorBalance: Option<Json>,
    currency: Option<Json>,
    receiverName: Option<Json>,
    charges: Option<Json>)

  const NoPatch: TopupPatch := TopupPatch(None, None, None, None, None, None)

  function Absorb(p: TopupPatch, w: TopupWrite): TopupPatch {
    match w
    case SetDebitBalance(v) => p.(debitBalance := Some(v))
    case SetCompletedAt(time) => p.(completedAt := Some(time))
    case SetInitiatorBalance(v) => p.(initiatorBalance := Some(v))
    case SetCurrency(v) => p.(currency := Some(v))
    case SetReceiverName(v) => p.(receiverName := Some(v))
    case SetCharges(v) => p.(charges := Some(v))
    case Ignore => p
  }

  /** The loop over the parameters, first to last; the first failing item raises. */
  function Collect(getValue: ValueReader, items: seq<Json>, p: TopupPatch): Result<TopupPatch, PyError> {
    if items == [] then Ok(p)
    else
      var w :- TopupItemWrite(getValue, items[0]);
      Collect(getValue, items[1..], Absorb(p, w))
  }

  /** The loop's step: the item at `i` either raises or adds its write. */
  lemma CollectStep(getValue: ValueReader, items: seq<Json>, i: nat, p: TopupPatch)
    requires i < |items|
    ensures TopupItemWrite(getValue, items[i]).Err? ==>
      Collect(getValue, items[i..], p) == Err(TopupItemWrite(getValue, items[i]).error)
    ensures TopupItemWrite(getValue, items[i]).Ok? ==>
      Collect(getValue, items[i..], p) == Collect(getValue, items[i + 1..], Absorb(p, TopupItemWrite(getValue, items[i]).value))
  {
    assert items[i..][0] == items[i] && items[i..][1..] == items[i + 1..];
  }

  /** One more parameter at the end puts its write on top of what the others
      collected. */
  lemma {:induction false} CollectAppend(getValue: ValueReader, items: seq<Json>, item: Json, p: TopupPatch)
    requires Collect(getValue, items, p).Ok? && TopupItemWrite(getValue, item).Ok?
    ensures Collect(getValue, items + [item], p)
         == Ok(Absorb(Collect(getValue, items, p).value, TopupItemWrite(getValue, item).value))
    decreases |items|
  {
    if items == [] {
      assert [] + [item] == [item];
    } else {
      var xs := items + [item];
      assert xs[0] == items[0] && xs[1..] == items[1..] + [item];
      var q := Absorb(p, TopupItemWrite(getValue, items[0]).value);
      assert Collect(getValue, xs, p) == Collect(getValue, xs[1..], q);
      assert Collect(getValue, items, p) == Collect(getValue, items[1..], q);
      CollectAppend(getValue, items[1..], item, q);
    }
  }

  /** The last completion time in the list is the one the record keeps. */
  lemma LastCompletedAtWins(getValue: ValueReader, items: seq<Json>, item: Json, p: TopupPatch)
    requires Collect(getValue, items, p).Ok? && TopupItemWrite(getValue, item).Ok?
    requires KeyIs(item, "TransCompletedTime")
    ensures Collect(getValue, items + [item], p).Ok?
    ensures Collect(getValue, items + [item], p).value.completedAt == Some(CompactTime(Index(item, "Value").value).value)
  {
    CollectAppend(getValue, items, item, p);
  }

  /** `rec` with every written field replaced. */
  function Patched(rec: TopupRecord, p: TopupPatch): TopupRecord {
    rec.(
      debitAccountBalance := if p.debitBalance.Some? then p.debitBalance.value else rec.debitAccountBalance,
      transactionTime := if p.completedAt.Some? then p.completedAt else rec.transactionTime,
      initiatorAccountCurrentBalance :=
        if p.initiatorBalance.Some? then p.initiatorBalance.value else rec.initiatorAccountCurrentBalance,
      currency := if p.currency.Some? then p.currency.value else rec.currency,
      receiverPublicName := if p.receiverName.Some? then p.receiverName.value else rec.receiverPublicName,
      debitPartyCharges := if p.charges.Some? then p.charges.value else rec.debitPartyCharges)
  }

  /** What `b2c_handle_successful_topup` makes of `rec`. */
  function TopupSuccess(getValue: ValueReader, data: Json, rec: TopupRecord): Result<TopupRecord, PyError> {
    var list :- ParameterList(data);
    var transactionId :- TransactionId(data);
    var items :- LoopItems(list);
    var p :- Collect(getValue, items, NoPatch);
    Ok(Patched(rec.(transactionId := transactionId), p))
  }

  /** `b2c_handle_successful_topup`, loop for loop, writing the record's fields. */
  method HandleSuccessfulTopup(getValue: ValueReader, data: Json, rec: TopupRecord) returns (r: Result<TopupRecord, PyError>)
    ensures r == TopupSuccess(getValue, data, rec)
  {
    var list := ParameterList(data);
    if list.Err? {
      return Err(list.error);
    }
    var transactionId := TransactionId(data);
    if transactionId.Err? {
      return Err(transactionId.error);
    }
    var transaction := rec.(transactionId := transactionId.value);
    var items := LoopItems(list.value);
    if items.Err? {
      return Err(items.error);
    }
    ghost var start := transaction;
    ghost var p := NoPatch;
    var i := 0;
    while i < |items.value|
      invariant 0 <= i <= |items.value|
      invariant Collect(getValue, items.value, NoPatch) == Collect(getValue, items.value[i..], p)
      invariant transaction == Patched(start, p)
    {
      CollectStep(getValue, items.value, i, p);
      var w := TopupItemWrite(getValue, items.value[i]);
      if w.Err? {
        return Err(w.error);
      }
      match w.value {
        case SetDebitBalance(v) =>
          transaction := transaction.(debitAccountBalance := v);
        case SetCompletedAt(time) =>
          transaction := transaction.(transactionTime := Some(time));
        case SetInitiatorBalance(v) =>
          transaction := transaction.(initiatorAccountCurrentBalance := v);
        case SetCurrency(v) =>
          transaction := transaction.(currency := v);
        case SetReceiverName(v) =>
          transaction := transaction.(receiverPublicName := v);
        case SetCharges(v) =>
          transaction := transaction.(debitPartyCharges := v);
        case Ignore =>
      }
      p := Absorb(p, w.value);
      i := i + 1;
    }
    return Ok(transaction);
  }

  /** Writing the same parameters again changes nothing, and they never touch the
      status or the transaction id. */
  lemma PatchedAgain(rec: TopupRecord, p: TopupPatch, status: int, transactionId: Json)
    ensures Patched(Patched(rec, p).(status := status, transactionId := transactionId), p)
         == Patched(rec, p).(status := status, transactionId := transactionId)
  {
  }

  /* ---------- the callback ---------- */

  /** The `transaction_id` column, unique and nullable. */
  function TransactionColumn(rec: TopupRecord): Json {
    rec.transactionId
  }

  /** `b2c_topup_callback_handler` on the table `rows`: normalised status, find or
      create by `Result.ConversationID`, the success parameters when the status is 0,
      then the status saved, which raises IntegrityError when another row already
      holds the transaction id. Two top-ups sharing a conversation id make the lookup
      raise MultipleObjectsReturned. */
  function TopupCallback(getValue: ValueReader, rows: seq<Row<TopupRecord>>, data: Json)
    : (res: (Result<nat, PyError>, seq<Row<TopupRecord>>))
    ensures res.0.Ok? ==>
      var i := res.0.value;
      var before := if i < |rows| then rows[i].rec else BlankTopup;
      && ConversationKey(data).Ok?
      && i < |res.1| && res.1[i].key == ConversationKey(data).value
      && (i < |rows| <==> Count(rows, ConversationKey(data).value) == 1)
      && res.1[i].rec.status == CheckStatus(data)
      && (CheckStatus(data) == 2 ==> res.1[i].rec == before.(status := 2))
      && (CheckStatus(data) == 0 ==>
            TopupSuccess(getValue, data, before).Ok?
            && res.1[i].rec == TopupSuccess(getValue, data, before).value.(status := 0))
    ensures ConversationKey(data).Ok? && Count(rows, ConversationKey(data).value) >= 2 ==>
      res == (Err(MultipleObjectsReturned), rows)
    ensures ConversationKey(data).Err? ==> res == (Err(ConversationKey(data).error), rows)
    // once nothing it reads raises, the handler completes unless the transaction id is taken
    ensures
      && ConversationKey(data).Ok? && Count(rows, ConversationKey(data).value) <= 1
      && (CheckStatus(data) == 0 ==>
            TopupSuccess(getValue, data, Fetched(rows, ConversationKey(data).value, BlankTopup)).Ok?)
      ==>
      var key := ConversationKey(data).value;
      var before := Fetched(rows, key, BlankTopup);
      var saved := if CheckStatus(data) == 0 then TopupSuccess(getValue, data, before).value.transactionId else before.transactionId;
      res.0 == if Taken(rows, Slot(rows, key), saved, TransactionColumn) then Err(IntegrityError) else Ok(Slot(rows, key))
    ensures UniqueColumn(rows, TransactionColumn) ==> UniqueColumn(res.1, TransactionColumn)
    // a failure after the lookup keeps the row get_or_create created
    ensures res.0.Err? && ConversationKey(data).Ok? ==>
      res.1 == FindOrCreate(rows, ConversationKey(data).value, BlankTopup).1
    ensures |rows| <= |res.1| <= |rows| + 1
    ensures forall j :: 0 <= j < |rows| && !(res.0.Ok? && j == res.0.value) ==> res.1[j] == rows[j]
  {
    var status := CheckStatus(data);
    match ConversationKey(data)
    case Err(e) => (Err(e), rows)
    case Ok(key) =>
      var (found, rows1) := FindOrCreate(rows, key, BlankTopup);
      if found.Err? then (Err(found.error), rows1)
      else
        var i := found.value;
        var rec := rows1[i].rec;
        if status == 0 then
          match TopupSuccess(getValue, data, rec)
          case Err(e) => (Err(e), rows1)
          case Ok(paid) => Commit(rows1, i, paid.(status := status), TransactionColumn)
        else Commit(rows1, i, rec.(status := status), TransactionColumn)
  }

  /** `b2c_topup_callback_handler` against the table. */
  method TopupCallbackHandler(getValue: ValueReader, table: Table<TopupRecord>, data: Json) returns (r: Result<nat, PyError>)
    requires table.Valid()
    modifies table
    ensures table.Valid()
    ensures (r, table.rows) == TopupCallback(getValue, old(table.rows), data)
  {
    var status := CheckStatus(data);
    var key := ConversationKey(data);
    if key.Err? {
      return Err(key.error);
    }
    var found := table.GetOrCreate(key.value, BlankTopup);
    if found.Err? {
      return Err(found.error);
    }
    var i := found.value;
    var transaction := table.rows[i].rec;
    if status == 0 {
      var paid := HandleSuccessfulTopup(getValue, data, transaction);
      if paid.Err? {
        return Err(paid.error);
      }
      transaction := paid.value;
    }
    transaction := transaction.(status := status);
    r := table.PutUnique(i, transaction, TransactionColumn);
  }

  /** Applying the success parameters to a record they were already applied to
      changes nothing but what the status write changed. */
  lemma SuccessReapplied(getValue: ValueReader, data: Json, rec: TopupRecord, status: int)
    requires TopupSuccess(getValue, data, rec).Ok?
    ensures var paid := TopupSuccess(getValue, data, rec).value;
      TopupSuccess(getValue, data, paid.(status := status)) == Ok(paid.(status := status))
  {
    var items := LoopItems(ParameterList(data).value).value;
    var p := Collect(getValue, items, NoPatch).value;
    PatchedAgain(rec, p, status, TransactionId(data).value);
  }

  /** A callback delivered twice leaves the table as the first delivery left it. */
  lemma TopupCallbackReplay(getValue: ValueReader, rows: seq<Row<TopupRecord>>, data: Json)
    requires TopupCallback(getValue, rows, data).0.Ok?
    ensures TopupCallback(getValue, TopupCallback(getValue, rows, data).1, data) == TopupCallback(getValue, rows, data)
  {
    var key := ConversationKey(data).value;
    var status := CheckStatus(data);
    var (found, rows1) := FindOrCreate(rows, key, BlankTopup);
    var i := found.value;
    FindOrCreateTwice(rows, key, BlankTopup);
    var rows2 := TopupCallback(getValue, rows, data).1;
    var rec := rows1[i].rec;
    FindOrCreateAfterSave(rows1, i, rows2[i].rec, key, BlankTopup);
    CountSameKeys(rows1, rows2, key);
    if status == 0 {
      SuccessReapplied(getValue, data, rec, 0);
    }
    CommitAgain(rows1, i, rows2[i].rec, TransactionColumn);
  }
}

=== FILE: base.dfy ===
/** What every gateway class inherits from `MpesaBase`: the access-token cache and the
    normalisation of a callback's result code. The `daraja` and `mpesa` apps carry
    the same `get_access_token`, over the same cache key. */
module MpesaBase {
  import opened Wrappers
  import opened PyValue
  import PyStr
  import opened Store

  /* ---------- outbound HTTP, as seen by the caller ---------- */

  /** What one outbound HTTP call gives back: no answer at all (a `requests`
      exception such as ConnectionError), or a status code and a body that may or may
      not be JSON. */
  datatype HttpOutcome =
    | Unreachable
    | Reply(statusCode: int, body: Option<Json>)

  /** `response.ok` in `requests`: false exactly for 4xx and 5xx codes. */
  predicate ResponseOk(code: int) {
    !(400 <= code < 600)
  }

  /** `response.json()` (or `json.loads(response.text)`): the decoded body, or the
      exception the call raises. */
  function ResponseJson(h: HttpOutcome): (r: Result<Json, PyError>)
    ensures r.Ok? <==> h.Reply? && h.body.Some?
    ensures r.Ok? ==> r.value == h.body.value
    ensures h.Unreachable? ==> r == Err(ConnectionError)
    ensures h.Reply? && h.body.None? ==> r == Err(JSONDecodeError)
  {
    match h
    case Unreachable => Err(ConnectionError)
    case Reply(_, body) =>
      (match body
       case None => Err(JSONDecodeError)
       case Some(j) => Ok(j))
  }

  /* ---------- what an initiator records ---------- */

  /** The test an initiator applies to the reply before recording it:
      `response.ok` (STK Push) or `response.status_code == 200` (B2C, top-up, B2B). */
  datatype Acceptance = WhenOk | When200

  predicate Accepts(accept: Acceptance, code: int) {
    match accept
    case WhenOk => ResponseOk(code)
    case When200 => code == 200
  }

  /** What an initiator does once its request is sent: decode the reply and, only
      when the reply is accepted, `create` one record `rec` keyed by the body's
      `idField` (read with `.get`, so None when absent). The decoded body is returned
      unchanged, a rejected reply included. */
  function RecordReply<R>(rows: seq<Row<R>>, unique: bool, reply: HttpOutcome, accept: Acceptance,
                          idField: string, rec: R): (res: (Result<Json, PyError>, seq<Row<R>>))
    ensures res.0.Ok? ==> reply.Reply? && reply.body == Some(res.0.value)
    ensures |res.1| == |rows| + 1 <==> res.0.Ok? && Accepts(accept, reply.statusCode)
    ensures res.0.Ok? && Accepts(accept, reply.statusCode) ==>
      && |res.1| == |rows| + 1
      && res.1 == rows + [Row(res.1[|rows|].key, rec)]
      && DictGet(res.0.value, idField) == Ok(res.1[|rows|].key)
    ensures !(res.0.Ok? && Accepts(accept, reply.statusCode)) ==> res.1 == rows
    ensures !(reply.Reply? && reply.body.Some?) ==> res.0 == ResponseJson(reply)
    ensures reply.Reply? && reply.body.Some? && !Accepts(accept, reply.statusCode) ==> res.0 == Ok(reply.body.value)
    ensures reply.Reply? && reply.body.Some? && Accepts(accept, reply.statusCode) ==>
      var body := reply.body.value;
      && (!body.JObj? ==> res.0 == Err(AttributeError))
      && (body.JObj? ==>
            var id := DictGet(body, idField).value;
            res.0 == if unique && id != JNull && Count(rows, id) > 0 then Err(IntegrityError) else Ok(body))
  {
    match ResponseJson(reply)
    case Err(e) => (Err(e), rows)
    case Ok(body) =>
      if Accepts(accept, reply.statusCode) then
        match DictGet(body, idField)
        case Err(e) => (Err(e), rows)
        case Ok(id) =>
          var (created, rows1) := Insert(rows, unique, id, rec);
          if created.Err? then (Err(created.error), rows) else (Ok(body), rows1)
      else (Ok(body), rows)
  }

  /* ---------- the token cache ---------- */

  /** The error `get_access_token` raises for every failed exchange. */
  const InvalidCredentials: PyError := ValidationError("Invalid credentials")

  /** The value stored under `"mpesa_access_token"` and the instant (in seconds) at
      which it stops being served. */
  datatype CacheEntry = CacheEntry(value: Json, expiresAt: int)

  /** `cache.get("mpesa_access_token")` at instant `now`: the stored value while it is
      fresh, None when nothing is stored or the entry has expired. */
  function Lookup(entry: Option<CacheEntry>, now: int): (v: Json)
    ensures entry.Some? && now < entry.value.expiresAt ==> v == entry.value.value
    ensures entry.None? || now >= entry.value.expiresAt ==> v == JNull
  {
    if entry.Some? && now < entry.value.expiresAt then entry.value.value else JNull
  }

  /** The expiry instant Django's cache computes for `cache.set(..., timeout=t)` at
      `now`: a timeout of 0 means "expire at once". */
  function ExpiryFor(now: int, timeout: int): (at: int)
    ensures timeout > 0 ==> now < at
    ensures timeout <= 0 ==> at <= now
  {
    if timeout == 0 then now - 1 else now + timeout
  }

  /** The body of the `try` in `get_access_token`: read the exchange reply, take
      `access_token` and `expires_in` with `dict.get`, and convert the expiry (float()
      on whole seconds). The result is the token and the entry `cache.set` writes, or
      the exception that aborts the `try` before that write. */
  function TokenExchange(exchange: HttpOutcome, now: int): (r: Result<(Json, CacheEntry), PyError>)
    ensures r.Ok? ==> r.value.1 == CacheEntry(r.value.0, r.value.1.expiresAt)
  {
    var body :- ResponseJson(exchange);
    var token :- DictGet(body, "access_token");
    var expiry :- DictGet(body, "expires_in");
    var timeout :- ToInt(expiry);
    Ok((token, CacheEntry(token, ExpiryFor(now, timeout))))
  }

  /** What `get_access_token` returns when the slot holds `entry` at `now` and an
      exchange would give `exchange`: a truthy cached token as is; otherwise the
      exchanged token, or "Invalid credentials" when the exchange fails. */
  function TokenOutcome(entry: Option<CacheEntry>, now: int, exchange: HttpOutcome): (r: Result<Json, PyError>)
    ensures Truthy(Lookup(entry, now)) ==> r == Ok(Lookup(entry, now))
    ensures !Truthy(Lookup(entry, now)) ==>
      && (r.Ok? <==> TokenExchange(exchange, now).Ok?)
      && (r.Ok? ==> r.value == TokenExchange(exchange, now).value.0)
      && (r.Err? ==> r.error == InvalidCredentials)
  {
    var cached := Lookup(entry, now);
    if Truthy(cached) then Ok(cached)
    else
      match TokenExchange(exchange, now)
      case Err(_) => Err(InvalidCredentials)
      case Ok((token, _)) => Ok(token)
  }

  /** The slot after `get_access_token`: written only on a miss whose exchange
      succeeds. */
  function CacheAfter(entry: Option<CacheEntry>, now: int, exchange: HttpOutcome): (e: Option<CacheEntry>)
    ensures Truthy(Lookup(entry, now)) || TokenExchange(exchange, now).Err? ==> e == entry
    ensures !Truthy(Lookup(entry, now)) && TokenExchange(exchange, now).Ok? ==>
      e == Some(TokenExchange(exchange, now).value.1)
  {
    if Truthy(Lookup(entry, now)) then entry
    else
      match TokenExchange(exchange, now)
      case Err(_) => entry
      case Ok((_, written)) => Some(written)
  }

  /** The slot `"mpesa_access_token"` of Django's cache, shared by every gateway
      object of both apps. */
  class TokenCache {
    var entry: Option<CacheEntry>

    constructor ()
      ensures entry.None?
    {
      entry := None;
    }

    /** `cache.get("mpesa_access_token")`. */
    function Get(now: int): Json
      reads this
    {
      Lookup(entry, now)
    }
  }

  /** `get_access_token`: reads the slot, and on a falsy value runs the exchange and
      writes the slot as the last step of the `try`. */
  method GetAccessToken(cache: TokenCache, now: int, exchange: HttpOutcome) returns (r: Result<Json, PyError>)
    modifies cache
    ensures r == TokenOutcome(old(cache.entry), now, exchange)
    ensures cache.entry == CacheAfter(old(cache.entry), now, exchange)
  {
    var token := cache.Get(now);
    if !Truthy(token) {
      var outcome := TokenExchange(exchange, now);
      if outcome.Err? {
        return Err(InvalidCredentials);
      }
      token := outcome.value.0;
      cache.entry := Some(outcome.value.1);
    }
    return Ok(token);
  }

  /** A JSON object reply with a whole-number `expires_in` is a successful exchange
      whatever its status code; the token is its `access_token`, None when absent. */
  lemma ExchangeSucceeds(code: int, fields: map<string, Json>, now: int, t: int)
    requires "expires_in" in fields && ToInt(fields["expires_in"]) == Ok(t)
    ensures var r := TokenExchange(Reply(code, Some(JObj(fields))), now);
      && r.Ok?
      && r.value.0 == (if "access_token" in fields then fields["access_token"] else JNull)
      && r.value.1.expiresAt == ExpiryFor(now, t)
  {
  }

  /** An exchange fails when the server is unreachable, the body is not JSON, the body
      is not an object, or `expires_in` is missing or not a whole number; the call
      then raises "Invalid credentials" and the slot keeps its old entry. */
  lemma ExchangeFails(entry: Option<CacheEntry>, now: int, exchange: HttpOutcome)
    requires !Truthy(Lookup(entry, now))
    requires || exchange.Unreachable?
             || (exchange.Reply? && exchange.body.None?)
             || (exchange.Reply? && exchange.body.Some? && !exchange.body.value.JObj?)
             || (exchange.Reply? && exchange.body.Some? && exchange.body.value.JObj?
                 && ("expires_in" !in exchange.body.value.fields
                     || ToInt(exchange.body.value.fields["expires_in"]).Err?))
    ensures TokenOutcome(entry, now, exchange) == Err(InvalidCredentials)
    ensures CacheAfter(entry, now, exchange) == entry
  {
  }

  /** A truthy token obtained by an exchange is served by every later call until it
      expires, with no further exchange (whatever that exchange would give) and no
      further write. */
  lemma {:induction false} TokenReused(entry: Option<CacheEntry>, now: int, exchange: HttpOutcome, later: int, other: HttpOutcome)
    requires TokenOutcome(entry, now, exchange).Ok? && Truthy(TokenOutcome(entry, now, exchange).value)
    requires var e := CacheAfter(entry, now, exchange); e.Some? && now <= later < e.value.expiresAt
    ensures TokenOutcome(CacheAfter(entry, now, exchange), later, other) == TokenOutcome(entry, now, exchange)
    ensures CacheAfter(CacheAfter(entry, now, exchange), later, other) == CacheAfter(entry, now, exchange)
  {
    if !Truthy(Lookup(entry, now)) {
      var written := TokenExchange(exchange, now).value.1;
      assert written.value == TokenExchange(exchange, now).value.0;
    } else {
      assert entry.Some? && now < entry.value.expiresAt;
    }
  }

  /** A falsy token (None when `access_token` is missing, or an empty string) is
      cached and returned without error, but never reused: the next call, at any
      instant, exchanges again. */
  lemma {:induction false} FalsyTokenRefetched(entry: Option<CacheEntry>, now: int, exchange: HttpOutcome, later: int, next: HttpOutcome)
    requires TokenOutcome(entry, now, exchange).Ok? && !Truthy(TokenOutcome(entry, now, exchange).value)
    ensures TokenOutcome(CacheAfter(entry, now, exchange), later, next) == TokenOutcome(None, later, next)
  {
    var written := TokenExchange(exchange, now).value.1;
    assert written.value == TokenExchange(exchange, now).value.0;
  }

  /* ---------- settings and the incoming request ---------- */

  /** The Django settings the gateways read. Callback URLs are `BASE_URL` followed by
      the flow's callback path. */
  datatype Settings = Settings(
    shortCode: string,
    username: string,
    apiKey: string,
    securityCredentials: string,
    baseUrl: string,
    stkCallbackPath: string,
    b2cCallbackPath: string,
    b2cTopupCallbackPath: string,
    b2bCallbackPath: string)

  /** `self.username[0]`: the first character of the configured user name;
      IndexError when it is empty. */
  function InitiatorName(cfg: Settings): (r: Result<string, PyError>)
    ensures r.Ok? <==> cfg.username != []
    ensures r.Ok? ==> r.value == cfg.username[..1]
  {
    if cfg.username == [] then Err(IndexError) else Ok([cfg.username[0]])
  }

  /** The incoming HTTP request: `request.META.get("REMOTE_ADDR")`. */
  datatype Request = Request(remoteAddr: Option<string>)

  /** One outbound call to a gateway endpoint: the bearer token of its Authorization
      header and the JSON payload. */
  datatype Outbound<P> = Outbound(token: Json, payload: P)

  /* ---------- result-code normalisation ---------- */

  /** `check_status`: 0 when `data["Result"]["ResultCode"]` exists and `int()` of it
      is 0, and 2 in every other case, including a body that cannot be read; it never
      raises. */
  function CheckStatus(data: Json): (status: int)
    ensures status == 0 || status == 2
    ensures status == 0 <==>
      Path(data, ["Result", "ResultCode"]).Ok? && ToInt(Path(data, ["Result", "ResultCode"]).value) == Ok(0)
  {
    match Path(data, ["Result", "ResultCode"])
    case Err(_) => 2
    case Ok(code) =>
      (match ToInt(code)
       case Err(_) => 2
       case Ok(n) => if n != 0 then 2 else n)
  }

  /** A callback shaped as the gateway sends it: `{"Result": {"ResultCode": code}}`
      plus any other fields. */
  predicate HasResultCode(data: Json, code: Json) {
    data.JObj? && "Result" in data.fields && data.fields["Result"].JObj?
    && "ResultCode" in data.fields["Result"].fields && data.fields["Result"].fields["ResultCode"] == code
  }

  lemma ResultCodeFound(data: Json)
    requires data.JObj? && "Result" in data.fields && data.fields["Result"].JObj?
    requires "ResultCode" in data.fields["Result"].fields
    ensures Path(data, ["Result", "ResultCode"]) == Ok(data.fields["Result"].fields["ResultCode"])
  {
    var keys := ["Result", "ResultCode"];
    var result := data.fields["Result"];
    assert keys[0] == "Result" && keys[1..] == ["ResultCode"];
    assert Path(data, keys) == Path(result, ["ResultCode"]);
    assert ["ResultCode"][0] == "ResultCode" && ["ResultCode"][1..] == [];
    assert Path(result, ["ResultCode"]) == Path(result.fields["ResultCode"], []);
  }

  /** An integer result code, sent as a number or as its decimal text, is 0 exactly
      when the transaction succeeded and maps to 2 otherwise. */
  lemma {:induction false} CheckStatusOfCode(data: Json, n: int, asText: bool)
    requires HasResultCode(data, if asText then JStr(PyStr.IntToStr(n)) else JInt(n))
    ensures CheckStatus(data) == (if n == 0 then 0 else 2)
  {
    ResultCodeFound(data);
    if asText {
      PyStr.IntToStrParses(n);
    }
  }

  /** A callback without `Result`, or without `ResultCode`, or with a code that is not
      a whole number, is a failure (2). */
  lemma {:induction false} CheckStatusUnreadable(data: Json)
    requires Path(data, ["Result", "ResultCode"]).Err?
             || ToInt(Path(data, ["Result", "ResultCode"]).value).Err?
    ensures CheckStatus(data) == 2
  {
  }
}

=== FILE: base64.dfy ===
/** Base 64 encoding with the standard alphabet and `=` padding, as in section 4 of
    RFC 4648 (what Python's `base64.b64encode` produces), ASCII encoding of text, and a
    strict decoder used to state that the encoding loses nothing. */
module Base64 {
  import opened Wrappers
  import opened PyValue

  type byte = x: int | 0 <= x < 256

  /** Alphabet entry `v` (section 4 of RFC 4648, Table 1). */
  function SextetChar(v: int): (c: char)
    requires 0 <= v < 64
    ensures c != '='
  {
    if v < 26 then ('A' as int + v) as char
    else if v < 52 then ('a' as int + (v - 26)) as char
    else if v < 62 then ('0' as int + (v - 52)) as char
    else if v == 62 then '+'
    else '/'
  }

  predicate IsAlphabet(c: char) {
    ('A' <= c <= 'Z') || ('a' <= c <= 'z') || ('0' <= c <= '9') || c == '+' || c == '/'
  }

  /** The value an alphabet character stands for; it names that character back. */
  function SextetValue(c: char): (v: int)
    requires IsAlphabet(c)
    ensures 0 <= v < 64 && SextetChar(v) == c
  {
    if 'A' <= c <= 'Z' then c as int - 'A' as int
    else if 'a' <= c <= 'z' then c as int - 'a' as int + 26
    else if '0' <= c <= '9' then c as int - '0' as int + 52
    else if c == '+' then 62
    else 63
  }

  /** Every alphabet entry is an alphabet character that stands for its own index. */
  lemma SextetCharValue(v: int)
    requires 0 <= v < 64
    ensures IsAlphabet(SextetChar(v)) && SextetValue(SextetChar(v)) == v
  {
  }

  /** One group of at most three bytes as four characters; a short final group is
      padded with `=` (section 4 of RFC 4648, cases (2) and (3)). */
  function EncodeGroup(b: seq<byte>): string
    requires |b| <= 3
  {
    if |b| == 0 then ""
    else if |b| == 1 then
      [SextetChar(b[0] / 4), SextetChar(b[0] % 4 * 16), '=', '=']
    else if |b| == 2 then
      [SextetChar(b[0] / 4), SextetChar(b[0] % 4 * 16 + b[1] / 16), SextetChar(b[1] % 16 * 4), '=']
    else
      [SextetChar(b[0] / 4), SextetChar(b[0] % 4 * 16 + b[1] / 16),
       SextetChar(b[1] % 16 * 4 + b[2] / 64), SextetChar(b[2] % 64)]
  }

  /** `base64.b64encode(b)`: four characters for every started group of three bytes. */
  function Encode(b: seq<byte>): (s: string)
    ensures |s| == (|b| + 2) / 3 * 4
  {
    if |b| <= 3 then EncodeGroup(b) else EncodeGroup(b[..3]) + Encode(b[3..])
  }

  /** Decodes one group of four characters; only the last group may hold padding, and
      the bits the padding makes unused must be zero (the canonical form of section 3.5
      of RFC 4648). */
  function DecodeGroup(q: string, last: bool): (r: Option<seq<byte>>)
    requires |q| == 4
    ensures r.Some? ==> 1 <= |r.value| <= 3 && (!last ==> |r.value| == 3)
  {
    if IsAlphabet(q[0]) && IsAlphabet(q[1]) && IsAlphabet(q[2]) && IsAlphabet(q[3]) then
      var v0, v1, v2, v3 := SextetValue(q[0]), SextetValue(q[1]), SextetValue(q[2]), SextetValue(q[3]);
      Some([v0 * 4 + v1 / 16, v1 % 16 * 16 + v2 / 4, v2 % 4 * 64 + v3])
    else if last && IsAlphabet(q[0]) && IsAlphabet(q[1]) && IsAlphabet(q[2]) && q[3] == '=' then
      var v0, v1, v2 := SextetValue(q[0]), SextetValue(q[1]), SextetValue(q[2]);
      if v2 % 4 == 0 then Some([v0 * 4 + v1 / 16, v1 % 16 * 16 + v2 / 4]) else None
    else if last && IsAlphabet(q[0]) && IsAlphabet(q[1]) && q[2] == '=' && q[3] == '=' then
      var v0, v1 := SextetValue(q[0]), SextetValue(q[1]);
      if v1 % 16 == 0 then Some([v0 * 4 + v1 / 16]) else None
    else None
  }

  /** Strict decoding: the length is a multiple of four, every character is in the
      alphabet except for padding at the very end. */
  function Decode(s: string): Option<seq<byte>>
    decreases |s|
  {
    if s == [] then Some([])
    else if |s| < 4 then None
    else
      var group :- DecodeGroup(s[..4], |s| == 4);
      var rest :- Decode(s[4..]);
      Some(group + rest)
  }

  /** Splitting two bytes into the bits of a middle sextet and joining them again. */
  lemma SextetArith(x: int, y: int)
    requires 0 <= x < 256 && 0 <= y < 256
    ensures 0 <= x % 4 * 16 + y / 16 < 64
    ensures (x % 4 * 16 + y / 16) / 16 == x % 4 && (x % 4 * 16 + y / 16) % 16 == y / 16
    ensures x / 4 * 4 + x % 4 == x && y / 16 * 16 + y % 16 == y
    ensures 0 <= y % 16 * 4 + x / 64 < 64
    ensures (y % 16 * 4 + x / 64) / 4 == y % 16 && (y % 16 * 4 + x / 64) % 4 == x / 64
    ensures x / 64 * 64 + x % 64 == x
  {
  }

  /** Joining sextets into bytes and splitting them again. */
  lemma ByteArith(v0: int, v1: int, v2: int, v3: int)
    requires 0 <= v0 < 64 && 0 <= v1 < 64 && 0 <= v2 < 64 && 0 <= v3 < 64
    ensures 0 <= v0 * 4 + v1 / 16 < 256 && (v0 * 4 + v1 / 16) / 4 == v0 && (v0 * 4 + v1 / 16) % 4 == v1 / 16
    ensures 0 <= v1 % 16 * 16 + v2 / 4 < 256
    ensures (v1 % 16 * 16 + v2 / 4) / 16 == v1 % 16 && (v1 % 16 * 16 + v2 / 4) % 16 == v2 / 4
    ensures 0 <= v2 % 4 * 64 + v3 < 256 && (v2 % 4 * 64 + v3) / 64 == v2 % 4 && (v2 % 4 * 64 + v3) % 64 == v3
    ensures v1 / 16 * 16 + v1 % 16 == v1 && v2 / 4 * 4 + v2 % 4 == v2
  {
  }

  lemma OneByteRoundTrip(x: byte)
    ensures DecodeGroup(EncodeGroup([x]), true) == Some([x])
  {
    SextetArith(x, 0);
    var v0, v1 := x / 4, x % 4 * 16;
    SextetCharValue(v0);
    SextetCharValue(v1);
    ByteArith(v0, v1, 0, 0);
    assert EncodeGroup([x]) == [SextetChar(v0), SextetChar(v1), '=', '='];
  }

  lemma TwoByteRoundTrip(x: byte, y: byte)
    ensures DecodeGroup(EncodeGroup([x, y]), true) == Some([x, y])
  {
    SextetArith(x, y);
    SextetArith(0, y);
    var v0, v1, v2 := x / 4, x % 4 * 16 + y / 16, y % 16 * 4;
    SextetCharValue(v0);
    SextetCharValue(v1);
    SextetCharValue(v2);
    ByteArith(v0, v1, v2, 0);
    var q := EncodeGroup([x, y]);
    assert q == [SextetChar(v0), SextetChar(v1), SextetChar(v2), '='];
    assert !IsAlphabet(q[3]) && v2 % 4 == 0;
    assert v0 * 4 + v1 / 16 == x && v1 % 16 * 16 + v2 / 4 == y;
  }

  lemma ThreeByteRoundTrip(x: byte, y: byte, z: byte, last: bool)
    ensures DecodeGroup(EncodeGroup([x, y, z]), last) == Some([x, y, z])
  {
    SextetArith(x, y);
    SextetArith(z, y);
    var v0, v1, v2, v3 := x / 4, x % 4 * 16 + y / 16, y % 16 * 4 + z / 64, z % 64;
    SextetCharValue(v0);
    SextetCharValue(v1);
    SextetCharValue(v2);
    SextetCharValue(v3);
    ByteArith(v0, v1, v2, v3);
    assert EncodeGroup([x, y, z]) == [SextetChar(v0), SextetChar(v1), SextetChar(v2), SextetChar(v3)];
    assert v0 * 4 + v1 / 16 == x && v1 % 16 * 16 + v2 / 4 == y && v2 % 4 * 64 + v3 == z;
  }

  /** A group of one to three bytes encodes to four characters that decode back to it. */
  lemma GroupRoundTrip(b: seq<byte>)
    requires 1 <= |b| <= 3
    ensures |EncodeGroup(b)| == 4 && DecodeGroup(EncodeGroup(b), true) == Some(b)
    ensures |b| == 3 ==> DecodeGroup(EncodeGroup(b), false) == Some(b)
  {
    if |b| == 1 {
      assert b == [b[0]];
      OneByteRoundTrip(b[0]);
    } else if |b| == 2 {
      assert b == [b[0], b[1]];
      TwoByteRoundTrip(b[0], b[1]);
    } else {
      assert b == [b[0], b[1], b[2]];
      ThreeByteRoundTrip(b[0], b[1], b[2], true);
      ThreeByteRoundTrip(b[0], b[1], b[2], false);
    }
  }

  /** Decoding a text made of a full group followed by more text. */
  lemma DecodeFront(q: string, rest: string)
    requires |q| == 4 && rest != []
    ensures Decode(q + rest) ==
      (match DecodeGroup(q, false)
       case None => None
       case Some(g) => (match Decode(rest) case None => None case Some(r) => Some(g + r)))
  {
    var s := q + rest;
    assert s[..4] == q && s[4..] == rest;
  }

  /** Decoding an encoding gives the bytes back. */
  lemma {:induction false} DecodeEncode(b: seq<byte>)
    ensures Decode(Encode(b)) == Some(b)
  {
    if |b| == 0 {
    } else if |b| <= 3 {
      GroupRoundTrip(b);
      var s := Encode(b);
      assert s[..4] == s && s[4..] == [];
      assert b + [] == b;
    } else {
      GroupRoundTrip(b[..3]);
      DecodeEncode(b[3..]);
      DecodeFront(EncodeGroup(b[..3]), Encode(b[3..]));
      assert b[..3] + b[3..] == b;
    }
  }

  lemma FullGroupCanonical(q: string)
    requires |q| == 4 && IsAlphabet(q[0]) && IsAlphabet(q[1]) && IsAlphabet(q[2]) && IsAlphabet(q[3])
    ensures DecodeGroup(q, false).Some? && EncodeGroup(DecodeGroup(q, false).value) == q
  {
    var v0, v1, v2, v3 := SextetValue(q[0]), SextetValue(q[1]), SextetValue(q[2]), SextetValue(q[3]);
    ByteArith(v0, v1, v2, v3);
    var x, y, z := v0 * 4 + v1 / 16, v1 % 16 * 16 + v2 / 4, v2 % 4 * 64 + v3;
    assert DecodeGroup(q, false) == Some([x, y, z]);
    assert x / 4 == v0 && x % 4 * 16 + y / 16 == v1;
    assert y % 16 * 4 + z / 64 == v2 && z % 64 == v3;
    var e := EncodeGroup([x, y, z]);
    assert e[0] == q[0] && e[1] == q[1] && e[2] == q[2] && e[3] == q[3];
  }

  lemma PairGroupCanonical(q: string)
    requires |q| == 4 && IsAlphabet(q[0]) && IsAlphabet(q[1]) && IsAlphabet(q[2]) && q[3] == '='
    requires SextetValue(q[2]) % 4 == 0
    ensures DecodeGroup(q, true).Some? && EncodeGroup(DecodeGroup(q, true).value) == q
  {
    var v0, v1, v2 := SextetValue(q[0]), SextetValue(q[1]), SextetValue(q[2]);
    ByteArith(v0, v1, v2, 0);
    var x, y := v0 * 4 + v1 / 16, v1 % 16 * 16 + v2 / 4;
    assert x / 4 == v0 && x % 4 * 16 + y / 16 == v1;
    assert y % 16 * 4 == v2;
  }

  lemma SingleGroupCanonical(q: string)
    requires |q| == 4 && IsAlphabet(q[0]) && IsAlphabet(q[1]) && q[2] == '=' && q[3] == '='
    requires SextetValue(q[1]) % 16 == 0
    ensures DecodeGroup(q, true).Some? && EncodeGroup(DecodeGroup(q, true).value) == q
  {
    var v0, v1 := SextetValue(q[0]), SextetValue(q[1]);
    ByteArith(v0, v1, 0, 0);
    var x := v0 * 4 + v1 / 16;
    assert x / 4 == v0 && x % 4 * 16 == v1;
  }

  /** Every group the decoder accepts is the encoding of the bytes it yields. */
  lemma GroupCanonical(q: string, last: bool)
    requires |q| == 4 && DecodeGroup(q, last).Some?
    ensures EncodeGroup(DecodeGroup(q, last).value) == q
  {
    if IsAlphabet(q[0]) && IsAlphabet(q[1]) && IsAlphabet(q[2]) && IsAlphabet(q[3]) {
      FullGroupCanonical(q);
    } else if IsAlphabet(q[2]) {
      PairGroupCanonical(q);
    } else {
      SingleGroupCanonical(q);
    }
  }

  /** Decoding accepts only canonical encodings: whatever it accepts is exactly the
      encoding of what it returns. With `DecodeEncode`, `Encode` and `Decode` are
      inverse bijections between byte strings and canonical Base 64 text. */
  lemma {:induction false} EncodeDecode(s: string)
    requires Decode(s).Some?
    ensures Encode(Decode(s).value) == s
    decreases |s|
  {
    if s == [] {
      return;
    }
    var q, rest := s[..4], s[4..];
    var g := DecodeGroup(q, |s| == 4).value;
    GroupCanonical(q, |s| == 4);
    assert s == q + rest;
    if |s| == 4 {
      assert Decode(s).value == g + [] == g;
    } else {
      EncodeDecode(rest);
      var r := Decode(rest).value;
      DecodeFront(q, rest);
      assert Decode(s).value == g + r;
      assert (g + r)[..3] == g && (g + r)[3..] == r;
    }
  }

  /* ---------- ASCII ---------- */

  /** `s.encode("ascii")`: one byte per character, UnicodeEncodeError for a character
      outside ASCII. */
  function AsciiEncode(s: string): (r: Result<seq<byte>, PyError>)
    ensures r.Ok? ==> |r.value| == |s| && forall i :: 0 <= i < |s| ==> r.value[i] == s[i] as int
    ensures r.Err? <==> exists i :: 0 <= i < |s| && s[i] as int >= 128
    ensures r.Err? ==> r.error == UnicodeEncodeError
  {
    if s == [] then Ok([])
    else if s[0] as int >= 128 then Err(UnicodeEncodeError)
    else
      var rest :- AsciiEncode(s[1..]);
      Ok([s[0] as int as byte] + rest)
  }

  /** `b.decode(...)` for ASCII bytes: one character per byte. */
  function AsciiDecode(b: seq<byte>): (s: string)
    ensures |s| == |b| && forall i :: 0 <= i < |b| ==> s[i] as int == b[i]
  {
    seq(|b|, i requires 0 <= i < |b| => b[i] as char)
  }

  /** ASCII text survives encoding to bytes and back. */
  lemma AsciiRoundTrip(s: string)
    requires AsciiEncode(s).Ok?
    ensures AsciiDecode(AsciiEncode(s).value) == s
  {
  }
}

=== FILE: c2b.dfy ===
/** The STK Push (Lipa na M-Pesa Online) flow of the `daraja` app's `C2B` gateway:
    the password, the push request and its bookkeeping, and the callback that
    completes an `STKTransaction`. */
module C2B {
  import opened Wrappers
  import opened PyValue
  import opened PyStr
  import opened DateTime
  import Base64
  import opened Store
  import opened MpesaBase

  /* ---------- password and payload ---------- */

  /** `generate_password`: the timestamp is the Nairobi wall-clock instant `now`
      rendered as `%Y%m%d%H%M%S`, the password the base 64 of the ASCII bytes of
      short code, API key and timestamp. UnicodeEncodeError when that text is not
      ASCII. */
  function GeneratePassword(cfg: Settings, now: DateTime): (r: Result<(string, string), PyError>)
    requires Valid(now)
    ensures r.Ok? <==> Base64.AsciiEncode(cfg.shortCode + cfg.apiKey + FormatCompact(now)).Ok?
    ensures r.Err? ==> r.error == UnicodeEncodeError
    ensures r.Ok? ==> r.value.1 == FormatCompact(now) && |r.value.1| == 14 && AllDigits(r.value.1)
    ensures r.Ok? ==>
      && Base64.Decode(r.value.0).Some?
      && Base64.AsciiDecode(Base64.Decode(r.value.0).value) == cfg.shortCode + cfg.apiKey + r.value.1
  {
    var timestamp := FormatCompact(now);
    CompactIsFourteenDigits(now);
    var text := cfg.shortCode + cfg.apiKey + timestamp;
    var bytes :- Base64.AsciiEncode(text);
    Base64.DecodeEncode(bytes);
    Base64.AsciiRoundTrip(text);
    Ok((Base64.Encode(bytes), timestamp))
  }

  /** The JSON body of the STK Push request. */
  datatype StkPayload = StkPayload(
    businessShortCode: string,
    password: string,
    timestamp: string,
    transactionType: string,
    amount: int,
    partyA: string,
    partyB: string,
    phoneNumber: string,
    callBackUrl: string,
    accountReference: string,
    transactionDesc: string)

  /** The payload `stk_push` builds from the password pair and its arguments. */
  function PushPayload(cfg: Settings, password: string, timestamp: string, amount: int,
                       phone: string, description: string, reference: string): StkPayload
  {
    StkPayload(cfg.shortCode, password, timestamp, "CustomerPayBillOnline", amount, phone,
               cfg.shortCode, phone, cfg.baseUrl + cfg.stkCallbackPath, reference, description)
  }

  /* ---------- the STKTransaction record ---------- */

  /** An `STKTransaction` row apart from its key `checkout_request_id`. Values that
      the callback copies from the gateway body are kept as they arrive. */
  datatype StkRecord = StkRecord(
    phoneNumber: Json,
    description: Option<string>,
    amount: Json,
    status: Json,
    receiptNo: Json,
    ipAddress: Option<string>,
    transactionDate: Json,
    reference: Option<string>)

  /** Status 1, Pending: the column default. */
  const Pending: Json := JInt(1)

  /** What `get_or_create` stores for an unknown checkout id: the column defaults,
      with the empty string for the NOT NULL `phone_number` text column, and NULL
      for the integer `amount`, which has no default (Django's insert raises there). */
  const BlankStk: StkRecord := StkRecord(JStr(""), None, JNull, Pending, JNull, None, JNull, None)

  /** The record `stk_push` creates. */
  function PushedRecord(phone: string, reference: string, description: string, amount: int, ip: Option<string>): StkRecord {
    StkRecord(JStr(phone), Some(description), JInt(amount), Pending, JNull, ip, JNull, Some(reference))
  }

  /** `stk_push`: password, payload, token, request, then the bookkeeping. The token
      is fetched after the payload is built and before anything is sent; a token
      failure sends nothing and records nothing. */
  method StkPush(cfg: Settings, cache: TokenCache, table: Table<StkRecord>, now: DateTime, clock: int,
                 exchange: HttpOutcome, reply: HttpOutcome, request: Request,
                 amount: int, phone: string, description: string, reference: string)
    returns (r: Result<Json, PyError>, posted: Option<Outbound<StkPayload>>)
    requires Valid(now) && table.Valid() && table.unique
    modifies cache, table
    ensures table.Valid()
    ensures GeneratePassword(cfg, now).Err? ==>
      r == Err(UnicodeEncodeError) && posted.None? && table.rows == old(table.rows) && cache.entry == old(cache.entry)
    ensures GeneratePassword(cfg, now).Ok? ==> cache.entry == CacheAfter(old(cache.entry), clock, exchange)
    ensures GeneratePassword(cfg, now).Ok? && TokenOutcome(old(cache.entry), clock, exchange).Err? ==>
      r == Err(InvalidCredentials) && posted.None? && table.rows == old(table.rows)
    ensures GeneratePassword(cfg, now).Ok? && TokenOutcome(old(cache.entry), clock, exchange).Ok? ==>
      var (password, timestamp) := GeneratePassword(cfg, now).value;
      && posted == Some(Outbound(TokenOutcome(old(cache.entry), clock, exchange).value,
                                 PushPayload(cfg, password, timestamp, amount, phone, description, reference)))
      && (r, table.rows) == RecordReply(old(table.rows), true, reply, WhenOk, "CheckoutRequestID",
                                        PushedRecord(phone, reference, description, amount, request.remoteAddr))
  {
    var generated := GeneratePassword(cfg, now);
    if generated.Err? {
      return Err(generated.error), None;
    }
    var (password, timestamp) := generated.value;
    var payload := PushPayload(cfg, password, timestamp, amount, phone, description, reference);
    var token := GetAccessToken(cache, clock, exchange);
    if token.Err? {
      return Err(token.error), None;
    }
    posted := Some(Outbound(token.value, payload));
    var body := ResponseJson(reply);
    if body.Err? {
      return Err(body.error), posted;
    }
    if Accepts(WhenOk, reply.statusCode) {
      var checkoutId := DictGet(body.value, "CheckoutRequestID");
      if checkoutId.Err? {
        return Err(checkoutId.error), posted;
      }
      var created := table.Create(checkoutId.value, PushedRecord(phone, reference, description, amount, request.remoteAddr));
      if created.Err? {
        return Err(created.error), posted;
      }
    }
    r := Ok(body.value);
  }

  /** The payload carries the very timestamp the password was made from, and the
      password decodes to short code, API key and that timestamp. */
  lemma PayloadTimestampMatchesPassword(cfg: Settings, now: DateTime, amount: int, phone: string,
                                        description: string, reference: string)
    requires Valid(now) && GeneratePassword(cfg, now).Ok?
    ensures var (password, timestamp) := GeneratePassword(cfg, now).value;
      var p := PushPayload(cfg, password, timestamp, amount, phone, description, reference);
      && p.timestamp == FormatCompact(now)
      && Base64.Decode(p.password).Some?
      && Base64.AsciiDecode(Base64.Decode(p.password).value) == cfg.shortCode + cfg.apiKey + p.timestamp
      && p.businessShortCode == p.partyB == cfg.shortCode
      && p.partyA == p.phoneNumber == phone
      && p.amount == amount
  {
  }

  /* ---------- the callback ---------- */

  /** `stk_check_status`: the raw `data["Body"]["stkCallback"]["ResultCode"]`, not
      normalised. When it is missing the fallback meant to give 1 calls `logging`,
      which this module never imports, so NameError escapes instead. */
  function StkCheckStatus(data: Json): (r: Result<Json, PyError>)
    ensures r.Ok? <==> Path(data, ["Body", "stkCallback", "ResultCode"]).Ok?
    ensures r.Ok? ==> r.value == Path(data, ["Body", "stkCallback", "ResultCode"]).value
    ensures r.Err? ==> r.error == NameError
  {
    match Path(data, ["Body", "stkCallback", "ResultCode"])
    case Ok(code) => Ok(code)
    case Err(_) => Err(NameError)
  }

  /** `data["Body"]["stkCallBack"]["CheckoutRequestID"]`: note the capital B, unlike
      the key the status is read from. */
  function CheckoutKey(data: Json): Result<Json, PyError> {
    Path(data, ["Body", "stkCallBack", "CheckoutRequestID"])
  }

  /** The `Item` list of the success metadata. */
  function MetadataItems(data: Json): Result<Json, PyError> {
    Path(data, ["Body", "stkCallback", "CallbackMetadata", "Item"])
  }

  /** The four locals of `stk_handle_successful_pay`. */
  datatype StkAcc = StkAcc(amount: Json, phoneNumber: Json, receiptNo: Json, transactionDate: Json)

  const NoAcc: StkAcc := StkAcc(JNull, JNull, JNull, JNull)

  /** One pass of the loop body over the locals. The receipt branch subscripts the
      whole list `itemList` (not the item) with `"Value"`. */
  function StkStep(itemList: Json, item: Json, acc: StkAcc): Result<StkAcc, PyError> {
    var name :- Index(item, "Name");
    if name == JStr("Amount") then
      var v :- Index(item, "Value");
      Ok(acc.(amount := v))
    else if name == JStr("MpesaReceiptNumber") then
      var v :- Index(itemList, "Value");
      Ok(acc.(receiptNo := v))
    else if name == JStr("PhoneNumber") then
      var v :- Index(item, "Value");
      Ok(acc.(phoneNumber := v))
    else if name == JStr("TransactionDate") then
      var v :- Index(item, "Value");
      Ok(acc.(transactionDate := v))
    else Ok(acc)
  }

  /** The loop over `items`, first to last; the first failing step raises. */
  function StkFold(itemList: Json, items: seq<Json>, acc: StkAcc): Result<StkAcc, PyError> {
    if items == [] then Ok(acc)
    else
      var next :- StkStep(itemList, items[0], acc);
      StkFold(itemList, items[1..], next)
  }

  /** The four record fields take the locals, as at the end of every iteration. */
  function ApplyAcc(rec: StkRecord, acc: StkAcc): StkRecord {
    rec.(amount := acc.amount, phoneNumber := acc.phoneNumber, receiptNo := acc.receiptNo,
         transactionDate := acc.transactionDate)
  }

  /** What `stk_handle_successful_pay` makes of `rec`: unchanged when the list is
      empty, otherwise the four fields hold the final locals. */
  function StkSuccess(data: Json, rec: StkRecord): Result<StkRecord, PyError> {
    var itemList :- MetadataItems(data);
    var items :- LoopItems(itemList);
    var acc :- StkFold(itemList, items, NoAcc);
    Ok(if items == [] then rec else ApplyAcc(rec, acc))
  }

  /** `stk_handle_successful_pay`, loop for loop. */
  method HandleSuccessfulPay(data: Json, rec: StkRecord) returns (r: Result<StkRecord, PyError>)
    ensures r == StkSuccess(data, rec)
  {
    var itemList := MetadataItems(data);
    if itemList.Err? {
      return Err(itemList.error);
    }
    var items := LoopItems(itemList.value);
    if items.Err? {
      return Err(items.error);
    }
    var amount, phoneNumber, receiptNo, transactionDate := JNull, JNull, JNull, JNull;
    var transaction := rec;
    var i := 0;
    while i < |items.value|
      invariant 0 <= i <= |items.value|
      invariant StkFold(itemList.value, items.value, NoAcc)
             == StkFold(itemList.value, items.value[i..], StkAcc(amount, phoneNumber, receiptNo, transactionDate))
      invariant transaction == if i == 0 then rec else ApplyAcc(rec, StkAcc(amount, phoneNumber, receiptNo, transactionDate))
    {
      var item := items.value[i];
      assert items.value[i..][0] == item && items.value[i..][1..] == items.value[i + 1..];
      var name := Index(item, "Name");
      if name.Err? {
        return Err(name.error);
      }
      if name.value == JStr("Amount") {
        var v := Index(item, "Value");
        if v.Err? {
          return Err(v.error);
        }
        amount := v.value;
      } else if name.value == JStr("MpesaReceiptNumber") {
        match Index(itemList.value, "Value")
        case Err(e) => return Err(e);
        case Ok(v) => receiptNo := v;
      } else if name.value == JStr("PhoneNumber") {
        var v := Index(item, "Value");
        if v.Err? {
          return Err(v.error);
        }
        phoneNumber := v.value;
      } else if name.value == JStr("TransactionDate") {
        var v := Index(item, "Value");
        if v.Err? {
          return Err(v.error);
        }
        transactionDate := v.value;
      }
      transaction := transaction.(amount := amount, phoneNumber := phoneNumber, receiptNo := receiptNo,
                                  transactionDate := transactionDate);
      i := i + 1;
    }
    return Ok(transaction);
  }

  /** `stk_callback_handler` on the table `rows`: read the status, find or create the
      record by checkout id, apply the success metadata when the status `== 0`, then
      store the raw status and save. The result is the saved row's position. */
  function StkCallback(rows: seq<Row<StkRecord>>, data: Json): (res: (Result<nat, PyError>, seq<Row<StkRecord>>))
    ensures res.0.Ok? ==>
      && StkCheckStatus(data).Ok? && CheckoutKey(data).Ok?
      && res.0.value < |res.1| && res.1[res.0.value].key == CheckoutKey(data).value
      && res.1[res.0.value].rec.status == StkCheckStatus(data).value
    ensures res.0.Ok? ==>
      var i := res.0.value;
      var status := StkCheckStatus(data).value;
      var before := if i < |rows| then rows[i].rec else BlankStk;
      && (i < |rows| <==> Count(rows, CheckoutKey(data).value) == 1)
      && (!EqualsZero(status) ==> res.1[i].rec == before.(status := status))
      && (EqualsZero(status) ==> StkSuccess(data, before).Ok? && res.1[i].rec == StkSuccess(data, before).value.(status := status))
    // the handler completes whenever nothing it reads raises
    ensures
      && StkCheckStatus(data).Ok? && CheckoutKey(data).Ok? && Count(rows, CheckoutKey(data).value) <= 1
      && (EqualsZero(StkCheckStatus(data).value) ==> StkSuccess(data, Fetched(rows, CheckoutKey(data).value, BlankStk)).Ok?)
      ==> res.0.Ok?
    ensures StkCheckStatus(data).Err? ==> res == (Err(StkCheckStatus(data).error), rows)
    ensures StkCheckStatus(data).Ok? && CheckoutKey(data).Err? ==> res == (Err(CheckoutKey(data).error), rows)
    ensures StkCheckStatus(data).Ok? && CheckoutKey(data).Ok? && Count(rows, CheckoutKey(data).value) >= 2 ==>
      res == (Err(MultipleObjectsReturned), rows)
    // a failure after the lookup keeps the row get_or_create created
    ensures res.0.Err? && StkCheckStatus(data).Ok? && CheckoutKey(data).Ok? ==>
      res.1 == FindOrCreate(rows, CheckoutKey(data).value, BlankStk).1
    ensures |rows| <= |res.1| <= |rows| + 1
    ensures forall j :: 0 <= j < |rows| && !(res.0.Ok? && j == res.0.value) ==> res.1[j] == rows[j]
  {
    match StkCheckStatus(data)
    case Err(e) => (Err(e), rows)
    case Ok(status) =>
      match CheckoutKey(data)
      case Err(e) => (Err(e), rows)
      case Ok(key) =>
        var (found, rows1) := FindOrCreate(rows, key, BlankStk);
        if found.Err? then (Err(found.error), rows1)
        else
          var i := found.value;
          var rec := rows1[i].rec;
          if EqualsZero(status) then
            match StkSuccess(data, rec)
            case Err(e) => (Err(e), rows1)
            case Ok(paid) => (Ok(i), Save(rows1, i, paid.(status := status)))
          else (Ok(i), Save(rows1, i, rec.(status := status)))
  }

  /** `stk_callback_handler` against the table. */
  method StkCallbackHandler(table: Table<StkRecord>, data: Json) returns (r: Result<nat, PyError>)
    requires table.Valid()
    modifies table
    ensures table.Valid()
    ensures (r, table.rows) == StkCallback(old(table.rows), data)
  {
    var status := StkCheckStatus(data);
    if status.Err? {
      return Err(status.error);
    }
    var key := CheckoutKey(data);
    if key.Err? {
      return Err(key.error);
    }
    var found := table.GetOrCreate(key.value, BlankStk);
    if found.Err? {
      return Err(found.error);
    }
    var i := found.value;
    var transaction := table.rows[i].rec;
    if EqualsZero(status.value) {
      var paid := HandleSuccessfulPay(data, transaction);
      if paid.Err? {
        return Err(paid.error);
      }
      transaction := paid.value;
    }
    transaction := transaction.(status := status.value);
    table.Put(i, transaction);
    return Ok(i);
  }

  /* ---------- properties of the callback ---------- */

  /** `item["Name"] == name`. */
  predicate NameIs(item: Json, name: string) {
    Index(item, "Name") == Ok(JStr(name))
  }

  /** `item["Value"]`, None when the item has none. */
  function ValueOr(item: Json): Json {
    match Index(item, "Value")
    case Ok(v) => v
    case Err(_) => JNull
  }

  /** Reference definition, read from the end of the list: the value of the last
      item named `name`, `none` when no item is. */
  function LastNamed(items: seq<Json>, name: string, none: Json): Json {
    if items == [] then none
    else if NameIs(items[|items| - 1], name) then ValueOr(items[|items| - 1])
    else LastNamed(items[..|items| - 1], name, none)
  }

  /** The local that the item named `name` sets. */
  function Slot(acc: StkAcc, name: string): Json {
    if name == "Amount" then acc.amount
    else if name == "PhoneNumber" then acc.phoneNumber
    else acc.transactionDate
  }

  lemma {:induction false} LastNamedFront(items: seq<Json>, name: string, none: Json)
    requires items != []
    ensures LastNamed(items, name, none)
         == LastNamed(items[1..], name, if NameIs(items[0], name) then ValueOr(items[0]) else none)
  {
    if |items| > 1 {
      var prefix := items[..|items| - 1];
      LastNamedFront(prefix, name, none);
      assert prefix[1..] == items[1..][..|items[1..]| - 1];
    }
  }

  /** When the loop completes, the amount, the phone number and the transaction date
      are those of the last item carrying that name. */
  lemma {:induction false} FoldKeepsLastNamed(itemList: Json, items: seq<Json>, acc: StkAcc, name: string)
    requires name == "Amount" || name == "PhoneNumber" || name == "TransactionDate"
    requires StkFold(itemList, items, acc).Ok?
    ensures Slot(StkFold(itemList, items, acc).value, name) == LastNamed(items, name, Slot(acc, name))
  {
    if items != [] {
      var next := StkStep(itemList, items[0], acc).value;
      FoldKeepsLastNamed(itemList, items[1..], next, name);
      LastNamedFront(items, name, Slot(acc, name));
    }
  }

  /** The receipt branch subscripts the list itself, so a list (anything but a
      dictionary) holding an item named `MpesaReceiptNumber` always raises: a loop
      that completes saw no such item and leaves the receipt number as it was. */
  lemma {:induction false} FoldRejectsReceipt(itemList: Json, items: seq<Json>, acc: StkAcc)
    requires !itemList.JObj? && StkFold(itemList, items, acc).Ok?
    ensures forall k :: 0 <= k < |items| ==> !NameIs(items[k], "MpesaReceiptNumber")
    ensures StkFold(itemList, items, acc).value.receiptNo == acc.receiptNo
  {
    if items != [] {
      FoldRejectsReceipt(itemList, items[1..], StkStep(itemList, items[0], acc).value);
      assert forall k :: 1 <= k < |items| ==> items[k] == items[1..][k - 1];
    }
  }

  /** What a completed `stk_handle_successful_pay` leaves in the record: amount, phone
      number and transaction date of the last item of that name (None when there is
      none), a receipt number of None, and no item named `MpesaReceiptNumber` in the
      list; an empty list leaves the record as it was. */
  lemma SuccessFields(data: Json, rec: StkRecord)
    requires StkSuccess(data, rec).Ok?
    ensures var items := LoopItems(MetadataItems(data).value).value;
      var paid := StkSuccess(data, rec).value;
      && (forall k :: 0 <= k < |items| ==> !NameIs(items[k], "MpesaReceiptNumber"))
      && (items == [] ==> paid == rec)
      && (items != [] ==> paid == rec.(amount := LastNamed(items, "Amount", JNull),
                                       phoneNumber := LastNamed(items, "PhoneNumber", JNull),
                                       receiptNo := JNull,
                                       transactionDate := LastNamed(items, "TransactionDate", JNull)))
  {
    var itemList := MetadataItems(data).value;
    var items := LoopItems(itemList).value;
    if items != [] {
      FoldRejectsReceipt(itemList, items, NoAcc);
      FoldKeepsLastNamed(itemList, items, NoAcc, "Amount");
      FoldKeepsLastNamed(itemList, items, NoAcc, "PhoneNumber");
      FoldKeepsLastNamed(itemList, items, NoAcc, "TransactionDate");
    }
  }

  /** A callback shaped the way the gateway sends it, with everything under
      `stkCallback` and no `stkCallBack` key, is never recorded: the handler raises
      (KeyError once the status was read) and the table is unchanged. */
  lemma GatewayCallbackRejected(rows: seq<Row<StkRecord>>, data: Json)
    requires data.JObj? && "Body" in data.fields
    requires data.fields["Body"].JObj? && "stkCallBack" !in data.fields["Body"].fields
    ensures StkCallback(rows, data).0.Err? && StkCallback(rows, data).1 == rows
    ensures StkCheckStatus(data).Ok? ==> StkCallback(rows, data).0 == Err(KeyError)
  {
    var keys := ["Body", "stkCallBack", "CheckoutRequestID"];
    assert keys[1..] == ["stkCallBack", "CheckoutRequestID"];
    assert Path(data.fields["Body"], keys[1..]) == Err(KeyError);
    assert CheckoutKey(data) == Err(KeyError);
  }

  /** Applying the success metadata a second time changes nothing. */
  lemma SuccessReapplied(data: Json, rec: StkRecord, status: Json)
    requires StkSuccess(data, rec).Ok?
    ensures StkSuccess(data, StkSuccess(data, rec).value.(status := status))
         == Ok(StkSuccess(data, rec).value.(status := status))
  {
  }

  /** A callback delivered twice leaves the table as the first delivery left it. */
  lemma StkCallbackReplay(rows: seq<Row<StkRecord>>, data: Json)
    requires StkCallback(rows, data).0.Ok?
    ensures StkCallback(StkCallback(rows, data).1, data) == StkCallback(rows, data)
  {
    var key := CheckoutKey(data).value;
    var status := StkCheckStatus(data).value;
    var (found, rows1) := FindOrCreate(rows, key, BlankStk);
    var i := found.value;
    FindOrCreateTwice(rows, key, BlankStk);
    var rows2 := StkCallback(rows, data).1;
    var rec := rows1[i].rec;
    if EqualsZero(status) {
      SuccessReapplied(data, rec, status);
    }
    FindOrCreateAfterSave(rows1, i, rows2[i].rec, key, BlankStk);
    CountSameKeys(rows1, rows2, key);
    assert Save(rows2, i, rows2[i].rec) == rows2;
  }
}

=== FILE: datetime.dfy ===
/** Calendar date-times and the two `strftime` formats the gateways use:
    `%Y%m%d%H%M%S` (the STK timestamp, `TransCompletedTime`) and
    `%d.%m.%Y %H:%M:%S` (`TransactionCompletedDateTime`). Parsing them back is
    module `Strptime`. */
module DateTime {
  import opened PyStr

  datatype DateTime = DateTime(year: int, month: int, day: int, hour: int, minute: int, second: int)

  predicate IsLeap(y: int) {
    y % 4 == 0 && (y % 100 != 0 || y % 400 == 0)
  }

  function DaysInMonth(y: int, m: int): int
    requires 1 <= m <= 12
  {
    if m == 2 then (if IsLeap(y) then 29 else 28)
    else if m == 4 || m == 6 || m == 9 || m == 11 then 30
    else 31
  }

  /** What Python's `datetime` constructor accepts (years 1 to 9999). */
  predicate Valid(d: DateTime) {
    && 1 <= d.year <= 9999
    && 1 <= d.month <= 12
    && 1 <= d.day <= DaysInMonth(d.year, d.month)
    && 0 <= d.hour < 24
    && 0 <= d.minute < 60
    && 0 <= d.second < 60
  }

  function Pad2(n: int): string
    requires 0 <= n < 100
  {
    [DigitChar(n / 10), DigitChar(n % 10)]
  }

  function Pad4(n: int): string
    requires 0 <= n < 10000
  {
    Pad2(n / 100) + Pad2(n % 100)
  }

  /** `d.strftime("%Y%m%d%H%M%S")`. */
  function FormatCompact(d: DateTime): string
    requires Valid(d)
  {
    Pad4(d.year) + Pad2(d.month) + Pad2(d.day) + Pad2(d.hour) + Pad2(d.minute) + Pad2(d.second)
  }

  /** `d.strftime("%d.%m.%Y %H:%M:%S")`. */
  function FormatDotted(d: DateTime): string
    requires Valid(d)
  {
    Pad2(d.day) + "." + Pad2(d.month) + "." + Pad4(d.year) + " "
      + Pad2(d.hour) + ":" + Pad2(d.minute) + ":" + Pad2(d.second)
  }

  lemma Digits2(t: string)
    requires |t| == 2 && AllDigits(t)
    ensures DigitsValue(t) == DigitOf(t[0]) * 10 + DigitOf(t[1])
    ensures 0 <= DigitsValue(t) < 100 && Pad2(DigitsValue(t)) == t
  {
    assert t[..1][..0] == [];
    assert DigitsValue(t[..1]) == DigitOf(t[0]);
    assert DigitsValue(t) == DigitsValue(t[..1]) * 10 + DigitOf(t[1]);
  }

  /** A four-digit number is its two leading digits times a hundred plus its last two. */
  lemma Digits4(t: string)
    requires |t| == 4 && AllDigits(t)
    ensures DigitsValue(t) == DigitsValue(t[..2]) * 100 + DigitsValue(t[2..])
    ensures 0 <= DigitsValue(t) < 10000 && Pad4(DigitsValue(t)) == t
  {
    assert t[..3][..2] == t[..2];
    Digits2(t[..2]);
    Digits2(t[2..]);
    var hi, lo := DigitsValue(t[..2]), DigitsValue(t[2..]);
    assert DigitsValue(t[..3]) == hi * 10 + DigitOf(t[2]);
    assert DigitsValue(t) == hi * 100 + lo;
    assert (hi * 100 + lo) / 100 == hi && (hi * 100 + lo) % 100 == lo;
    assert t == t[..2] + t[2..];
  }

  lemma Pad2Value(n: int)
    requires 0 <= n < 100
    ensures AllDigits(Pad2(n)) && DigitsValue(Pad2(n)) == n
  {
    Digits2(Pad2(n));
  }

  lemma Pad4Value(n: int)
    requires 0 <= n < 10000
    ensures AllDigits(Pad4(n)) && DigitsValue(Pad4(n)) == n
  {
    var t := Pad4(n);
    Pad2Value(n / 100);
    Pad2Value(n % 100);
    assert t[..2] == Pad2(n / 100) && t[2..] == Pad2(n % 100);
    Digits4(t);
  }

  /** The STK timestamp is always fourteen decimal digits. */
  lemma CompactIsFourteenDigits(d: DateTime)
    requires Valid(d)
    ensures |FormatCompact(d)| == 14 && AllDigits(FormatCompact(d))
  {
    Pad4Value(d.year); Pad2Value(d.month); Pad2Value(d.day);
    Pad2Value(d.hour); Pad2Value(d.minute); Pad2Value(d.second);
  }
}

=== FILE: express.dfy ===
/** The `mpesa` app's `Express` gateway: the same STK Push flow as the `daraja` app,
    against its own `STKTransaction` table, whose checkout id is not unique, which
    carries a generated transaction number and has no transaction date column, and
    whose status reader falls back to Pending. */
module Express {
  import opened Wrappers
  import opened PyValue
  import opened DateTime
  import opened Store
  import opened MpesaBase
  import C2B

  /* ---------- the STKTransaction record ---------- */

  /** An `mpesa` `STKTransaction` row apart from its key `checkout_request_id`. */
  datatype ExpressRecord = ExpressRecord(
    transactionNo: string,
    phoneNumber: Json,
    reference: Option<string>,
    description: Option<string>,
    amount: Json,
    status: Json,
    receiptNo: Json,
    ip: Option<string>)

  /** Status 1, Pending: the column default. */
  const Pending: Json := JInt(1)

  /** The model defaults, with `newNo` standing for the `uuid4` the transaction number
      defaults to. `phone_number` and `amount` are text columns that are neither
      nullable nor given a default, so Django fills them with the empty string. */
  function Blank(newNo: string): ExpressRecord {
    ExpressRecord(newNo, JStr(""), None, None, JStr(""), Pending, JNull, None)
  }

  /** The record `stk_push` creates. */
  function PushedRecord(newNo: string, phone: string, reference: string, description: string,
                        amount: int, ip: Option<string>): ExpressRecord {
    ExpressRecord(newNo, JStr(phone), Some(reference), Some(description), JInt(amount), Pending, JNull, ip)
  }

  /* ---------- the push ---------- */

  /** `stk_push`: the password and the payload are those of the `daraja` flow; the
      bookkeeping creates a row whenever the reply is `ok`, even for a checkout id
      already on file, since the column is not unique. */
  method StkPush(cfg: Settings, cache: TokenCache, table: Table<ExpressRecord>, now: DateTime, clock: int,
                 exchange: HttpOutcome, reply: HttpOutcome, request: Request, newNo: string,
                 amount: int, phone: string, description: string, reference: string)
    returns (r: Result<Json, PyError>, posted: Option<Outbound<C2B.StkPayload>>)
    requires Valid(now) && table.Valid() && !table.unique
    modifies cache, table
    ensures table.Valid()
    ensures C2B.GeneratePassword(cfg, now).Err? ==>
      r == Err(UnicodeEncodeError) && posted.None? && table.rows == old(table.rows) && cache.entry == old(cache.entry)
    ensures C2B.GeneratePassword(cfg, now).Ok? ==> cache.entry == CacheAfter(old(cache.entry), clock, exchange)
    ensures C2B.GeneratePassword(cfg, now).Ok? && TokenOutcome(old(cache.entry), clock, exchange).Err? ==>
      r == Err(InvalidCredentials) && posted.None? && table.rows == old(table.rows)
    ensures C2B.GeneratePassword(cfg, now).Ok? && TokenOutcome(old(cache.entry), clock, exchange).Ok? ==>
      var (password, timestamp) := C2B.GeneratePassword(cfg, now).value;
      && posted == Some(Outbound(TokenOutcome(old(cache.entry), clock, exchange).value,
                                 C2B.PushPayload(cfg, password, timestamp, amount, phone, description, reference)))
      && (r, table.rows) == RecordReply(old(table.rows), false, reply, WhenOk, "CheckoutRequestID",
                                        PushedRecord(newNo, phone, reference, description, amount, request.remoteAddr))
  {
    var generated := C2B.GeneratePassword(cfg, now);
    if generated.Err? {
      return Err(generated.error), None;
    }
    var (password, timestamp) := generated.value;
    var payload := C2B.PushPayload(cfg, password, timestamp, amount, phone, description, reference);
    var token := GetAccessToken(cache, clock, exchange);
    if token.Err? {
      return Err(token.error), None;
    }
    posted := Some(Outbound(token.value, payload));
    var body := ResponseJson(reply);
    if body.Err? {
      return Err(body.error), posted;
    }
    if Accepts(WhenOk, reply.statusCode) {
      var checkoutId := DictGet(body.value, "CheckoutRequestID");
      if checkoutId.Err? {
        return Err(checkoutId.error), posted;
      }
      var _ := table.Create(checkoutId.value, PushedRecord(newNo, phone, reference, description, amount, request.remoteAddr));
    }
    r := Ok(body.value);
  }

  /** An accepted reply with a dictionary body is always recorded, as one more row,
      however many rows already carry its checkout id. */
  lemma AcceptedPushRecorded(rows: seq<Row<ExpressRecord>>, reply: HttpOutcome, rec: ExpressRecord)
    requires reply.Reply? && reply.body.Some? && reply.body.value.JObj? && ResponseOk(reply.statusCode)
    ensures var key := DictGet(reply.body.value, "CheckoutRequestID").value;
      RecordReply(rows, false, reply, WhenOk, "CheckoutRequestID", rec)
        == (Ok(reply.body.value), rows + [Row(key, rec)])
      && Count(rows + [Row(key, rec)], key) == Count(rows, key) + 1
  {
    var key := DictGet(reply.body.value, "CheckoutRequestID").value;
    CountAppend(rows, Row(key, rec), key);
  }

  /* ---------- the callback ---------- */

  /** `stk_check_status`: the raw `data["Body"]["stkCallback"]["ResultCode"]`, or 1
      (Pending) when it cannot be read; it never raises. */
  function StkCheckStatus(data: Json): (status: Json)
    ensures Path(data, ["Body", "stkCallback", "ResultCode"]).Ok? ==>
      status == Path(data, ["Body", "stkCallback", "ResultCode"]).value
    ensures Path(data, ["Body", "stkCallback", "ResultCode"]).Err? ==> status == Pending
    ensures status == Pending || C2B.StkCheckStatus(data) == Ok(status)
  {
    match Path(data, ["Body", "stkCallback", "ResultCode"])
    case Ok(code) => code
    case Err(_) => Pending
  }

  /** The three record fields take the locals, as at the end of every iteration; the
      transaction date is set on the instance only and has no column to be saved in. */
  function ApplyAcc(rec: ExpressRecord, acc: C2B.StkAcc): ExpressRecord {
    rec.(amount := acc.amount, phoneNumber := acc.phoneNumber, receiptNo := acc.receiptNo)
  }

  /** What `stk_handle_successful_pay` makes of `rec`. */
  function StkSuccess(data: Json, rec: ExpressRecord): Result<ExpressRecord, PyError> {
    var itemList :- C2B.MetadataItems(data);
    var items :- LoopItems(itemList);
    var acc :- C2B.StkFold(itemList, items, C2B.NoAcc);
    Ok(if items == [] then rec else ApplyAcc(rec, acc))
  }

  /** `stk_handle_successful_pay`, loop for loop. */
  method HandleSuccessfulPay(data: Json, rec: ExpressRecord) returns (r: Result<ExpressRecord, PyError>)
    ensures r == StkSuccess(data, rec)
  {
    var itemList := C2B.MetadataItems(data);
    if itemList.Err? {
      return Err(itemList.error);
    }
    var items := LoopItems(itemList.value);
    if items.Err? {
      return Err(items.error);
    }
    var amount, phoneNumber, receiptNo, transactionDate := JNull, JNull, JNull, JNull;
    var transaction := rec;
    var i := 0;
    while i < |items.value|
      invariant 0 <= i <= |items.value|
      invariant C2B.StkFold(itemList.value, items.value, C2B.NoAcc)
             == C2B.StkFold(itemList.value, items.value[i..], C2B.StkAcc(amount, phoneNumber, receiptNo, transactionDate))
      invariant transaction == if i == 0 then rec else ApplyAcc(rec, C2B.StkAcc(amount, phoneNumber, receiptNo, transactionDate))
    {
      var item := items.value[i];
      assert items.value[i..][0] == item && items.value[i..][1..] == items.value[i + 1..];
      var name := Index(item, "Name");
      if name.Err? {
        return Err(name.error);
      }
      if name.value == JStr("Amount") {
        var v := Index(item, "Value");
        if v.Err? {
          return Err(v.error);
        }
        amount := v.value;
      } else if name.value == JStr("MpesaReceiptNumber") {
        match Index(itemList.value, "Value")
        case Err(e) => return Err(e);
        case Ok(v) => receiptNo := v;
      } else if name.value == JStr("PhoneNumber") {
        var v := Index(item, "Value");
        if v.Err? {
          return Err(v.error);
        }
        phoneNumber := v.value;
      } else if name.value == JStr("TransactionDate") {
        var v := Index(item, "Value");
        if v.Err? {
          return Err(v.error);
        }
        transactionDate := v.value;
      }
      transaction := transaction.(amount := amount, phoneNumber := phoneNumber, receiptNo := receiptNo);
      i := i + 1;
    }
    return Ok(transaction);
  }

  /** What a completed `stk_handle_successful_pay` leaves in the record: amount and
      phone number of the last item of that name (None when there is none), a receipt
      number of None, no item named `MpesaReceiptNumber`, and the transaction number,
      status, reference, description and address untouched. */
  lemma SuccessFields(data: Json, rec: ExpressRecord)
    requires StkSuccess(data, rec).Ok?
    ensures var items := LoopItems(C2B.MetadataItems(data).value).value;
      var paid := StkSuccess(data, rec).value;
      && (forall k :: 0 <= k < |items| ==> !C2B.NameIs(items[k], "MpesaReceiptNumber"))
      && (items == [] ==> paid == rec)
      && (items != [] ==> paid == rec.(amount := C2B.LastNamed(items, "Amount", JNull),
                                       phoneNumber := C2B.LastNamed(items, "PhoneNumber", JNull),
                                       receiptNo := JNull))
  {
    var itemList := C2B.MetadataItems(data).value;
    var items := LoopItems(itemList).value;
    if items != [] {
      C2B.FoldRejectsReceipt(itemList, items, C2B.NoAcc);
      C2B.FoldKeepsLastNamed(itemList, items, C2B.NoAcc, "Amount");
      C2B.FoldKeepsLastNamed(itemList, items, C2B.NoAcc, "PhoneNumber");
    }
  }

  /** `stk_callback_handler` on the table `rows`: read the status, find or create the
      record by checkout id (MultipleObjectsReturned when several rows share it; a new
      row gets the transaction number `newNo`), apply the success metadata when the
      status `== 0`, then store the status and save. */
  function StkCallback(rows: seq<Row<ExpressRecord>>, data: Json, newNo: string)
    : (res: (Result<nat, PyError>, seq<Row<ExpressRecord>>))
    ensures C2B.CheckoutKey(data).Ok? && Count(rows, C2B.CheckoutKey(data).value) >= 2 ==>
      res == (Err(MultipleObjectsReturned), rows)
    ensures res.0.Ok? ==>
      && C2B.CheckoutKey(data).Ok?
      && res.0.value < |res.1| && res.1[res.0.value].key == C2B.CheckoutKey(data).value
      && res.1[res.0.value].rec.status == StkCheckStatus(data)
    ensures res.0.Ok? ==>
      var i := res.0.value;
      var status := StkCheckStatus(data);
      var before := if i < |rows| then rows[i].rec else Blank(newNo);
      && (i < |rows| <==> Count(rows, C2B.CheckoutKey(data).value) == 1)
      && (!EqualsZero(status) ==> res.1[i].rec == before.(status := status))
      && (EqualsZero(status) ==> StkSuccess(data, before).Ok? && res.1[i].rec == StkSuccess(data, before).value.(status := status))
    // the handler completes whenever nothing it reads raises
    ensures
      && C2B.CheckoutKey(data).Ok? && Count(rows, C2B.CheckoutKey(data).value) <= 1
      && (EqualsZero(StkCheckStatus(data)) ==>
            StkSuccess(data, Fetched(rows, C2B.CheckoutKey(data).value, Blank(newNo))).Ok?)
      ==> res.0.Ok?
    ensures C2B.CheckoutKey(data).Err? ==> res == (Err(C2B.CheckoutKey(data).error), rows)
    // a failure after the lookup keeps the row get_or_create created
    ensures res.0.Err? && C2B.CheckoutKey(data).Ok? ==>
      res.1 == FindOrCreate(rows, C2B.CheckoutKey(data).value, Blank(newNo)).1
    ensures |rows| <= |res.1| <= |rows| + 1
    ensures forall j :: 0 <= j < |rows| && !(res.0.Ok? && j == res.0.value) ==> res.1[j] == rows[j]
  {
    var status := StkCheckStatus(data);
    match C2B.CheckoutKey(data)
    case Err(e) => (Err(e), rows)
    case Ok(key) =>
      var (found, rows1) := FindOrCreate(rows, key, Blank(newNo));
      if found.Err? then (Err(found.error), rows1)
      else
        var i := found.value;
        var rec := rows1[i].rec;
        if EqualsZero(status) then
          match StkSuccess(data, rec)
          case Err(e) => (Err(e), rows1)
          case Ok(paid) => (Ok(i), Save(rows1, i, paid.(status := status)))
        else (Ok(i), Save(rows1, i, rec.(status := status)))
  }

  /** `stk_callback_handler` against the table. */
  method StkCallbackHandler(table: Table<ExpressRecord>, data: Json, newNo: string) returns (r: Result<nat, PyError>)
    requires table.Valid()
    modifies table
    ensures table.Valid()
    ensures (r, table.rows) == StkCallback(old(table.rows), data, newNo)
  {
    var status := StkCheckStatus(data);
    var key := C2B.CheckoutKey(data);
    if key.Err? {
      return Err(key.error);
    }
    var found := table.GetOrCreate(key.value, Blank(newNo));
    if found.Err? {
      return Err(found.error);
    }
    var i := found.value;
    var transaction := table.rows[i].rec;
    if EqualsZero(status) {
      var paid := HandleSuccessfulPay(data, transaction);
      if paid.Err? {
        return Err(paid.error);
      }
      transaction := paid.value;
    }
    transaction := transaction.(status := status);
    table.Put(i, transaction);
    return Ok(i);
  }

  /** A callback whose result code cannot be read is filed as Pending: the record it
      names keeps everything but its status, which becomes 1. */
  lemma UnreadableStatusIsPending(rows: seq<Row<ExpressRecord>>, data: Json, newNo: string)
    requires Path(data, ["Body", "stkCallback", "ResultCode"]).Err?
    requires StkCallback(rows, data, newNo).0.Ok?
    ensures var (r, rows1) := StkCallback(rows, data, newNo);
      var i := r.value;
      rows1[i].rec == (if i < |rows| then rows[i].rec else Blank(newNo)).(status := Pending)
  {
  }

  /** A failure callback for a checkout id not on file appends one row: the fresh
      transaction number, empty text for the phone number and the amount, and the
      status read from the callback. */
  lemma UnknownCheckoutCreated(rows: seq<Row<ExpressRecord>>, data: Json, newNo: string)
    requires C2B.CheckoutKey(data).Ok? && Count(rows, C2B.CheckoutKey(data).value) == 0
    requires !EqualsZero(StkCheckStatus(data))
    ensures StkCallback(rows, data, newNo) ==
      (Ok(|rows|), rows + [Row(C2B.CheckoutKey(data).value,
                               ExpressRecord(newNo, JStr(""), None, None, JStr(""), StkCheckStatus(data), JNull, None))])
  {
    var key := C2B.CheckoutKey(data).value;
    var status := StkCheckStatus(data);
    var created := ExpressRecord(newNo, JStr(""), None, None, JStr(""), status, JNull, None);
    var (found, rows1) := FindOrCreate(rows, key, Blank(newNo));
    assert found == Ok(|rows|) && rows1 == rows + [Row(key, Blank(newNo))];
    assert rows1[|rows|].rec.(status := status) == created;
    var saved := Save(rows1, |rows|, created);
    assert saved == rows + [Row(key, created)];
    assert StkCallback(rows, data, newNo) == (Ok(|rows|), saved);
  }

  /** Applying the success metadata a second time changes nothing. */
  lemma SuccessReapplied(data: Json, rec: ExpressRecord, status: Json)
    requires StkSuccess(data, rec).Ok?
    ensures StkSuccess(data, StkSuccess(data, rec).value.(status := status))
         == Ok(StkSuccess(data, rec).value.(status := status))
  {
  }

  /** A callback delivered twice leaves the table as the first delivery left it,
      whatever transaction number the second delivery would have drawn. */
  lemma StkCallbackReplay(rows: seq<Row<ExpressRecord>>, data: Json, newNo: string, newNo2: string)
    requires StkCallback(rows, data, newNo).0.Ok?
    ensures StkCallback(StkCallback(rows, data, newNo).1, data, newNo2) == StkCallback(rows, data, newNo)
  {
    var key := C2B.CheckoutKey(data).value;
    var status := StkCheckStatus(data);
    var (found, rows1) := FindOrCreate(rows, key, Blank(newNo));
    var i := found.value;
    FindOrCreateTwice(rows, key, Blank(newNo));
    assert FindOrCreate(rows1, key, Blank(newNo2)) == FindOrCreate(rows1, key, Blank(newNo));
    var rows2 := StkCallback(rows, data, newNo).1;
    var rec := rows1[i].rec;
    if EqualsZero(status) {
      SuccessReapplied(data, rec, status);
    }
    FindOrCreateAfterSave(rows1, i, rows2[i].rec, key, Blank(newNo2));
    CountSameKeys(rows1, rows2, key);
    assert Save(rows2, i, rows2[i].rec) == rows2;
  }
}

=== FILE: params.dfy ===
/** Reading the `Result` body of a B2C, top-up or B2B callback: where the correlation
    id, the transaction id and the `{Key, Value}` parameter list sit, and the value
    conversions the success handlers apply to parameters. */
module ResultParams {
  import opened Wrappers
  import opened PyValue
  import opened PyStr
  import opened DateTime
  import opened Strptime

  /** `data["Result"]["ConversationID"]`: the correlation key of the callback. */
  function ConversationKey(data: Json): Result<Json, PyError> {
    Path(data, ["Result", "ConversationID"])
  }

  /** `data["Result"]["TransactionID"]`. */
  function TransactionId(data: Json): Result<Json, PyError> {
    Path(data, ["Result", "TransactionID"])
  }

  /** `data["Result"]["ResultDesc"]`. */
  function ResultDesc(data: Json): Result<Json, PyError> {
    Path(data, ["Result", "ResultDesc"])
  }

  /** `data["Result"]["ResultParameters"]["ResultParameter"]`. */
  function ParameterList(data: Json): Result<Json, PyError> {
    Path(data, ["Result", "ResultParameters", "ResultParameter"])
  }

  /** `value.split("-")[1].strip()`: the display name after the first `-`.
      AttributeError when the value is not text, IndexError when it holds no `-`. */
  function PublicName(value: Json): (r: Result<string, PyError>)
    ensures r.Ok? <==> value.JStr? && '-' in value.s
    ensures value.JStr? && '-' !in value.s ==> r == Err(IndexError)
    ensures !value.JStr? ==> r == Err(AttributeError)
  {
    var text :- AsText(value, AttributeError);
    var parts := Split(text, '-');
    if '-' !in text then
      SplitNoSep(text, '-');
      Err(IndexError)
    else
      Ok(Strip(parts[1]))
  }

  /** The name is the second `-`-separated segment, whitespace stripped, whatever
      follows it. */
  lemma PublicNameOfSegments(parts: seq<string>)
    requires |parts| >= 2 && forall p <- parts :: '-' !in p
    ensures PublicName(JStr(Join(parts, '-'))) == Ok(Strip(parts[1]))
  {
    SplitJoin(parts, '-');
  }

  /** `datetime.strptime(value, "%d.%m.%Y %H:%M:%S")`; TypeError for a value that is
      not text. */
  function DottedTime(value: Json): (r: Result<DateTime, PyError>)
    ensures r.Ok? ==> value.JStr? && Valid(r.value)
    ensures !value.JStr? ==> r == Err(TypeError)
  {
    var text :- AsText(value, TypeError);
    ParseDotted(text)
  }

  /** A completion time the way the dotted format renders it is read back. */
  lemma DottedTimeReadsRendering(d: DateTime)
    requires Valid(d)
    ensures DottedTime(JStr(FormatDotted(d))) == Ok(d)
  {
    DottedRoundTrip(d);
  }

  /** `datetime.strptime(value, "%Y%m%d%H%M%S")`; TypeError for a value that is not
      text. */
  function CompactTime(value: Json): (r: Result<DateTime, PyError>)
    ensures r.Ok? ==> value.JStr? && Valid(r.value)
    ensures !value.JStr? ==> r == Err(TypeError)
  {
    var text :- AsText(value, TypeError);
    ParseCompact(text)
  }

  /** A completion time the way the compact format renders it is read back. */
  lemma CompactTimeReadsRendering(d: DateTime)
    requires Valid(d)
    ensures CompactTime(JStr(FormatCompact(d))) == Ok(d)
  {
    CompactRoundTrip(d);
  }

  /** `value if value else None`. */
  function NoneIfFalsy(value: Json): (r: Json)
    ensures Truthy(value) ==> r == value
    ensures !Truthy(value) ==> r == JNull
  {
    if Truthy(value) then value else JNull
  }

  /** `self.get_value(data, key)`: called by the top-up and B2B success handlers but
      defined in none of the gateway classes, so it is taken as a parameter about
      which nothing is assumed (it may also raise). */
  type ValueReader = (Json, string) -> Result<Json, PyError>

  /** The key and the value of one `{Key, Value}` parameter, read the way the
      handlers read them (`item["Key"]` first). */
  predicate KeyIs(item: Json, key: string) {
    Index(item, "Key") == Ok(JStr(key))
  }
}

=== FILE: pystr.dfy ===
/** The few Python `str` operations the gateways rely on: `strip()`, `split(sep)`,
    slicing off the first character, `str(int)` and `int(str)`. */
module PyStr {
  import opened Wrappers

  /** Python's `str.isspace()` for a single character. */
  predicate IsSpace(c: char) {
    || c == ' '
    || ('\t' <= c <= '\r')
    || ('\U{1C}' <= c <= '\U{1F}')
    || c == '\U{85}' || c == '\U{A0}' || c == '\U{1680}'
    || ('\U{2000}' <= c <= '\U{200A}')
    || c == '\U{2028}' || c == '\U{2029}' || c == '\U{202F}' || c == '\U{205F}' || c == '\U{3000}'
  }

  predicate IsDigit(c: char) {
    '0' <= c <= '9'
  }

  predicate AllDigits(s: string) {
    forall i :: 0 <= i < |s| ==> IsDigit(s[i])
  }

  /** Removes leading whitespace: the result is a suffix of `s`, everything cut off
      is whitespace, and the result does not start with whitespace. */
  function TrimStart(s: string): (r: string)
    ensures |r| <= |s| && r == s[|s| - |r|..]
    ensures forall i :: 0 <= i < |s| - |r| ==> IsSpace(s[i])
    ensures r != [] ==> !IsSpace(r[0])
  {
    if s != [] && IsSpace(s[0]) then TrimStart(s[1..]) else s
  }

  /** Removes trailing whitespace: the result is a prefix of `s`, everything cut off
      is whitespace, and the result does not end with whitespace. */
  function TrimEnd(s: string): (r: string)
    ensures |r| <= |s| && r == s[..|r|]
    ensures forall i :: |r| <= i < |s| ==> IsSpace(s[i])
    ensures r != [] ==> !IsSpace(r[|r| - 1])
  {
    if s != [] && IsSpace(s[|s| - 1]) then TrimEnd(s[..|s| - 1]) else s
  }

  /** Python's `s.strip()`. */
  function Strip(s: string): string {
    TrimEnd(TrimStart(s))
  }

  /** `strip()` leaves a string alone when neither end is whitespace. */
  lemma {:induction false} StripUnchanged(s: string)
    requires s != [] ==> !IsSpace(s[0]) && !IsSpace(s[|s| - 1])
    ensures Strip(s) == s
  {
  }

  /** Python's `s[1:]`: drops the first character, and is empty for an empty string. */
  function DropFirst(s: string): string {
    if s == [] then s else s[1..]
  }

  /** Glues `parts` back together with `sep` between neighbours: `sep.join(parts)`. */
  function Join(parts: seq<string>, sep: char): string
    requires |parts| >= 1
  {
    if |parts| == 1 then parts[0] else parts[0] + [sep] + Join(parts[1..], sep)
  }

  /** Python's `s.split(sep)` for a one-character separator. There is always at least
      one piece, no piece contains the separator, and joining the pieces with the
      separator gives back `s`. */
  function Split(s: string, sep: char): (parts: seq<string>)
    ensures |parts| >= 1
    ensures forall p <- parts :: sep !in p
    ensures Join(parts, sep) == s
  {
    if s == [] then [[]]
    else
      var rest := Split(s[1..], sep);
      if s[0] == sep then
        assert ([[]] + rest)[1..] == rest;
        [[]] + rest
      else
        var parts := [[s[0]] + rest[0]] + rest[1..];
        assert parts[1..] == rest[1..];
        assert |rest| > 1 ==> Join(rest, sep) == rest[0] + [sep] + Join(rest[1..], sep);
        assert s == [s[0]] + s[1..];
        parts
  }

  lemma {:induction false} SplitNoSep(a: string, sep: char)
    requires sep !in a
    ensures Split(a, sep) == [a]
  {
    if a != [] {
      SplitNoSep(a[1..], sep);
    }
  }

  lemma {:induction false} SplitAtFirst(a: string, rest: string, sep: char)
    requires sep !in a
    ensures Split(a + [sep] + rest, sep) == [a] + Split(rest, sep)
  {
    if a == [] {
      assert a + [sep] + rest == [sep] + rest;
      assert ([sep] + rest)[1..] == rest;
    } else {
      var s := a + [sep] + rest;
      assert s[0] == a[0];
      assert s[1..] == a[1..] + [sep] + rest;
      SplitAtFirst(a[1..], rest, sep);
      assert [a[0]] + a[1..] == a;
    }
  }

  /** `split` is the inverse of `join` on separator-free pieces: the pieces are
      exactly recovered, so `split` is the only decomposition with that property. */
  lemma {:induction false} SplitJoin(parts: seq<string>, sep: char)
    requires |parts| >= 1
    requires forall p <- parts :: sep !in p
    ensures Split(Join(parts, sep), sep) == parts
  {
    if |parts| == 1 {
      SplitNoSep(parts[0], sep);
    } else {
      assert parts[0] in parts;
      assert forall p <- parts[1..] :: p in parts;
      SplitJoin(parts[1..], sep);
      SplitAtFirst(parts[0], Join(parts[1..], sep), sep);
      assert [parts[0]] + parts[1..] == parts;
    }
  }

  /* ---------- integers ---------- */

  function DigitChar(d: nat): char
    requires d < 10
  {
    ('0' as int + d) as char
  }

  function DigitOf(c: char): nat
    requires IsDigit(c)
  {
    c as int - '0' as int
  }

  /** The number a string of decimal digits denotes (read left to right). */
  function DigitsValue(s: string): nat
    requires AllDigits(s)
  {
    if s == [] then 0 else DigitsValue(s[..|s| - 1]) * 10 + DigitOf(s[|s| - 1])
  }

  /** Decimal digits of a natural number, without leading zeros. */
  function NatToStr(n: nat): (s: string)
    ensures |s| >= 1 && AllDigits(s)
    ensures s[0] != '0' || n == 0
  {
    if n < 10 then [DigitChar(n)] else NatToStr(n / 10) + [DigitChar(n % 10)]
  }

  /** Python's `str(n)` for an `int`. */
  function IntToStr(n: int): string {
    if n < 0 then "-" + NatToStr(-n) else NatToStr(n)
  }

  lemma {:induction false} NatToStrValue(n: nat)
    ensures DigitsValue(NatToStr(n)) == n
  {
    if n >= 10 {
      NatToStrValue(n / 10);
      var s := NatToStr(n);
      assert s[..|s| - 1] == NatToStr(n / 10);
    }
  }

  /** Digit groups as Python's `int()` accepts them: digits, with single underscores
      allowed between two digits. */
  predicate DigitGroups(s: string) {
    && |s| >= 1
    && forall i :: 0 <= i < |s| ==> GroupChar(s, i)
  }

  /** The character at `i` is a digit, or an underscore between two digits. */
  predicate GroupChar(s: string, i: int)
    requires 0 <= i < |s|
  {
    IsDigit(s[i]) || (s[i] == '_' && 0 < i < |s| - 1 && IsDigit(s[i - 1]) && IsDigit(s[i + 1]))
  }

  function RemoveUnderscores(s: string): (r: string)
    ensures forall c <- r :: c != '_'
  {
    if s == [] then [] else (if s[0] == '_' then [] else [s[0]]) + RemoveUnderscores(s[1..])
  }

  lemma {:induction false} RemoveUnderscoresDigits(s: string)
    requires forall i :: 0 <= i < |s| ==> IsDigit(s[i]) || s[i] == '_'
    ensures AllDigits(RemoveUnderscores(s))
  {
    if s != [] {
      RemoveUnderscoresDigits(s[1..]);
    }
  }

  lemma {:induction false} RemoveUnderscoresNone(s: string)
    requires AllDigits(s)
    ensures RemoveUnderscores(s) == s
  {
    if s != [] {
      RemoveUnderscoresNone(s[1..]);
      assert s == [s[0]] + s[1..];
    }
  }

  /** Digit groups hold only digits and underscores. */
  lemma DigitGroupsChars(s: string)
    requires DigitGroups(s)
    ensures forall i :: 0 <= i < |s| ==> IsDigit(s[i]) || s[i] == '_'
  {
    forall i | 0 <= i < |s|
      ensures IsDigit(s[i]) || s[i] == '_'
    {
      assert GroupChar(s, i);
    }
  }

  function ParseUnsigned(s: string): Option<nat> {
    if DigitGroups(s) then
      DigitGroupsChars(s);
      RemoveUnderscoresDigits(s);
      Some(DigitsValue(RemoveUnderscores(s)))
    else None
  }

  /** Python's `int(s)` for a string in base 10: surrounding whitespace is ignored,
      one optional sign, then groups of the ASCII digits `0`-`9`; `None` where Python
      raises ValueError. */
  function ParseInt(s: string): Option<int> {
    var t := Strip(s);
    if |t| > 0 && (t[0] == '-' || t[0] == '+') then
      match ParseUnsigned(t[1..])
      case None => None
      case Some(v) =>
        var n: int := if t[0] == '-' then -(v as int) else v;
        Some(n)
    else
      match ParseUnsigned(t)
      case None => None
      case Some(v) => Some(v)
  }

  lemma {:induction false} ParseUnsignedDigits(d: string)
    requires |d| >= 1 && AllDigits(d)
    ensures ParseUnsigned(d) == Some(DigitsValue(d))
  {
    RemoveUnderscoresNone(d);
  }

  lemma {:induction false} ParseIntPositive(d: string)
    requires |d| >= 1 && AllDigits(d)
    ensures ParseInt(d) == Some(DigitsValue(d))
  {
    ParseUnsignedDigits(d);
    assert IsDigit(d[0]) && IsDigit(d[|d| - 1]);
    StripUnchanged(d);
  }

  lemma {:induction false} ParseIntNegative(d: string)
    requires |d| >= 1 && AllDigits(d)
    ensures ParseInt("-" + d) == Some(-(DigitsValue(d) as int))
  {
    ParseUnsignedDigits(d);
    var neg := "-" + d;
    assert neg[0] == '-' && neg[|neg| - 1] == d[|d| - 1];
    assert IsDigit(d[|d| - 1]);
    StripUnchanged(neg);
    assert neg[1..] == d;
  }

  /** `int(str(n)) == n`: the decimal rendering of every integer parses back to it. */
  lemma {:induction false} IntToStrParses(n: int)
    ensures ParseInt(IntToStr(n)) == Some(n)
  {
    if n < 0 {
      NegativeParses(-n);
    } else {
      NatToStrValue(n);
      ParseIntPositive(NatToStr(n));
    }
  }

  lemma {:induction false} NegativeParses(m: nat)
    requires m > 0
    ensures ParseInt(IntToStr(-(m as int))) == Some(-(m as int))
  {
    var d := NatToStr(m);
    assert IntToStr(-(m as int)) == "-" + d;
    NatToStrValue(m);
    ParseIntNegative(d);
  }
}

=== FILE: pyvalue.dfy ===
/** The values the gateways handle: what `json.loads` produces for callback bodies and
    gateway replies, the exceptions that can escape, and the Python operations the
    code applies to those values (subscript, `dict.get`, `int()`, truthiness, `== 0`,
    iteration). */
module PyValue {
  import opened Wrappers
  import PyStr

  /** A decoded JSON value. Objects are dictionaries from text keys. */
  datatype Json =
    | JNull
    | JBool(b: bool)
    | JInt(i: int)
    | JStr(s: string)
    | JArr(items: seq<Json>)
    | JObj(fields: map<string, Json>)

  /** The Python exceptions that can leave the modelled code. `ValidationError` is the
      REST framework's error with its message. */
  datatype PyError =
    | KeyError
    | TypeError
    | IndexError
    | ValueError
    | AttributeError
    | NameError
    | UnicodeEncodeError
    | JSONDecodeError
    | ConnectionError
    | IntegrityError
    | MultipleObjectsReturned
    | ValidationError(message: string)

  /** `j[key]`: a dictionary lookup; KeyError for a missing key, TypeError when `j`
      is not a dictionary (a list, a string, a number or None). */
  function Index(j: Json, key: string): Result<Json, PyError> {
    if j.JObj? then
      if key in j.fields then Ok(j.fields[key]) else Err(KeyError)
    else Err(TypeError)
  }

  /** `j[k0][k1]...`: successive subscripts; the first failing one raises. */
  function Path(j: Json, keys: seq<string>): Result<Json, PyError> {
    if keys == [] then Ok(j)
    else
      var next :- Index(j, keys[0]);
      Path(next, keys[1..])
  }

  /** `j.get(key)`: None for a missing key; AttributeError when `j` is not a dictionary. */
  function DictGet(j: Json, key: string): Result<Json, PyError> {
    if j.JObj? then
      Ok(if key in j.fields then j.fields[key] else JNull)
    else Err(AttributeError)
  }

  /** Python truthiness (`if j:`). */
  predicate Truthy(j: Json) {
    match j
    case JNull => false
    case JBool(b) => b
    case JInt(i) => i != 0
    case JStr(s) => s != ""
    case JArr(items) => items != []
    case JObj(fields) => fields != map[]
  }

  /** Python's `j == 0`: true for the integer 0 and for `False`. */
  predicate EqualsZero(j: Json) {
    j == JInt(0) || j == JBool(false)
  }

  /** Python's `int(j)`: integers pass, booleans give 0 or 1, strings are parsed in
      base 10 (ValueError when they do not parse), anything else is a TypeError. */
  function ToInt(j: Json): Result<int, PyError> {
    match j
    case JInt(i) => Ok(i)
    case JBool(b) => Ok(if b then 1 else 0)
    case JStr(s) =>
      (match PyStr.ParseInt(s)
       case Some(n) => Ok(n)
       case None => Err(ValueError))
    case _ => Err(TypeError)
  }

  /** The text of a JSON string; the caller's operation fails with `err` otherwise
      (AttributeError for a method call such as `split`, TypeError for `strptime`). */
  function AsText(j: Json, err: PyError): Result<string, PyError> {
    if j.JStr? then Ok(j.s) else Err(err)
  }

  /** The elements a `for item in j:` loop visits, for loops whose body starts by
      subscripting `item` with a text key. A list yields its elements. Iterating a
      string or a dictionary yields strings, on which that first subscript raises
      TypeError, so a non-empty one fails and an empty one runs no iteration. Other
      values are not iterable (TypeError). */
  function LoopItems(j: Json): Result<seq<Json>, PyError> {
    match j
    case JArr(items) => Ok(items)
    case JStr(s) => if s == "" then Ok([]) else Err(TypeError)
    case JObj(fields) => if fields == map[] then Ok([]) else Err(TypeError)
    case _ => Err(TypeError)
  }
}

=== FILE: serializers.dfy ===
/** The `validate` hooks of the `daraja` input serializers (the `mpesa` app's
    `STKCheckoutSerializer` is the same code). Each one rewrites the validated
    `attrs` dictionary in place and returns it; the few field-level checks that
    decide whether `validate` runs at all (`min_value`, `choices`) come first. */
module Serializers {
  import opened Wrappers
  import opened PyValue
  import opened PyStr

  /** A validated attribute: an integer, a text, a parsed phone number (kept as the
      text `str()` gives for it) or None. */
  datatype Attr = AInt(i: int) | AStr(s: string) | APhone(text: string) | ANone

  /** `str(a)`. */
  function Str(a: Attr): string {
    match a
    case AInt(i) => IntToStr(i)
    case AStr(s) => s
    case APhone(text) => text
    case ANone => "None"
  }

  /** Python truthiness of an attribute (a phone number is falsy when empty). */
  predicate AttrTruthy(a: Attr) {
    match a
    case AInt(i) => i != 0
    case AStr(s) => s != ""
    case APhone(text) => text != ""
    case ANone => false
  }

  /** `attrs.get(key)`. */
  function Get(attrs: map<string, Attr>, key: string): Attr {
    if key in attrs then attrs[key] else ANone
  }

  /** `"{}-{}".format(phone_number, amount)`. */
  function DefaultText(phone: Attr, amount: Attr): string {
    Str(phone) + "-" + Str(amount)
  }

  /** `str(phone_number)[1:]`: the phone text without its leading `+`. */
  function Stripped(phone: Attr): Attr {
    AStr(DropFirst(Str(phone)))
  }

  /** After `if attrs[key] == "": attrs[key] = text`: an empty value is replaced by
      `text`, any other value (or absence) is kept. */
  predicate Defaulted(before: map<string, Attr>, after: map<string, Attr>, key: string, text: string) {
    if Get(before, key) == AStr("") then key in after && after[key] == AStr(text)
    else (key in before <==> key in after) && (key in before ==> after[key] == before[key])
  }

  /** The message `IntegerField(min_value=1)` rejects a smaller value with. */
  const MinAmountMessage: string := "Ensure this value is greater than or equal to 1."

  /** `IntegerField(min_value=1)` on `amount`: a smaller integer never reaches
      `validate`. */
  predicate AmountTooSmall(attrs: map<string, Attr>) {
    "amount" in attrs && attrs["amount"].AInt? && attrs["amount"].i < 1
  }

  /* ---------- STK and B2C checkout ---------- */

  /** `STKCheckoutSerializer`: the amount check, then `validate`. The phone is popped
      (KeyError when absent) and put back stripped; an empty `reference` or
      `description` becomes `"<phone>-<amount>"` built from the phone before
      stripping. */
  method ValidateStkCheckout(attrs: map<string, Attr>) returns (r: Result<map<string, Attr>, PyError>)
    ensures AmountTooSmall(attrs) ==> r == Err(ValidationError(MinAmountMessage))
    ensures !AmountTooSmall(attrs) && "phone_number" !in attrs ==> r == Err(KeyError)
    ensures !AmountTooSmall(attrs) && "phone_number" in attrs ==>
      var phone := attrs["phone_number"];
      var text := DefaultText(phone, Get(attrs, "amount"));
      && r.Ok?
      && r.value.Keys == attrs.Keys
      && r.value["phone_number"] == Stripped(phone)
      && Defaulted(attrs, r.value, "reference", text)
      && Defaulted(attrs, r.value, "description", text)
      && (forall k :: k in attrs && k != "phone_number" && k != "reference" && k != "description" ==>
            r.value[k] == attrs[k])
  {
    if AmountTooSmall(attrs) {
      return Err(ValidationError(MinAmountMessage));
    }
    if "phone_number" !in attrs {
      return Err(KeyError);
    }
    var phone := attrs["phone_number"];
    var out := attrs - {"phone_number"};
    out := out["phone_number" := Stripped(phone)];
    var reference := Get(out, "reference");
    var description := Get(out, "description");
    var amount := Get(out, "amount");
    if reference == AStr("") {
      out := out["reference" := AStr(DefaultText(phone, amount))];
    }
    if description == AStr("") {
      out := out["description" := AStr(DefaultText(phone, amount))];
    }
    return Ok(out);
  }

  /** `B2CCheckoutSerializer`: as for STK, with `remarks` and `occasion` defaulted. */
  method ValidateB2cCheckout(attrs: map<string, Attr>) returns (r: Result<map<string, Attr>, PyError>)
    ensures AmountTooSmall(attrs) ==> r == Err(ValidationError(MinAmountMessage))
    ensures !AmountTooSmall(attrs) && "phone_number" !in attrs ==> r == Err(KeyError)
    ensures !AmountTooSmall(attrs) && "phone_number" in attrs ==>
      var phone := attrs["phone_number"];
      var text := DefaultText(phone, Get(attrs, "amount"));
      && r.Ok?
      && r.value.Keys == attrs.Keys
      && r.value["phone_number"] == Stripped(phone)
      && Defaulted(attrs, r.value, "remarks", text)
      && Defaulted(attrs, r.value, "occasion", text)
      && (forall k :: k in attrs && k != "phone_number" && k != "remarks" && k != "occasion" ==>
            r.value[k] == attrs[k])
  {
    if AmountTooSmall(attrs) {
      return Err(ValidationError(MinAmountMessage));
    }
    if "phone_number" !in attrs {
      return Err(KeyError);
    }
    var phone := attrs["phone_number"];
    var out := attrs - {"phone_number"};
    out := out["phone_number" := Stripped(phone)];
    var remarks := Get(out, "remarks");
    var occasion := Get(out, "occasion");
    var amount := Get(out, "amount");
    if remarks == AStr("") {
      out := out["remarks" := AStr(DefaultText(phone, amount))];
    }
    if occasion == AStr("") {
      out := out["occasion" := AStr(DefaultText(phone, amount))];
    }
    return Ok(out);
  }

  /** `B2BCheckoutSerializer`: the amount check, then `validate`. The phone is popped
      without a default, so an absent phone raises KeyError even though the field is
      optional; it is put back stripped only when truthy. An empty `remarks` becomes
      `"<phone>-<amount>"`. */
  method ValidateB2bCheckout(attrs: map<string, Attr>) returns (r: Result<map<string, Attr>, PyError>)
    ensures AmountTooSmall(attrs) ==> r == Err(ValidationError(MinAmountMessage))
    ensures !AmountTooSmall(attrs) && "phone_number" !in attrs ==> r == Err(KeyError)
    ensures !AmountTooSmall(attrs) && "phone_number" in attrs ==>
      var phone := attrs["phone_number"];
      && r.Ok?
      && ("phone_number" in r.value <==> AttrTruthy(phone))
      && (AttrTruthy(phone) ==> r.value["phone_number"] == Stripped(phone))
      && Defaulted(attrs, r.value, "remarks", DefaultText(phone, Get(attrs, "amount")))
      && (forall k :: k in attrs && k != "phone_number" && k != "remarks" ==> k in r.value && r.value[k] == attrs[k])
      && (forall k :: k in r.value ==> k in attrs)
  {
    if AmountTooSmall(attrs) {
      return Err(ValidationError(MinAmountMessage));
    }
    if "phone_number" !in attrs {
      return Err(KeyError);
    }
    var phone := attrs["phone_number"];
    var out := attrs - {"phone_number"};
    if AttrTruthy(phone) {
      out := out["phone_number" := Stripped(phone)];
    }
    var remarks := Get(out, "remarks");
    var amount := Get(out, "amount");
    if remarks == AStr("") {
      out := out["remarks" := AStr(DefaultText(phone, amount))];
    }
    return Ok(out);
  }

  /** For a positive amount the default text reads back: the phone text, a `-`, and
      digits that parse to the amount and hold no `-`. */
  lemma DefaultTextReadsBack(phone: Attr, n: int)
    requires n >= 1
    ensures var t := DefaultText(phone, AInt(n));
      var k := |Str(phone)|;
      && |t| > k + 1 && t[..k] == Str(phone) && t[k] == '-'
      && '-' !in t[k + 1..] && ParseInt(t[k + 1..]) == Some(n)
  {
    var p := Str(phone);
    var d := NatToStr(n);
    assert Str(AInt(n)) == d;
    var t := p + "-" + d;
    assert t[..|p|] == p;
    assert t[|p| + 1..] == d;
    IntToStrParses(n);
  }

  /* ---------- DynamicQR ---------- */

  /** The accepted `transaction_type` choices. */
  const TrxChoices: seq<string> := ["BuyGoods", "PayBill", "SendMoney", "Withdraw", "SentToBusiness"]

  /** `trx_code_mapping`: its fifth key is `SendToBusiness`, not the choice
      `SentToBusiness`. */
  const TrxCodeMapping: map<string, string> :=
    map["BuyGoods" := "BG", "PayBill" := "PB", "SendMoney" := "SM", "Withdraw" := "WA", "SendToBusiness" := "SB"]

  /** `trx_code_mapping.get(transaction_type)`. */
  function TrxCode(a: Attr): (code: Attr)
    ensures code != ANone <==> a.AStr? && a.s in TrxCodeMapping
    ensures code != ANone ==> code == AStr(TrxCodeMapping[a.s])
  {
    if a.AStr? && a.s in TrxCodeMapping then AStr(TrxCodeMapping[a.s]) else ANone
  }

  /** A value `ChoiceField` accepts. */
  predicate IsChoice(a: Attr) {
    a.AStr? && a.s in TrxChoices
  }

  /** The types that pay a phone number rather than a till, pay bill or agent. */
  predicate PaysPhone(a: Attr) {
    a == AStr("SendMoney") || a == AStr("SentToBusiness")
  }

  const PhoneRequiredMessage: string := "phone_number must be provided for SendMoney and SendToBusiness"
  const PartyRequiredMessage: string := "Agent Till, Paybill or Merchant BuyGoods must be provided as a party_identifier"

  /** `ChoiceField`'s rejection of a value outside the choices. */
  function NotAChoice(a: Attr): PyError {
    ValidationError("\"" + Str(a) + "\" is not a valid choice.")
  }

  /** `DynamicQRInputSerializer`: the choice check, then `validate`. The type is
      replaced by its two-letter code (None for `SentToBusiness`), the phone popped;
      the phone-paying types need a truthy phone, which becomes `party_identifier`
      stripped, and every other type needs a truthy `party_identifier`. */
  method ValidateDynamicQr(attrs: map<string, Attr>) returns (r: Result<map<string, Attr>, PyError>)
    ensures "transaction_type" in attrs && !IsChoice(attrs["transaction_type"]) ==>
      r == Err(NotAChoice(attrs["transaction_type"]))
    ensures "transaction_type" !in attrs ==> r == Err(KeyError)
    ensures "transaction_type" in attrs && IsChoice(attrs["transaction_type"]) ==>
      var kind := attrs["transaction_type"];
      var phone := Get(attrs, "phone_number");
      && (PaysPhone(kind) ==> (r.Ok? <==> AttrTruthy(phone)))
      && (PaysPhone(kind) && !AttrTruthy(phone) ==> r == Err(ValidationError(PhoneRequiredMessage)))
      && (PaysPhone(kind) && r.Ok? ==> "party_identifier" in r.value && r.value["party_identifier"] == Stripped(phone))
      && (!PaysPhone(kind) ==> (r.Ok? <==> AttrTruthy(Get(attrs, "party_identifier"))))
      && (!PaysPhone(kind) && r.Err? ==> r.error == ValidationError(PartyRequiredMessage))
      && (!PaysPhone(kind) && r.Ok? ==> Get(r.value, "party_identifier") == Get(attrs, "party_identifier"))
      && (r.Ok? ==> "transaction_type" in r.value && r.value["transaction_type"] == TrxCode(kind))
      && (r.Ok? ==> "phone_number" !in r.value)
      && (r.Ok? ==> forall k :: k in attrs && k != "transaction_type" && k != "phone_number" && k != "party_identifier"
                      ==> k in r.value && r.value[k] == attrs[k])
      && (!PaysPhone(kind) && r.Ok? ==> ("party_identifier" in r.value <==> "party_identifier" in attrs))
    // no key is added beyond the code and the party identifier
    ensures r.Ok? ==> forall k :: k in r.value ==> k in attrs || k == "transaction_type" || k == "party_identifier"
  {
    if "transaction_type" !in attrs {
      return Err(KeyError);
    }
    var kind := attrs["transaction_type"];
    if !IsChoice(kind) {
      return Err(NotAChoice(kind));
    }
    var out := attrs - {"transaction_type"};
    out := out["transaction_type" := TrxCode(kind)];
    var phone := Get(out, "phone_number");
    out := out - {"phone_number"};
    var party := Get(out, "party_identifier");
    if PaysPhone(kind) {
      if !AttrTruthy(phone) {
        return Err(ValidationError(PhoneRequiredMessage));
      }
      out := out["party_identifier" := Stripped(phone)];
    } else {
      if !AttrTruthy(party) {
        return Err(ValidationError(PartyRequiredMessage));
      }
    }
    return Ok(out);
  }

  /** Every accepted type has a code except `SentToBusiness`, which the table spells
      `SendToBusiness`. */
  lemma SentToBusinessHasNoCode(kind: Attr)
    requires IsChoice(kind)
    ensures TrxCode(kind) == ANone <==> kind == AStr("SentToBusiness")
  {
    assert "SentToBusiness" != "SendToBusiness" by {
      assert "SentToBusiness"[3] != "SendToBusiness"[3];
    }
  }

  /* ---------- B2C top-up ---------- */

  /** `B2CTopupInputSerializer.validate`: pops `phone_number`, a key the serializer
      does not declare (its phone field is `requester_phone_number`), and puts it back
      stripped when truthy. Every other key, the requester's phone included, passes
      through unchanged. */
  method ValidateTopupInput(attrs: map<string, Attr>) returns (r: map<string, Attr>)
    ensures "phone_number" in r <==> AttrTruthy(Get(attrs, "phone_number"))
    ensures "phone_number" in r ==> r["phone_number"] == Stripped(attrs["phone_number"])
    ensures forall k :: k in attrs && k != "phone_number" ==> k in r && r[k] == attrs[k]
    ensures forall k :: k in r ==> k in attrs
  {
    var phone := Get(attrs, "phone_number");
    r := attrs - {"phone_number"};
    if AttrTruthy(phone) {
      r := r["phone_number" := Stripped(phone)];
    }
  }
}

=== FILE: store.dfy ===
/** A table of transaction records keyed by a correlation id, with the three ORM calls
    the gateways make: `objects.create(...)`, `objects.get_or_create(key=...)` and
    `instance.save()`. Rows are kept in insertion order; the key is the correlation id
    column (`checkout_request_id` or `conversation_id`). */
module Store {
  import opened Wrappers
  import opened PyValue

  datatype Row<R> = Row(key: Json, rec: R)

  /** How many rows carry `key` (a filter on the key column). */
  function Count<R>(rows: seq<Row<R>>, key: Json): nat {
    if rows == [] then 0
    else Count(rows[..|rows| - 1], key) + (if rows[|rows| - 1].key == key then 1 else 0)
  }

  /** The first row that carries `key`. */
  function Find<R>(rows: seq<Row<R>>, key: Json): (i: nat)
    requires Count(rows, key) >= 1
    ensures i < |rows| && rows[i].key == key && Count(rows[..i], key) == 0
  {
    var prefix := rows[..|rows| - 1];
    if Count(prefix, key) >= 1 then
      var i := Find(prefix, key);
      assert rows[..i] == prefix[..i];
      i
    else
      assert rows[..|rows| - 1] == prefix;
      |rows| - 1
  }

  /** A SQL unique constraint on the key column: two rows never share a key, except
      that NULL (None) keys never clash. */
  predicate Distinct<R>(rows: seq<Row<R>>) {
    forall i, j :: 0 <= i < j < |rows| && rows[i].key != JNull ==> rows[i].key != rows[j].key
  }

  lemma {:induction false} CountZero<R>(rows: seq<Row<R>>, key: Json)
    ensures Count(rows, key) == 0 <==> forall i :: 0 <= i < |rows| ==> rows[i].key != key
  {
    if rows != [] {
      var prefix := rows[..|rows| - 1];
      CountZero(prefix, key);
      assert forall i :: 0 <= i < |prefix| ==> prefix[i] == rows[i];
    }
  }

  lemma CountAppend<R>(rows: seq<Row<R>>, r: Row<R>, key: Json)
    ensures Count(rows + [r], key) == Count(rows, key) + (if r.key == key then 1 else 0)
  {
    assert (rows + [r])[..|rows|] == rows;
  }

  /** Counting depends only on the key column. */
  lemma {:induction false} CountSameKeys<R>(a: seq<Row<R>>, b: seq<Row<R>>, key: Json)
    requires |a| == |b| && forall i :: 0 <= i < |a| ==> a[i].key == b[i].key
    ensures Count(a, key) == Count(b, key)
  {
    if a != [] {
      CountSameKeys(a[..|a| - 1], b[..|b| - 1], key);
    }
  }

  /** Under the unique constraint a non-NULL key is held by at most one row. */
  lemma {:induction false} DistinctCount<R>(rows: seq<Row<R>>, key: Json)
    requires Distinct(rows) && key != JNull
    ensures Count(rows, key) <= 1
  {
    if rows != [] {
      var prefix := rows[..|rows| - 1];
      assert Distinct(prefix);
      DistinctCount(prefix, key);
      if rows[|rows| - 1].key == key {
        CountZero(prefix, key);
      }
    }
  }

  /** When exactly one row carries `key`, it is the row `Find` names. */
  lemma {:induction false} FindOnly<R>(rows: seq<Row<R>>, key: Json, j: nat)
    requires Count(rows, key) == 1 && j < |rows| && rows[j].key == key
    ensures Find(rows, key) == j
  {
    var prefix := rows[..|rows| - 1];
    if j < |rows| - 1 {
      assert prefix[j] == rows[j];
      CountZero(prefix, key);
      FindOnly(prefix, key, j);
    } else {
      CountZero(prefix, key);
    }
  }

  /** `Model.objects.create(...)`: appends a row; on a table with a unique key column
      an existing non-NULL key raises IntegrityError and nothing is written. The
      result is the new row's position. */
  function Insert<R>(rows: seq<Row<R>>, unique: bool, key: Json, rec: R): (res: (Result<nat, PyError>, seq<Row<R>>))
    ensures res.0.Ok? <==> !(unique && key != JNull && Count(rows, key) > 0)
    ensures res.0.Ok? ==> res.0.value == |rows| && res.1 == rows + [Row(key, rec)]
    ensures res.0.Err? ==> res.0.error == IntegrityError && res.1 == rows
  {
    if unique && key != JNull && Count(rows, key) > 0 then (Err(IntegrityError), rows)
    else (Ok(|rows|), rows + [Row(key, rec)])
  }

  /** `Model.objects.get_or_create(key=...)`: the one row carrying the key, or a new
      row holding the model defaults when there is none; MultipleObjectsReturned when
      several rows carry it. */
  function FindOrCreate<R>(rows: seq<Row<R>>, key: Json, blank: R): (res: (Result<nat, PyError>, seq<Row<R>>))
    ensures res.0.Ok? <==> Count(rows, key) <= 1
    ensures res.0.Ok? ==> var i := res.0.value;
      && i < |res.1| && res.1[i].key == key && Count(res.1, key) == 1
      && (Count(rows, key) == 1 ==> res.1 == rows)
      && (Count(rows, key) == 0 ==> i == |rows| && res.1 == rows + [Row(key, blank)])
    ensures res.0.Err? ==> res.0.error == MultipleObjectsReturned && res.1 == rows
    ensures res.0.Ok? ==> res.0.value == Slot(rows, key)
  {
    var c := Count(rows, key);
    if c == 0 then
      CountAppend(rows, Row(key, blank), key);
      (Ok(|rows|), rows + [Row(key, blank)])
    else if c == 1 then (Ok(Find(rows, key)), rows)
    else (Err(MultipleObjectsReturned), rows)
  }

  /** The position of the row `get_or_create(key=...)` hands back: the one carrying
      the key, or the end of the table where the new row goes. */
  function Slot<R>(rows: seq<Row<R>>, key: Json): (i: nat)
    requires Count(rows, key) <= 1
    ensures Count(rows, key) == 1 ==> i < |rows| && rows[i].key == key
    ensures Count(rows, key) == 0 ==> i == |rows|
  {
    if Count(rows, key) == 1 then Find(rows, key) else |rows|
  }

  /** The record `get_or_create(key=...)` hands back: the stored one when a row
      carries the key, the defaults otherwise. */
  function Fetched<R>(rows: seq<Row<R>>, key: Json, blank: R): (rec: R)
    requires Count(rows, key) <= 1
    ensures var (r, rows1) := FindOrCreate(rows, key, blank); rows1[r.value].rec == rec
    ensures Count(rows, key) == 0 ==> rec == blank
  {
    if Count(rows, key) == 1 then rows[Find(rows, key)].rec else blank
  }

  /** `instance.save()` for the row at `i`: replaces its record, keeps its key. */
  function Save<R>(rows: seq<Row<R>>, i: nat, rec: R): (r: seq<Row<R>>)
    requires i < |rows|
    ensures |r| == |rows| && r[i].rec == rec
    ensures forall j :: 0 <= j < |rows| ==> r[j].key == rows[j].key
    ensures forall j :: 0 <= j < |rows| && j != i ==> r[j] == rows[j]
  {
    rows[i := Row(rows[i].key, rec)]
  }

  /* ---------- a second unique column ---------- */

  /** A row other than `i` already holds `v` in the unique, nullable column that
      `column` reads; NULL (None) never clashes. */
  predicate Taken<R>(rows: seq<Row<R>>, i: nat, v: Json, column: R -> Json) {
    v != JNull && exists j :: 0 <= j < |rows| && j != i && column(rows[j].rec) == v
  }

  /** The unique constraint on that column holds. */
  predicate UniqueColumn<R>(rows: seq<Row<R>>, column: R -> Json) {
    forall i, j :: 0 <= i < j < |rows| && column(rows[i].rec) != JNull ==> column(rows[i].rec) != column(rows[j].rec)
  }

  /** `instance.save()` on a table whose records carry a unique column besides the
      key: IntegrityError, and nothing written, when another row holds the value the
      record puts there. */
  function SaveUnique<R>(rows: seq<Row<R>>, i: nat, rec: R, column: R -> Json): (r: Result<seq<Row<R>>, PyError>)
    requires i < |rows|
    ensures r.Err? <==> Taken(rows, i, column(rec), column)
    ensures r.Err? ==> r.error == IntegrityError
    ensures r.Ok? ==> r.value == Save(rows, i, rec)
    ensures r.Ok? && UniqueColumn(rows, column) ==> UniqueColumn(r.value, column)
  {
    if Taken(rows, i, column(rec), column) then Err(IntegrityError)
    else
      var rows1 := Save(rows, i, rec);
      assert forall j :: 0 <= j < |rows| && j != i ==> column(rows1[j].rec) != column(rec) || column(rec) == JNull;
      Ok(rows1)
  }

  /** The save that ends a callback handler, as the handler's result: the row's
      position, or the IntegrityError with the table left as it was. */
  function Commit<R>(rows: seq<Row<R>>, i: nat, rec: R, column: R -> Json): (res: (Result<nat, PyError>, seq<Row<R>>))
    requires i < |rows|
    ensures res.0.Ok? <==> !Taken(rows, i, column(rec), column)
    ensures res.0.Ok? ==> res.0.value == i && res.1 == Save(rows, i, rec)
    ensures res.0.Err? ==> res == (Err(IntegrityError), rows)
  {
    match SaveUnique(rows, i, rec, column)
    case Err(e) => (Err(e), rows)
    case Ok(rows1) => (Ok(i), rows1)
  }

  /** Which rows clash is decided by the rows other than `i`: rewriting row `i`
      changes nothing. */
  lemma TakenAfterSave<R>(rows: seq<Row<R>>, i: nat, rec: R, v: Json, column: R -> Json)
    requires i < |rows|
    ensures Taken(Save(rows, i, rec), i, v, column) == Taken(rows, i, v, column)
  {
    var rows1 := Save(rows, i, rec);
    if Taken(rows1, i, v, column) {
      var j :| 0 <= j < |rows1| && j != i && column(rows1[j].rec) == v;
      assert rows[j] == rows1[j];
    }
    if Taken(rows, i, v, column) {
      var j :| 0 <= j < |rows| && j != i && column(rows[j].rec) == v;
      assert rows[j] == rows1[j];
    }
  }

  /** Saving the record a save just wrote succeeds again and writes nothing. */
  lemma CommitAgain<R>(rows: seq<Row<R>>, i: nat, rec: R, column: R -> Json)
    requires i < |rows| && Commit(rows, i, rec, column).0.Ok?
    ensures var rows1 := Commit(rows, i, rec, column).1;
      i < |rows1| && rows1[i].rec == rec && Commit(rows1, i, rec, column) == (Ok(i), rows1)
  {
    var rows1 := Save(rows, i, rec);
    TakenAfterSave(rows, i, rec, column(rec), column);
    assert Save(rows1, i, rec) == rows1;
  }

  /** A second lookup of the same key finds the row the first one returned, and
      writes nothing. */
  lemma FindOrCreateTwice<R>(rows: seq<Row<R>>, key: Json, blank: R)
    requires FindOrCreate(rows, key, blank).0.Ok?
    ensures var (r, rows1) := FindOrCreate(rows, key, blank);
      FindOrCreate(rows1, key, blank) == (r, rows1)
  {
    var (r, rows1) := FindOrCreate(rows, key, blank);
    FindOnly(rows1, key, r.value);
  }

  /** Saving a row keeps the answer of every later lookup. */
  lemma FindOrCreateAfterSave<R>(rows: seq<Row<R>>, i: nat, rec: R, key: Json, blank: R)
    requires i < |rows|
    ensures FindOrCreate(Save(rows, i, rec), key, blank).0 == FindOrCreate(rows, key, blank).0
  {
    var rows1 := Save(rows, i, rec);
    CountSameKeys(rows, rows1, key);
    if Count(rows, key) == 1 {
      FindOnly(rows1, key, Find(rows, key));
    }
  }

  /** `create` and `get_or_create` keep the unique constraint. */
  lemma InsertKeepsDistinct<R>(rows: seq<Row<R>>, key: Json, rec: R)
    requires Distinct(rows)
    ensures Distinct(Insert(rows, true, key, rec).1)
  {
    if !(key != JNull && Count(rows, key) > 0) {
      CountZero(rows, key);
    }
  }

  lemma FindOrCreateKeepsDistinct<R>(rows: seq<Row<R>>, key: Json, blank: R)
    requires Distinct(rows)
    ensures Distinct(FindOrCreate(rows, key, blank).1)
  {
    CountZero(rows, key);
  }

  /** The table the ORM manages. `unique` says whether the key column carries a
      unique constraint. */
  class Table<R> {
    const unique: bool
    var rows: seq<Row<R>>

    ghost predicate Valid()
      reads this
    {
      unique ==> Distinct(rows)
    }

    constructor (unique: bool)
      ensures this.unique == unique && rows == [] && Valid()
    {
      this.unique := unique;
      rows := [];
    }

    method Create(key: Json, rec: R) returns (r: Result<nat, PyError>)
      requires Valid()
      modifies this
      ensures Valid()
      ensures (r, rows) == Insert(old(rows), unique, key, rec)
    {
      r, rows := Insert(rows, unique, key, rec).0, Insert(rows, unique, key, rec).1;
      if unique {
        InsertKeepsDistinct(old(rows), key, rec);
      }
    }

    method GetOrCreate(key: Json, blank: R) returns (r: Result<nat, PyError>)
      requires Valid()
      modifies this
      ensures Valid()
      ensures (r, rows) == FindOrCreate(old(rows), key, blank)
    {
      r, rows := FindOrCreate(rows, key, blank).0, FindOrCreate(rows, key, blank).1;
      if unique {
        FindOrCreateKeepsDistinct(old(rows), key, blank);
      }
    }

    method PutUnique(i: nat, rec: R, column: R -> Json) returns (r: Result<nat, PyError>)
      requires Valid() && i < |rows|
      modifies this
      ensures Valid()
      ensures SaveUnique(old(rows), i, rec, column).Ok? ==>
        r == Ok(i) && rows == SaveUnique(old(rows), i, rec, column).value
      ensures SaveUnique(old(rows), i, rec, column).Err? ==>
        r == Err(IntegrityError) && rows == old(rows)
    {
      var saved := SaveUnique(rows, i, rec, column);
      if saved.Err? {
        return Err(IntegrityError);
      }
      rows := saved.value;
      r := Ok(i);
    }

    method Put(i: nat, rec: R)
      requires Valid() && i < |rows|
      modifies this
      ensures Valid()
      ensures rows == Save(old(rows), i, rec)
    {
      rows := Save(rows, i, rec);
    }
  }
}

=== FILE: strptime.dfy ===
/** `datetime.strptime` for the two formats the gateways parse, done the way
    CPython's `_strptime` does it: the format is compiled to a regular expression,
    the expression is matched at the start of the text (alternatives tried in order,
    `\s+` greedy, the first path that gets to the end of the expression wins), text
    left over after the match raises ValueError, each captured field goes through
    `int()`, and the `datetime` constructor raises ValueError for an impossible date
    or time. Only ASCII digits are digits here. */
module Strptime {
  import opened Wrappers
  import opened PyValue
  import opened PyStr
  import opened DateTime

  /* ---------- the compiled formats ---------- */

  /** A character class `[lo-hi]`. */
  datatype Class = Class(lo: char, hi: char)

  /** One alternative of a directive's group: a row of classes, one per character. */
  type Alt = seq<Class>

  /** A piece of a compiled format: a directive's capturing group, a literal
      character, or `\s+` (what a space in the format becomes). */
  datatype Piece = Group(alts: seq<Alt>) | Lit(c: char) | Spaces

  /** `\d`. */
  const Digit: Class := Class('0', '9')

  function One(c: char): Class {
    Class(c, c)
  }

  /** `%Y`: `\d\d\d\d`. */
  const Year: Piece := Group([[Digit, Digit, Digit, Digit]])
  /** `%m`: `1[0-2]|0[1-9]|[1-9]`. */
  const Month: Piece := Group([[One('1'), Class('0', '2')], [One('0'), Class('1', '9')], [Class('1', '9')]])
  /** `%d`: `3[0-1]|[1-2]\d|0[1-9]|[1-9]| [1-9]`. */
  const Day: Piece := Group([[One('3'), Class('0', '1')], [Class('1', '2'), Digit], [One('0'), Class('1', '9')],
                             [Class('1', '9')], [One(' '), Class('1', '9')]])
  /** `%H`: `2[0-3]|[0-1]\d|\d`. */
  const Hour: Piece := Group([[One('2'), Class('0', '3')], [Class('0', '1'), Digit], [Digit]])
  /** `%M`: `[0-5]\d|\d`. */
  const Minute: Piece := Group([[Class('0', '5'), Digit], [Digit]])
  /** `%S`: `6[0-1]|[0-5]\d|\d`. */
  const Second: Piece := Group([[One('6'), Class('0', '1')], [Class('0', '5'), Digit], [Digit]])

  /** `%Y%m%d%H%M%S`. */
  const CompactPattern: seq<Piece> := [Year, Month, Day, Hour, Minute, Second]
  /** `%d.%m.%Y %H:%M:%S`. */
  const DottedPattern: seq<Piece> :=
    [Day, Lit('.'), Month, Lit('.'), Year, Spaces, Hour, Lit(':'), Minute, Lit(':'), Second]

  function GroupCount(pat: seq<Piece>): nat {
    if pat == [] then 0 else (if pat[0].Group? then 1 else 0) + GroupCount(pat[1..])
  }

  /* ---------- the regular expression engine ---------- */

  /** `alt` matches the text at `pos`. */
  predicate Fits(alt: Alt, s: string, pos: nat) {
    pos + |alt| <= |s| && (alt == [] || (alt[0].lo <= s[pos] <= alt[0].hi && Fits(alt[1..], s, pos + 1)))
  }

  /** The end of the run of whitespace that starts at `pos`. */
  function RunEnd(s: string, pos: nat): (e: nat)
    requires pos <= |s|
    ensures pos <= e <= |s|
    ensures forall k :: pos <= k < e ==> IsSpace(s[k])
    ensures e < |s| ==> !IsSpace(s[e])
    decreases |s| - pos
  {
    if pos < |s| && IsSpace(s[pos]) then RunEnd(s, pos + 1) else pos
  }

  /** The first way, in the engine's order, that `pat` matches `s` from `pos`: the
      text each group captured, and where the match ends. */
  function Match(pat: seq<Piece>, s: string, pos: nat): (r: Option<(seq<string>, nat)>)
    requires pos <= |s|
    ensures r.Some? ==> pos <= r.value.1 <= |s| && |r.value.0| == GroupCount(pat)
    decreases |pat|, 1, 0
  {
    if pat == [] then Some(([], pos))
    else match pat[0]
      case Lit(c) => if pos < |s| && s[pos] == c then Match(pat[1..], s, pos + 1) else None
      case Spaces => if pos < |s| && IsSpace(s[pos]) then TrySpaces(pat[1..], s, pos, RunEnd(s, pos)) else None
      case Group(alts) => TryAlts(alts, pat[1..], s, pos)
  }

  /** `\s+` from `start`: the run up to `e` first, then ever shorter ones, down to one
      character. */
  function TrySpaces(rest: seq<Piece>, s: string, start: nat, e: nat): (r: Option<(seq<string>, nat)>)
    requires start < e <= |s|
    ensures r.Some? ==> start < r.value.1 <= |s| && |r.value.0| == GroupCount(rest)
    decreases |rest| + 1, 0, e
  {
    match Match(rest, s, e)
    case Some(m) => Some(m)
    case None => if e - 1 > start then TrySpaces(rest, s, start, e - 1) else None
  }

  /** A group at `pos`: its alternatives in order, each followed by the rest of the
      expression; the first that gets to the end wins. */
  function TryAlts(alts: seq<Alt>, rest: seq<Piece>, s: string, pos: nat): (r: Option<(seq<string>, nat)>)
    requires pos <= |s|
    ensures r.Some? ==> pos <= r.value.1 <= |s| && |r.value.0| == GroupCount(rest) + 1
    decreases |rest| + 1, 0, |alts|
  {
    if alts == [] then None
    else if Fits(alts[0], s, pos) then
      match Match(rest, s, pos + |alts[0]|)
      case Some(m) => Some(([s[pos..pos + |alts[0]|]] + m.0, m.1))
      case None => TryAlts(alts[1..], rest, s, pos)
    else TryAlts(alts[1..], rest, s, pos)
  }

  /* ---------- strptime ---------- */

  /** `int()` of every captured field, in order. */
  function Ints(caps: seq<string>): (r: Result<seq<int>, PyError>)
    ensures r.Ok? ==> |r.value| == |caps|
    ensures r.Ok? ==> forall k :: 0 <= k < |caps| ==> ParseInt(caps[k]) == Some(r.value[k])
  {
    if caps == [] then Ok([])
    else match ParseInt(caps[0])
      case None => Err(ValueError)
      case Some(v) =>
        var vs :- Ints(caps[1..]);
        Ok([v] + vs)
  }

  /** The fields `_strptime` reads off `s`: ValueError when the expression does not
      match at the start, or when text is left over after the match. */
  function Fields(pat: seq<Piece>, s: string): (r: Result<seq<int>, PyError>)
    ensures r.Ok? ==> |r.value| == GroupCount(pat)
  {
    match Match(pat, s, 0)
    case None => Err(ValueError)
    case Some((caps, end)) => if end != |s| then Err(ValueError) else Ints(caps)
  }

  /** Both formats have six directives. */
  lemma SixGroups()
    ensures GroupCount(CompactPattern) == 6 && GroupCount(DottedPattern) == 6
  {
    var c := CompactPattern;
    assert GroupCount(c[6..]) == 0;
    assert GroupCount(c[5..]) == 1;
    assert GroupCount(c[4..]) == 2;
    assert GroupCount(c[3..]) == 3;
    assert GroupCount(c[2..]) == 4;
    assert GroupCount(c[1..]) == 5;
    var d := DottedPattern;
    assert GroupCount(d[11..]) == 0;
    assert GroupCount(d[10..]) == 1;
    assert GroupCount(d[9..]) == 1;
    assert GroupCount(d[8..]) == 2;
    assert GroupCount(d[7..]) == 2;
    assert GroupCount(d[6..]) == 3;
    assert GroupCount(d[5..]) == 3;
    assert GroupCount(d[4..]) == 4;
    assert GroupCount(d[3..]) == 4;
    assert GroupCount(d[2..]) == 5;
    assert GroupCount(d[1..]) == 5;
  }

  /** `datetime.strptime(s, "%Y%m%d%H%M%S")`. */
  function ParseCompact(s: string): (r: Result<DateTime, PyError>)
    ensures r.Ok? ==> Valid(r.value)
  {
    SixGroups();
    var f :- Fields(CompactPattern, s);
    var d := DateTime(f[0], f[1], f[2], f[3], f[4], f[5]);
    if Valid(d) then Ok(d) else Err(ValueError)
  }

  /** `datetime.strptime(s, "%d.%m.%Y %H:%M:%S")`. */
  function ParseDotted(s: string): (r: Result<DateTime, PyError>)
    ensures r.Ok? ==> Valid(r.value)
  {
    SixGroups();
    var f :- Fields(DottedPattern, s);
    var d := DateTime(f[2], f[1], f[0], f[3], f[4], f[5]);
    if Valid(d) then Ok(d) else Err(ValueError)
  }

  /* ---------- how a match settles ---------- */

  /** `Fits` spelled out: every class holds the character under it. */
  lemma {:induction false} FitsSpelled(alt: Alt, s: string, pos: nat)
    ensures Fits(alt, s, pos) <==>
      pos + |alt| <= |s| && forall k :: 0 <= k < |alt| ==> alt[k].lo <= s[pos + k] <= alt[k].hi
    decreases |alt|
  {
    if alt != [] {
      FitsSpelled(alt[1..], s, pos + 1);
      if pos + |alt| <= |s| && alt[0].lo <= s[pos] <= alt[0].hi && Fits(alt[1..], s, pos + 1) {
        forall k | 0 <= k < |alt|
          ensures alt[k].lo <= s[pos + k] <= alt[k].hi
        {
          if k > 0 {
            assert alt[1..][k - 1] == alt[k];
          }
        }
      }
      if pos + |alt| <= |s| && forall k :: 0 <= k < |alt| ==> alt[k].lo <= s[pos + k] <= alt[k].hi {
        assert alt[0].lo <= s[pos + 0] <= alt[0].hi;
        forall k | 0 <= k < |alt| - 1
          ensures alt[1..][k].lo <= s[pos + 1 + k] <= alt[1..][k].hi
        {
          assert alt[1..][k] == alt[k + 1];
          assert pos + 1 + k == pos + (k + 1);
        }
      }
    }
  }

  /** A two-class alternative fits exactly when both characters are in range. */
  lemma Fits2(a: Class, b: Class, s: string, pos: nat)
    requires pos + 2 <= |s|
    ensures Fits([a, b], s, pos) <==> a.lo <= s[pos] <= a.hi && b.lo <= s[pos + 1] <= b.hi
  {
    FitsSpelled([a, b], s, pos);
    assert s[pos + 0] == s[pos];
  }

  /** A group takes the first alternative that fits and lets the rest of the
      expression match. */
  lemma Pick(g: Piece, rest: seq<Piece>, k: nat, s: string, pos: nat, caps: seq<string>, end: nat)
    requires pos <= |s| && g.Group? && k < |g.alts|
    requires forall j :: 0 <= j < k ==> !Fits(g.alts[j], s, pos) || Match(rest, s, pos + |g.alts[j]|).None?
    requires Fits(g.alts[k], s, pos) && Match(rest, s, pos + |g.alts[k]|) == Some((caps, end))
    ensures Match([g] + rest, s, pos) == Some(([s[pos..pos + |g.alts[k]|]] + caps, end))
  {
    assert ([g] + rest)[1..] == rest;
    AltsPick(g.alts, k, rest, s, pos, caps, end);
  }

  lemma {:induction false} AltsPick(alts: seq<Alt>, k: nat, rest: seq<Piece>, s: string, pos: nat, caps: seq<string>, end: nat)
    requires pos <= |s| && k < |alts|
    requires forall j :: 0 <= j < k ==> !Fits(alts[j], s, pos) || Match(rest, s, pos + |alts[j]|).None?
    requires Fits(alts[k], s, pos) && Match(rest, s, pos + |alts[k]|) == Some((caps, end))
    ensures TryAlts(alts, rest, s, pos) == Some(([s[pos..pos + |alts[k]|]] + caps, end))
    decreases k
  {
    if k > 0 {
      assert !Fits(alts[0], s, pos) || Match(rest, s, pos + |alts[0]|).None?;
      AltsPick(alts[1..], k - 1, rest, s, pos, caps, end);
    }
  }

  /** A literal character that is there is consumed. */
  lemma LitStep(c: char, rest: seq<Piece>, s: string, pos: nat, caps: seq<string>, end: nat)
    requires pos < |s| && s[pos] == c
    requires Match(rest, s, pos + 1) == Some((caps, end))
    ensures Match([Lit(c)] + rest, s, pos) == Some((caps, end))
  {
    assert ([Lit(c)] + rest)[1..] == rest;
  }

  /** `\s+` over a single space followed by something else takes that space. */
  lemma OneSpaceStep(rest: seq<Piece>, s: string, pos: nat, caps: seq<string>, end: nat)
    requires pos + 1 < |s| && s[pos] == ' ' && !IsSpace(s[pos + 1])
    requires Match(rest, s, pos + 1) == Some((caps, end))
    ensures Match([Spaces] + rest, s, pos) == Some((caps, end))
  {
    assert ([Spaces] + rest)[1..] == rest;
    assert RunEnd(s, pos + 1) == pos + 1;
    assert RunEnd(s, pos) == pos + 1;
  }

  /* ---------- zero-padded fields ---------- */

  /** The two characters at `pos` are `Pad2(n)`. */
  predicate PaddedAt(s: string, pos: nat, n: int)
    requires 0 <= n < 100
  {
    pos + 2 <= |s| && s[pos..pos + 2] == Pad2(n)
  }

  lemma PaddedYear(rest: seq<Piece>, s: string, pos: nat, n: int, caps: seq<string>, end: nat)
    requires 0 <= n < 10000 && pos + 4 <= |s| && s[pos..pos + 4] == Pad4(n)
    requires Match(rest, s, pos + 4) == Some((caps, end))
    ensures Match([Year] + rest, s, pos) == Some(([Pad4(n)] + caps, end))
  {
    Pad4Value(n);
    var alt := Year.alts[0];
    FitsSpelled(alt, s, pos);
    forall k | 0 <= k < 4
      ensures alt[k].lo <= s[pos + k] <= alt[k].hi
    {
      assert s[pos + k] == Pad4(n)[k];
    }
    Pick(Year, rest, 0, s, pos, caps, end);
  }

  lemma PaddedMonth(rest: seq<Piece>, s: string, pos: nat, n: int, caps: seq<string>, end: nat)
    requires 1 <= n <= 12 && PaddedAt(s, pos, n)
    requires Match(rest, s, pos + 2) == Some((caps, end))
    ensures Match([Month] + rest, s, pos) == Some(([Pad2(n)] + caps, end))
  {
    var alts := Month.alts;
    assert s[pos] == DigitChar(n / 10) && s[pos + 1] == DigitChar(n % 10);
    Fits2(alts[0][0], alts[0][1], s, pos);
    Fits2(alts[1][0], alts[1][1], s, pos);
    if n >= 10 {
      Pick(Month, rest, 0, s, pos, caps, end);
    } else {
      Pick(Month, rest, 1, s, pos, caps, end);
    }
  }

  lemma PaddedDay(rest: seq<Piece>, s: string, pos: nat, n: int, caps: seq<string>, end: nat)
    requires 1 <= n <= 31 && PaddedAt(s, pos, n)
    requires Match(rest, s, pos + 2) == Some((caps, end))
    ensures Match([Day] + rest, s, pos) == Some(([Pad2(n)] + caps, end))
  {
    var alts := Day.alts;
    assert s[pos] == DigitChar(n / 10) && s[pos + 1] == DigitChar(n % 10);
    Fits2(alts[0][0], alts[0][1], s, pos);
    Fits2(alts[1][0], alts[1][1], s, pos);
    Fits2(alts[2][0], alts[2][1], s, pos);
    if n >= 30 {
      Pick(Day, rest, 0, s, pos, caps, end);
    } else if n >= 10 {
      Pick(Day, rest, 1, s, pos, caps, end);
    } else {
      Pick(Day, rest, 2, s, pos, caps, end);
    }
  }

  lemma PaddedHour(rest: seq<Piece>, s: string, pos: nat, n: int, caps: seq<string>, end: nat)
    requires 0 <= n < 24 && PaddedAt(s, pos, n)
    requires Match(rest, s, pos + 2) == Some((caps, end))
    ensures Match([Hour] + rest, s, pos) == Some(([Pad2(n)] + caps, end))
  {
    var alts := Hour.alts;
    assert s[pos] == DigitChar(n / 10) && s[pos + 1] == DigitChar(n % 10);
    Fits2(alts[0][0], alts[0][1], s, pos);
    Fits2(alts[1][0], alts[1][1], s, pos);
    if n >= 20 {
      Pick(Hour, rest, 0, s, pos, caps, end);
    } else {
      Pick(Hour, rest, 1, s, pos, caps, end);
    }
  }

  lemma PaddedMinute(rest: seq<Piece>, s: string, pos: nat, n: int, caps: seq<string>, end: nat)
    requires 0 <= n < 60 && PaddedAt(s, pos, n)
    requires Match(rest, s, pos + 2) == Some((caps, end))
    ensures Match([Minute] + rest, s, pos) == Some(([Pad2(n)] + caps, end))
  {
    var alts := Minute.alts;
    assert s[pos] == DigitChar(n / 10) && s[pos + 1] == DigitChar(n % 10);
    Fits2(alts[0][0], alts[0][1], s, pos);
    Pick(Minute, rest, 0, s, pos, caps, end);
  }

  lemma PaddedSecond(rest: seq<Piece>, s: string, pos: nat, n: int, caps: seq<string>, end: nat)
    requires 0 <= n < 60 && PaddedAt(s, pos, n)
    requires Match(rest, s, pos + 2) == Some((caps, end))
    ensures Match([Second] + rest, s, pos) == Some(([Pad2(n)] + caps, end))
  {
    var alts := Second.alts;
    assert s[pos] == DigitChar(n / 10) && s[pos + 1] == DigitChar(n % 10);
    Fits2(alts[0][0], alts[0][1], s, pos);
    Fits2(alts[1][0], alts[1][1], s, pos);
    Pick(Second, rest, 1, s, pos, caps, end);
  }

  /** `int()` of every field succeeds, in order, when it succeeds on each one: the
      converse of what `Ints` ensures. */
  lemma {:induction false} IntsEach(caps: seq<string>, vs: seq<int>)
    requires |caps| == |vs|
    requires forall k :: 0 <= k < |caps| ==> ParseInt(caps[k]) == Some(vs[k])
    ensures Ints(caps) == Ok(vs)
    decreases |caps|
  {
    if caps != [] {
      IntsEach(caps[1..], vs[1..]);
      assert vs == [vs[0]] + vs[1..];
    }
  }

  /** `int()` of one more field in front. */
  lemma IntsCons(c: string, rest: seq<string>, v: int, vs: seq<int>)
    requires ParseInt(c) == Some(v) && Ints(rest) == Ok(vs)
    ensures Ints([c] + rest) == Ok([v] + vs)
  {
    assert ([c] + rest)[1..] == rest;
  }

  /** Six elements put in front one at a time make the six-element sequence. */
  lemma Spread<T>(a: T, b: T, c: T, d: T, e: T, f: T)
    ensures [a] + ([b] + ([c] + [d, e, f])) == [a, b, c, d, e, f]
  {
  }

  /** `int()` of six fields, each of which converts. */
  lemma IntsSix(a: string, b: string, c: string, d: string, e: string, f: string,
                u: int, v: int, w: int, x: int, y: int, z: int)
    requires ParseInt(a) == Some(u) && ParseInt(b) == Some(v) && ParseInt(c) == Some(w)
    requires ParseInt(d) == Some(x) && ParseInt(e) == Some(y) && ParseInt(f) == Some(z)
    ensures Ints([a, b, c, d, e, f]) == Ok([u, v, w, x, y, z])
  {
    var c6: seq<string> := [];
    var v6: seq<int> := [];
    IntsCons(f, c6, z, v6);
    var c5 := [f] + c6;
    var v5 := [z] + v6;
    IntsCons(e, c5, y, v5);
    var c4 := [e] + c5;
    var v4 := [y] + v5;
    IntsCons(d, c4, x, v4);
    var c3 := [d] + c4;
    var v3 := [x] + v4;
    assert c3 == [d, e, f] && v3 == [x, y, z];
    IntsCons(c, c3, w, v3);
    IntsCons(b, [c] + c3, v, [w] + v3);
    IntsCons(a, [b] + ([c] + c3), u, [v] + ([w] + v3));
    Spread(a, b, c, d, e, f);
    Spread(u, v, w, x, y, z);
  }

  /** `int()` of a zero-padded two-digit field. */
  lemma ParsePad2(n: int)
    requires 0 <= n < 100
    ensures ParseInt(Pad2(n)) == Some(n)
  {
    Pad2Value(n);
    ParseIntPositive(Pad2(n));
  }

  /** `int()` of a zero-padded four-digit field. */
  lemma ParsePad4(n: int)
    requires 0 <= n < 10000
    ensures ParseInt(Pad4(n)) == Some(n)
  {
    Pad4Value(n);
    ParseIntPositive(Pad4(n));
  }

  /* ---------- round trips ---------- */

  /** The expression for `%Y%m%d%H%M%S` takes the rendering of `d` field by field. */
  lemma CompactMatch(d: DateTime)
    requires Valid(d)
    ensures Match(CompactPattern, FormatCompact(d), 0)
         == Some(([Pad4(d.year), Pad2(d.month), Pad2(d.day), Pad2(d.hour), Pad2(d.minute), Pad2(d.second)], 14))
  {
    var s := FormatCompact(d);
    CompactIsFourteenDigits(d);
    assert s[0..4] == Pad4(d.year) && s[4..6] == Pad2(d.month) && s[6..8] == Pad2(d.day);
    assert s[8..10] == Pad2(d.hour) && s[10..12] == Pad2(d.minute) && s[12..14] == Pad2(d.second);
    var c6: seq<string> := [];
    var c5 := [Pad2(d.second)] + c6;
    var c4 := [Pad2(d.minute)] + c5;
    var c3 := [Pad2(d.hour)] + c4;
    var c2 := [Pad2(d.day)] + c3;
    var c1 := [Pad2(d.month)] + c2;
    var p5: seq<Piece> := [];
    var p4 := [Second] + p5;
    var p3 := [Minute] + p4;
    var p2 := [Hour] + p3;
    var p1 := [Day] + p2;
    var p0 := [Month] + p1;
    assert CompactPattern == [Year] + p0;
    PaddedSecond(p5, s, 12, d.second, c6, 14);
    PaddedMinute(p4, s, 10, d.minute, c5, 14);
    PaddedHour(p3, s, 8, d.hour, c4, 14);
    PaddedDay(p2, s, 6, d.day, c3, 14);
    PaddedMonth(p1, s, 4, d.month, c2, 14);
    PaddedYear(p0, s, 0, d.year, c1, 14);
    assert [Pad4(d.year)] + c1 == [Pad4(d.year), Pad2(d.month), Pad2(d.day), Pad2(d.hour), Pad2(d.minute), Pad2(d.second)];
  }

  /** A match that ends at the end of the text gives the fields' `int()`s. */
  lemma FieldsOf(pat: seq<Piece>, s: string, caps: seq<string>, vs: seq<int>)
    requires Match(pat, s, 0) == Some((caps, |s|)) && Ints(caps) == Ok(vs)
    ensures Fields(pat, s) == Ok(vs)
  {
  }

  /** A full match whose fields convert and make a valid date is what `ParseCompact` returns. */
  lemma CompactOfMatch(s: string, caps: seq<string>, vs: seq<int>)
    requires Match(CompactPattern, s, 0) == Some((caps, |s|)) && Ints(caps) == Ok(vs)
    requires |vs| == 6 && Valid(DateTime(vs[0], vs[1], vs[2], vs[3], vs[4], vs[5]))
    ensures ParseCompact(s) == Ok(DateTime(vs[0], vs[1], vs[2], vs[3], vs[4], vs[5]))
  {
    FieldsOf(CompactPattern, s, caps, vs);
  }

  /** A full match whose fields convert and make a valid date is what `ParseDotted` returns. */
  lemma DottedOfMatch(s: string, caps: seq<string>, vs: seq<int>)
    requires Match(DottedPattern, s, 0) == Some((caps, |s|)) && Ints(caps) == Ok(vs)
    requires |vs| == 6 && Valid(DateTime(vs[2], vs[1], vs[0], vs[3], vs[4], vs[5]))
    ensures ParseDotted(s) == Ok(DateTime(vs[2], vs[1], vs[0], vs[3], vs[4], vs[5]))
  {
    FieldsOf(DottedPattern, s, caps, vs);
  }

  /** `int()` of the fields of a rendering, in the order they were written. */
  lemma CompactInts(y: int, m: int, dd: int, h: int, mi: int, se: int)
    requires 0 <= y < 10000 && 0 <= m < 100 && 0 <= dd < 100
    requires 0 <= h < 100 && 0 <= mi < 100 && 0 <= se < 100
    ensures Ints([Pad4(y), Pad2(m), Pad2(dd), Pad2(h), Pad2(mi), Pad2(se)]) == Ok([y, m, dd, h, mi, se])
  {
    ParsePad4(y);
    ParsePad2(m);
    ParsePad2(dd);
    ParsePad2(h);
    ParsePad2(mi);
    ParsePad2(se);
    IntsSix(Pad4(y), Pad2(m), Pad2(dd), Pad2(h), Pad2(mi), Pad2(se), y, m, dd, h, mi, se);
  }

  lemma DottedInts(y: int, m: int, dd: int, h: int, mi: int, se: int)
    requires 0 <= y < 10000 && 0 <= m < 100 && 0 <= dd < 100
    requires 0 <= h < 100 && 0 <= mi < 100 && 0 <= se < 100
    ensures Ints([Pad2(dd), Pad2(m), Pad4(y), Pad2(h), Pad2(mi), Pad2(se)]) == Ok([dd, m, y, h, mi, se])
  {
    ParsePad2(dd);
    ParsePad2(m);
    ParsePad4(y);
    ParsePad2(h);
    ParsePad2(mi);
    ParsePad2(se);
    IntsSix(Pad2(dd), Pad2(m), Pad4(y), Pad2(h), Pad2(mi), Pad2(se), dd, m, y, h, mi, se);
  }

  /** What `strftime` writes, `strptime` reads back. */
  lemma CompactRoundTrip(d: DateTime)
    requires Valid(d)
    ensures ParseCompact(FormatCompact(d)) == Ok(d)
  {
    CompactMatch(d);
    CompactIsFourteenDigits(d);
    CompactInts(d.year, d.month, d.day, d.hour, d.minute, d.second);
    FieldsOf(CompactPattern, FormatCompact(d),
      [Pad4(d.year), Pad2(d.month), Pad2(d.day), Pad2(d.hour), Pad2(d.minute), Pad2(d.second)],
      [d.year, d.month, d.day, d.hour, d.minute, d.second]);
  }

  /** The `%H:%M:%S` tail of the dotted expression takes a zero-padded clock. */
  lemma ClockMatch(s: string, pos: nat, h: int, mi: int, se: int)
    requires 0 <= h < 24 && 0 <= mi < 60 && 0 <= se < 60
    requires pos + 8 == |s| && s[pos..] == Pad2(h) + ":" + Pad2(mi) + ":" + Pad2(se)
    ensures Match([Hour, Lit(':'), Minute, Lit(':'), Second], s, pos) == Some(([Pad2(h), Pad2(mi), Pad2(se)], |s|))
  {
    var t := s[pos..];
    assert s[pos..pos + 2] == t[0..2] == Pad2(h);
    assert s[pos + 3..pos + 5] == t[3..5] == Pad2(mi);
    assert s[pos + 6..pos + 8] == t[6..8] == Pad2(se);
    assert s[pos + 2] == t[2] == ':' && s[pos + 5] == t[5] == ':';
    var c3: seq<string> := [];
    var c2 := [Pad2(se)] + c3;
    var c1 := [Pad2(mi)] + c2;
    var p4: seq<Piece> := [];
    var p3 := [Second] + p4;
    var p2 := [Lit(':')] + p3;
    var p1 := [Minute] + p2;
    var p0 := [Lit(':')] + p1;
    PaddedSecond(p4, s, pos + 6, se, c3, |s|);
    LitStep(':', p3, s, pos + 5, c2, |s|);
    PaddedMinute(p2, s, pos + 3, mi, c2, |s|);
    LitStep(':', p1, s, pos + 2, c1, |s|);
    PaddedHour(p0, s, pos, h, c1, |s|);
    assert [Hour] + p0 == [Hour, Lit(':'), Minute, Lit(':'), Second];
    assert [Pad2(h)] + c1 == [Pad2(h), Pad2(mi), Pad2(se)];
  }

  /** The expression for `%d.%m.%Y %H:%M:%S` takes the rendering of `d` field by field. */
  lemma DottedMatch(d: DateTime)
    requires Valid(d)
    ensures Match(DottedPattern, FormatDotted(d), 0)
         == Some(([Pad2(d.day), Pad2(d.month), Pad4(d.year), Pad2(d.hour), Pad2(d.minute), Pad2(d.second)], 19))
  {
    var s := FormatDotted(d);
    Pad4Value(d.year); Pad2Value(d.hour);
    assert |s| == 19;
    assert s[0..2] == Pad2(d.day) && s[3..5] == Pad2(d.month) && s[6..10] == Pad4(d.year);
    assert s[11..] == Pad2(d.hour) + ":" + Pad2(d.minute) + ":" + Pad2(d.second);
    assert s[2] == '.' && s[5] == '.' && s[10] == ' ';
    assert IsDigit(s[11]);
    var clock := [Hour, Lit(':'), Minute, Lit(':'), Second];
    var c3 := [Pad2(d.hour), Pad2(d.minute), Pad2(d.second)];
    ClockMatch(s, 11, d.hour, d.minute, d.second);
    var c2 := [Pad4(d.year)] + c3;
    var c1 := [Pad2(d.month)] + c2;
    var p4 := [Spaces] + clock;
    var p3 := [Year] + p4;
    var p2 := [Lit('.')] + p3;
    var p1 := [Month] + p2;
    var p0 := [Lit('.')] + p1;
    assert DottedPattern == [Day] + p0;
    OneSpaceStep(clock, s, 10, c3, 19);
    PaddedYear(p4, s, 6, d.year, c3, 19);
    LitStep('.', p3, s, 5, c2, 19);
    PaddedMonth(p2, s, 3, d.month, c2, 19);
    LitStep('.', p1, s, 2, c1, 19);
    PaddedDay(p0, s, 0, d.day, c1, 19);
    assert [Pad2(d.day)] + c1 == [Pad2(d.day), Pad2(d.month), Pad4(d.year), Pad2(d.hour), Pad2(d.minute), Pad2(d.second)];
  }

  /** What `strftime` writes, `strptime` reads back. */
  lemma DottedRoundTrip(d: DateTime)
    requires Valid(d)
    ensures ParseDotted(FormatDotted(d)) == Ok(d)
  {
    DottedMatch(d);
    assert |FormatDotted(d)| == 19;
    DottedInts(d.year, d.month, d.day, d.hour, d.minute, d.second);
    FieldsOf(DottedPattern, FormatDotted(d),
      [Pad2(d.day), Pad2(d.month), Pad4(d.year), Pad2(d.hour), Pad2(d.minute), Pad2(d.second)],
      [d.day, d.month, d.year, d.hour, d.minute, d.second]);
  }
}

=== FILE: strptime_lenient.dfy ===
/** Two stamps the formats accept although no `strftime` with the same format
    writes them, each read end to end by the model of `datetime.strptime`: a
    twelve-digit compact stamp, and a dotted stamp without zero padding. */
module StrptimeLenient {
  import opened Wrappers
  import opened PyValue
  import opened PyStr
  import opened DateTime
  import opened Strptime

  /** A group has nothing to take at the end of the text. */
  lemma {:induction false} NoRoom(alts: seq<Alt>, rest: seq<Piece>, s: string)
    requires forall k :: 0 <= k < |alts| ==> alts[k] != []
    ensures TryAlts(alts, rest, s, |s|) == None
    decreases |alts|
  {
    if alts != [] {
      NoRoom(alts[1..], rest, s);
    }
  }

  /* ---------- "202411112233" under `%Y%m%d%H%M%S` ---------- */

  /** `%M%S` over "33": `[0-5]\d` takes both digits and leaves `%S` nothing, so
      the engine falls back to one digit each. */
  lemma MinuteSecondSplit(s: string)
    requires s == "202411112233"
    ensures Match([Minute, Second], s, 10) == Some((["3", "3"], 12))
  {
    var e: seq<Piece> := [];
    var sec := [Second] + e;
    assert sec[1..] == e;
    NoRoom(Second.alts, e, s);
    assert Match(sec, s, 12) == None;
    var c6: seq<string> := [];
    assert Match(e, s, 12) == Some((c6, 12));
    Fits2(Second.alts[0][0], Second.alts[0][1], s, 10);
    assert s[11..12] == "3";
    assert Fits(Second.alts[2], s, 11);
    Pick(Second, e, 2, s, 11, c6, 12);
    assert s[10..11] == "3";
    assert Fits(Minute.alts[1], s, 10);
    Pick(Minute, sec, 1, s, 10, ["3"] + c6, 12);
    assert [Minute] + sec == [Minute, Second];
    assert ["3"] + (["3"] + c6) == ["3", "3"];
  }

  /** `%H` takes "22", leaving "33" to the minute and the second. */
  lemma CompactBacktrackClock(s: string)
    requires s == "202411112233"
    ensures Match([Hour, Minute, Second], s, 8) == Some((["22", "3", "3"], 12))
  {
    MinuteSecondSplit(s);
    assert s[8..10] == "22";
    Fits2(Hour.alts[0][0], Hour.alts[0][1], s, 8);
    Pick(Hour, [Minute, Second], 0, s, 8, ["3", "3"], 12);
    assert [Hour] + [Minute, Second] == [Hour, Minute, Second];
    assert ["22"] + ["3", "3"] == ["22", "3", "3"];
  }

  lemma CompactBacktrackMatch()
    ensures Match(CompactPattern, "202411112233", 0) == Some((["2024", "11", "11", "22", "3", "3"], 12))
  {
    var s := "202411112233";
    var clock := [Hour, Minute, Second];
    var c3 := ["22", "3", "3"];
    CompactBacktrackClock(s);
    var dy := [Day] + clock;
    var mo := [Month] + dy;
    assert CompactPattern == [Year] + mo;
    assert s[6..8] == "11";
    Fits2(Day.alts[0][0], Day.alts[0][1], s, 6);
    Fits2(Day.alts[1][0], Day.alts[1][1], s, 6);
    Pick(Day, clock, 1, s, 6, c3, 12);
    assert s[4..6] == "11";
    Fits2(Month.alts[0][0], Month.alts[0][1], s, 4);
    Pick(Month, dy, 0, s, 4, ["11"] + c3, 12);
    assert s[0..4] == "2024";
    FitsSpelled(Year.alts[0], s, 0);
    Pick(Year, mo, 0, s, 0, ["11"] + (["11"] + c3), 12);
    Spread("2024", "11", "11", "22", "3", "3");
  }

  lemma ParseYear2024()
    ensures ParseInt("2024") == Some(2024)
  {
    var s := "2024";
    assert s[..3] == "202" && s[..2] == "20" && s[..1] == "2" && s[..0] == "";
    assert DigitsValue("2") == 2;
    assert DigitsValue("20") == 20;
    assert DigitsValue("202") == 202;
    assert DigitsValue(s) == 2024;
    ParseIntPositive(s);
  }

  lemma Parse11()
    ensures ParseInt("11") == Some(11)
  {
    ParseIntPositive("11");
  }

  lemma Parse22()
    ensures ParseInt("22") == Some(22)
  {
    ParseIntPositive("22");
  }

  lemma Parse3()
    ensures ParseInt("3") == Some(3)
  {
    ParseIntPositive("3");
  }

  lemma CompactBacktrackFields()
    ensures Ints(["2024", "11", "11", "22", "3", "3"]) == Ok([2024, 11, 11, 22, 3, 3])
  {
    ParseYear2024();
    Parse11();
    Parse22();
    Parse3();
    IntsSix("2024", "11", "11", "22", "3", "3", 2024, 11, 11, 22, 3, 3);
  }

  /** The minute and the second come out as one digit each. */
  lemma CompactBacktracks()
    ensures ParseCompact("202411112233") == Ok(DateTime(2024, 11, 11, 22, 3, 3))
  {
    CompactBacktrackMatch();
    CompactBacktrackFields();
    CompactOfMatch("202411112233", ["2024", "11", "11", "22", "3", "3"], [2024, 11, 11, 22, 3, 3]);
  }

  /* ---------- "1.2.2024 3:04:05" under `%d.%m.%Y %H:%M:%S` ---------- */

  /** `%H` falls through to `\d` on "3"; minute and second are padded. */
  lemma DottedShortClock(s: string)
    requires s == "1.2.2024 3:04:05"
    ensures Match([Hour, Lit(':'), Minute, Lit(':'), Second], s, 9) == Some((["3", "04", "05"], 16))
  {
    var c3: seq<string> := [];
    var p4: seq<Piece> := [];
    var p3 := [Second] + p4;
    var p2 := [Lit(':')] + p3;
    var p1 := [Minute] + p2;
    var p0 := [Lit(':')] + p1;
    assert Match(p4, s, 16) == Some((c3, 16));
    assert s[14..16] == "05";
    Fits2(Second.alts[0][0], Second.alts[0][1], s, 14);
    Fits2(Second.alts[1][0], Second.alts[1][1], s, 14);
    Pick(Second, p4, 1, s, 14, c3, 16);
    var c2 := ["05"] + c3;
    LitStep(':', p3, s, 13, c2, 16);
    assert s[11..13] == "04";
    Fits2(Minute.alts[0][0], Minute.alts[0][1], s, 11);
    Pick(Minute, p2, 0, s, 11, c2, 16);
    var c1 := ["04"] + c2;
    LitStep(':', p1, s, 10, c1, 16);
    assert s[9..10] == "3";
    Fits2(Hour.alts[0][0], Hour.alts[0][1], s, 9);
    Fits2(Hour.alts[1][0], Hour.alts[1][1], s, 9);
    assert Fits(Hour.alts[2], s, 9);
    Pick(Hour, p0, 2, s, 9, c1, 16);
    assert [Hour] + p0 == [Hour, Lit(':'), Minute, Lit(':'), Second];
    assert ["3"] + c1 == ["3", "04", "05"];
  }

  lemma DottedShortYear(s: string)
    requires s == "1.2.2024 3:04:05"
    ensures Match([Year, Spaces, Hour, Lit(':'), Minute, Lit(':'), Second], s, 4)
         == Some((["2024", "3", "04", "05"], 16))
  {
    var clock := [Hour, Lit(':'), Minute, Lit(':'), Second];
    var c3 := ["3", "04", "05"];
    DottedShortClock(s);
    var p4 := [Spaces] + clock;
    OneSpaceStep(clock, s, 8, c3, 16);
    assert s[4..8] == "2024";
    FitsSpelled(Year.alts[0], s, 4);
    Pick(Year, p4, 0, s, 4, c3, 16);
    assert [Year] + p4 == [Year, Spaces, Hour, Lit(':'), Minute, Lit(':'), Second];
    assert ["2024"] + c3 == ["2024", "3", "04", "05"];
  }

  /** `%d` and `%m` fall through to `[1-9]` on "1" and "2". */
  lemma DottedShortMatch()
    ensures Match(DottedPattern, "1.2.2024 3:04:05", 0) == Some((["1", "2", "2024", "3", "04", "05"], 16))
  {
    var s := "1.2.2024 3:04:05";
    var p3 := [Year, Spaces, Hour, Lit(':'), Minute, Lit(':'), Second];
    var c2 := ["2024", "3", "04", "05"];
    DottedShortYear(s);
    var p2 := [Lit('.')] + p3;
    var p1 := [Month] + p2;
    var p0 := [Lit('.')] + p1;
    assert DottedPattern == [Day] + p0;
    LitStep('.', p3, s, 3, c2, 16);
    assert s[2..3] == "2";
    Fits2(Month.alts[0][0], Month.alts[0][1], s, 2);
    Fits2(Month.alts[1][0], Month.alts[1][1], s, 2);
    assert Fits(Month.alts[2], s, 2);
    Pick(Month, p2, 2, s, 2, c2, 16);
    var c1 := ["2"] + c2;
    LitStep('.', p1, s, 1, c1, 16);
    assert s[0..1] == "1";
    Fits2(Day.alts[0][0], Day.alts[0][1], s, 0);
    Fits2(Day.alts[1][0], Day.alts[1][1], s, 0);
    Fits2(Day.alts[2][0], Day.alts[2][1], s, 0);
    assert Fits(Day.alts[3], s, 0);
    Pick(Day, p0, 3, s, 0, c1, 16);
    assert ["1"] + c1 == ["1", "2", "2024", "3", "04", "05"];
  }

  lemma Parse1()
    ensures ParseInt("1") == Some(1)
  {
    ParseIntPositive("1");
  }

  lemma Parse2()
    ensures ParseInt("2") == Some(2)
  {
    ParseIntPositive("2");
  }
  lemma Parse04()
    ensures ParseInt("04") == Some(4)
  {
    assert "04"[..1] == "0";
    assert DigitsValue("0") == 0;
    assert DigitsValue("04") == 4;
    ParseIntPositive("04");
  }

  lemma Parse05()
    ensures ParseInt("05") == Some(5)
  {
    assert "05"[..1] == "0";
    assert DigitsValue("0") == 0;
    assert DigitsValue("05") == 5;
    ParseIntPositive("05");
  }

  lemma DottedShortFields()
    ensures Ints(["1", "2", "2024", "3", "04", "05"]) == Ok([1, 2, 2024, 3, 4, 5])
  {
    Parse1();
    Parse2();
    ParseYear2024();
    Parse3();
    Parse04();
    Parse05();
    IntsSix("1", "2", "2024", "3", "04", "05", 1, 2, 2024, 3, 4, 5);
  }

  /** Day, month and hour are read from a single digit each. */
  lemma DottedShort()
    ensures ParseDotted("1.2.2024 3:04:05") == Ok(DateTime(2024, 2, 1, 3, 4, 5))
  {
    DottedShortMatch();
    DottedShortFields();
    DottedOfMatch("1.2.2024 3:04:05", ["1", "2", "2024", "3", "04", "05"], [1, 2, 2024, 3, 4, 5]);
  }
}

=== FILE: wrappers.dfy ===
/** Option and Result, usable with `:-`. A `Result` stands for a Python call that
    either returns a value or raises; `Err` carries the exception. */
module Wrappers {

  datatype Option<+T> = None | Some(value: T) {
    predicate IsFailure() {
      None?
    }

    function PropagateFailure<U>(): Option<U>
      requires None?
    {
      None
    }

    function Extract(): T
      requires Some?
    {
      value
    }
  }

  datatype Result<+T, +E> = Ok(value: T) | Err(error: E) {
    predicate IsFailure() {
      Err?
    }

    function PropagateFailure<U>(): Result<U, E>
      requires Err?
    {
      Err(error)
    }

    function Extract(): T
      requires Ok?
    {
      value
    }
  }
}
